=== FILE: README.md ===
# Unlock rules of a Call of Duty progress tracker, in Dafny

The tracker lets a signed-in player tick off weapon camos (mastery and
prestige) and optic reticles. Ticking one item also ticks its
prerequisites on the same weapon or optic (the *cascade*). Each click is
written optimistically: the checkboxes flip at once, one batch of rows is
upserted, and the page rolls back if the write fails. An account page
stores the player's level, prestige and Activision ID. A badge component
draws the prestige icon.

This project models those rules as pure functions over immutable data and
proves what they promise:

| file | module | what it holds |
|---|---|---|
| `wrappers.dfy` | `Wrappers` | `Option` |
| `text.dfy` | `Text` | `trim`, ASCII `toLowerCase`, `includes`, `\d`, `replace(/\D/g, "")` |
| `ordering.dfy` | `Ordering` | composite sort keys (numbers, then a string tie-break) and their three-way comparison |
| `sorting.dfy` | `Sorting` | stable sort by key (JavaScript's `Array.prototype.sort` is stable) |
| `lists.dfy` | `Lists` | `[...new Set(xs)]`, `findIndex`, and the `slice(0, findIndex + 1)` prefix |
| `grouping.dfy` | `Grouping` | grouping in order of first appearance, and fixed-order buckets |
| `protocol.dfy` | `Protocol` | the optimistic write with its rollback rules, the upsert payload, and "check all" |
| `seasons.dfy` | `Seasons` | the release-season ranking and the season groups of a weapon class |
| `mastery.dfy` | `MasteryCamos` | mastery-camo tiers, cascade, toggle, check-all, best tier, tier counts, kind sections |
| `prestige.dfy` | `PrestigeCamos` | prestige-camo order, legend and prefix cascades, toggle, tier sections |
| `reticles.dfy` | `Reticles` | reticle order, prefix cascade, toggle, check-all, completion, range buckets |
| `accounts.dfy` | `Accounts` | save validation, the prestige and Activision-ID codecs, tag sanitising, load |
| `badge.dfy` | `PrestigeBadge` | the badge's master detection, clamp, title and image |

The progress and saving records are `map<string, bool>`. A missing entry
reads as `false`, like `progress[id] ?? false`. The outcome of each network
write is a boolean parameter `ok`. What a user action leaves behind is a
`Protocol.Outcome`: the records, the error this action reports, whether
the sign-in prompt was raised, and the rows sent. The mastery, prestige and
reticle pages never clear an error when a toggle succeeds (only their loaders
reset it), so a message from an earlier action can stay on screen; the model
reports each action's own error only.

Points where the code's behaviour is easy to misread:

- **Rollback.** On a failed write the pages do not restore each affected
  item's own previous value:
  - The mastery and reticle pages set every affected id to the *target's*
    previous value (`prevStatus ?? false`).
  - The prestige page reverts only the target.
  - `Protocol.RevertAllCanUncheckPrerequisite` shows the consequence: a
    failed check of `b` unchecks a prerequisite `a` that was checked
    before.
  - `Protocol.RevertAllRestoresUniform` shows that the two readings agree
    when every affected id held the target's value.
- **Order of checks.** The mastery and prestige toggles report an unknown
  id before a missing user. The reticle toggle checks the user first.
- **Sign-in prompt.** Only the prestige toggle raises the sign-in prompt.

## Model

| member | source | states |
|---|---|---|
| Text.Trim | src/app/accounts/page.tsx:66-67 | `trim` drops whitespace at both ends only: the result is a contiguous piece of the input with only whitespace before and after it, it starts and ends with non-whitespace, and it is empty exactly when the input is all whitespace |
| Text.Contains | src/app/camos/mastery/page.tsx:228-236 | `includes` holds exactly when the keyword occurs as a contiguous block at some position |
| Ordering.KeyCmpTrans | src/app/camos/mastery/page.tsx:280-288 | the comparators (numeric fields, then a string tie-break) are transitive |
| Ordering.KeyCmpFlip | src/app/camos/mastery/page.tsx:280-288 | comparing b with a gives the opposite of comparing a with b |
| Sorting.Sort | src/app/camos/mastery/page.tsx:280-288 | a sorted list is a permutation of its input and is ordered by the comparator |
| Sorting.SortStable | src/app/camos/mastery/page.tsx:280-288 | items whose keys compare equal keep their input order |
| Sorting.SortedBefore | src/app/reticles/page.tsx:155-166 | in a sorted list, an item with a strictly smaller key sits strictly earlier |
| Lists.Dedupe | src/app/camos/mastery/page.tsx:334 | `[...new Set(xs)]` has no duplicates and the same members as its input, leaves a duplicate-free list unchanged, and lists its items in the order of their first occurrence in the input |
| Lists.UpTo | src/app/camos/mastery/page.tsx:324-327 | `slice(0, findIndex + 1)` with the single-id fallback: the result ends with the sought item and holds it nowhere earlier; it is a prefix of the list when the item is present, and just the item otherwise |
| Lists.IndexOf | src/app/camos/mastery/page.tsx:324 | `findIndex` is -1 exactly when the item is absent; otherwise it is the first position holding the item |
| Grouping.GroupByPartition | src/app/camos/mastery/page.tsx:453-462 | grouping by first appearance gives distinct, non-empty groups, and the group with key k holds exactly the items with key k, in input order; the groups come in the order their keys first appear in the input |
| Grouping.GroupHeadsInOrder | src/app/camos/mastery/page.tsx:453-462 | of two groups, the earlier one's first item stands earlier in the input than the later one's first item |
| Grouping.BucketsPartition | src/app/camos/mastery/page.tsx:551-569 | fixed-order buckets with the empty ones dropped are distinct and non-empty, cover every item whose key is in the order, and come in the fixed order of their keys |
| Grouping.BucketsOrdered | src/app/camos/mastery/page.tsx:564-569 | of two kept buckets, the earlier one's key stands earlier in the fixed key order |
| Protocol.Mark | src/app/camos/mastery/page.tsx:364-379 | setting a list of ids to a value changes exactly those entries and keeps every other entry |
| Protocol.Optimistic | src/app/camos/mastery/page.tsx:364-379 | the optimistic step flags every affected id as saving and shows the requested value, touching nothing else |
| Protocol.RevertTarget | src/app/camos/prestige/page.tsx:245-252 | the prestige rollback gives the target its previous value and leaves every other affected id at what it holds |
| Protocol.Write | src/app/camos/mastery/page.tsx:364-424 | a write touches only the affected ids and always clears their saving flags; success leaves them at the requested value; failure applies the page's rollback rule |
| Protocol.Batch | src/app/camos/mastery/page.tsx:381-387 | the payload has one row per affected id, in order, with the requested status; `unlocked_at` is set exactly when the status is checked |
| Protocol.Upsert | src/app/camos/mastery/page.tsx:388-391 | after an upsert, the stored keys are the old keys plus the upserted ones |
| Protocol.UpsertBatch | src/app/camos/mastery/page.tsx:381-391 | upserting the batch stores the requested status for every affected id and leaves every other stored row unchanged |
| Protocol.WriteAgreesWithStore | src/app/camos/mastery/page.tsx:364-391 | after a successful write the page shows, for every affected id, the status the store now holds |
| Protocol.WriteIdempotent | src/app/camos/mastery/page.tsx:364-424 | re-running a cascade whose ids already hold the requested value changes no progress entry, whether the write succeeds or fails |
| Protocol.RevertAllRestoresUniform | src/app/camos/mastery/page.tsx:403-411 | the all-to-target rollback restores each affected id's own previous value when they all held the target's value |
| Protocol.RevertAllCanUncheckPrerequisite | src/app/camos/mastery/page.tsx:403-411 | the all-to-target rollback can uncheck a prerequisite that was checked before the failed toggle |
| Protocol.Refuse | src/app/camos/mastery/page.tsx:304-312 | an action refused before writing leaves the records unchanged, reports its error and sends no rows |
| Protocol.Commit | src/app/camos/mastery/page.tsx:364-424 | a committed toggle reports an error exactly when the write failed, and sends the batch for its ids |
| Protocol.CheckWriteMonotone | src/app/camos/mastery/page.tsx:656-661 | a successful write to checked never unchecks an id and leaves every affected id checked |
| Protocol.CountChecked | src/app/camos/mastery/page.tsx:525-530 | the count of checked ids is at most their number; it equals it exactly when all are checked, and is 0 exactly when none is |
| Protocol.CountCheckedAppend | src/app/camos/mastery/page.tsx:527-530 | the checked count of two lists put together is the sum of their counts |
| Protocol.CountCheckedPositions | src/app/camos/mastery/page.tsx:527-530 | the checked count equals the number of positions whose id is checked |
| Protocol.CheckOneChecks | src/app/camos/mastery/page.tsx:658-660 | one successful check-all step keeps every checked id checked, leaves its item checked and adds no error |
| Protocol.CheckAllFromSkips | src/app/camos/mastery/page.tsx:658-659 | when every item is already checked, check-all changes nothing and sends nothing |
| Protocol.CheckAllFromKeeps | src/app/camos/mastery/page.tsx:656-662 | a check-all in which every write succeeds never unchecks an id and adds no error |
| Protocol.CheckAllFromChecks | src/app/camos/mastery/page.tsx:656-662 | a check-all in which every write succeeds leaves every item of its list checked |
| Protocol.CheckAllFromSucceeds | src/app/camos/mastery/page.tsx:651-663 | from a clean start, a check-all with only successful writes checks every item, unchecks nothing and reports no error |
| Seasons.Search | src/app/camos/mastery/page.tsx:439 | `match(/season\s*(\d+)/)` finds nothing exactly when the pattern matches at no position from the start on; otherwise it gives the number read at the leftmost position where it matches |
| Seasons.SeasonOrderValue | src/app/camos/mastery/page.tsx:435-442 | the season rank is never negative; it is 0 exactly for "launch" (any case, surrounding spaces); a missing season, or one where `season<spaces><digits>` occurs nowhere, is unranked (9999); otherwise it is the number at the leftmost match, with 0 read as unranked |
| Seasons.SeasonNumber | src/app/camos/mastery/page.tsx:435-442 | "Season N" ranks N for N > 0, whatever the digits' spelling, and is unranked for N = 0 |
| Seasons.NoSeasonWordUnranked | src/app/camos/mastery/page.tsx:435-442 | a label that never mentions "season" and is not "launch" is unranked |
| Seasons.OfClass | src/app/camos/mastery/page.tsx:206-215 | a class's weapons are exactly the loaded weapons carrying its id |
| Seasons.SeasonGroupsPartition | src/app/camos/mastery/page.tsx:444-462 | every weapon of the class lands in exactly one season group (its label, or "Unreleased"); the groups are distinct and non-empty, and each is season-sorted; the headings come in the order their labels first appear in the season-sorted list, so each heading's first weapon has a season rank no greater than the next heading's |
| Seasons.SeasonHeadsInOrder | src/app/camos/mastery/page.tsx:444-462 | of two season headings, the earlier label first appears earlier in the season-sorted list, and its first weapon's season rank is no greater |
| MasteryCamos.OfWeapon | src/app/camos/mastery/page.tsx:217-226 | a weapon's camos are exactly the loaded camos carrying its id |
| MasteryCamos.OfKind | src/app/camos/mastery/page.tsx:321-323 | filtering by kind keeps exactly the camos of that lower-cased kind |
| MasteryCamos.MasteryTier | src/app/camos/mastery/page.tsx:228-236 | only mastery camos have a tier; a doomsteel keyword beats a bloodstone one, which beats a gold one; no keyword means no tier |
| MasteryCamos.AtOrBelow | src/app/camos/mastery/page.tsx:346-351 | the lower-mastery filter keeps exactly the tiered camos whose tier is at or below the target's |
| MasteryCamos.BaseListMembers | src/app/camos/mastery/page.tsx:321-323 | the base list holds exactly the weapon's base camos |
| MasteryCamos.BaseIds | src/app/camos/mastery/page.tsx:324-327 | the base branch always ends with the target's id |
| MasteryCamos.SpecialIds | src/app/camos/mastery/page.tsx:333-334 | the special branch has no duplicates and includes the target |
| MasteryCamos.MasteryIds | src/app/camos/mastery/page.tsx:354-361 | the mastery branch has no duplicates and includes the target |
| MasteryCamos.Cascade | src/app/camos/mastery/page.tsx:316-362 | the target is always written; unchecking, or a kind other than base, special or mastery, writes only the target |
| MasteryCamos.BaseIndex | src/app/camos/mastery/page.tsx:324-327 | the position `findIndex` picks in the base list holds the target itself, and the base cascade is the id prefix up to it |
| MasteryCamos.BaseCascadePrefix | src/app/camos/mastery/page.tsx:320-327 | checking a base camo writes a non-empty prefix of the weapon's base camos in unlock order, ending with the target |
| MasteryCamos.BaseCascadeIncludesEarlier | src/app/camos/mastery/page.tsx:320-327 | every base sibling sorted strictly before the target is written with it |
| MasteryCamos.BaseCascadeExcludesLater | src/app/camos/mastery/page.tsx:320-327 | every base sibling written with the target is sorted no later than it |
| MasteryCamos.SpecialCascade | src/app/camos/mastery/page.tsx:328-334 | checking a special camo writes exactly the target and the ids of every base camo of its weapon, each once |
| MasteryCamos.MasteryCascade | src/app/camos/mastery/page.tsx:335-361 | checking a mastery camo writes exactly the target and its prerequisites (every base and special sibling, and the mastery siblings at or below its tier), each once |
| MasteryCamos.CamoById | src/app/camos/mastery/page.tsx:179-183 | the id lookup finds nothing exactly when no loaded camo has the id; otherwise it finds a loaded camo with that id after which no row carries the id, that is the last one |
| MasteryCamos.CamoByIdIsMap | src/app/camos/mastery/page.tsx:179-183 | the lookup returns exactly what filling `camoMap` row by row in catalog order leaves under the id, and nothing when the map has no entry |
| MasteryCamos.LastIndexIsMap | src/app/camos/mastery/page.tsx:179-183 | after the first n rows are stored, the map has the id exactly when one of them carries it, and holds the last such row |
| MasteryCamos.ToggleWith | src/app/camos/mastery/page.tsx:303-314 | an unknown id is reported before a missing user, and either leaves the records untouched; otherwise the cascade is committed with the all-to-target rollback |
| MasteryCamos.ToggleEffect | src/app/camos/mastery/page.tsx:364-424 | a toggle touches nothing outside its cascade and clears every written saving flag; success leaves the cascade at the requested value; failure leaves it at the target's previous value |
| MasteryCamos.Resolve | src/app/camos/mastery/page.tsx:660 | a check-all step knows an item exactly when the catalog does, and its cascade includes the item |
| MasteryCamos.StepIsToggle | src/app/camos/mastery/page.tsx:656-661 | each step of check-all is exactly the page's own toggle to checked |
| MasteryCamos.CheckAll | src/app/camos/mastery/page.tsx:651-655 | without a user, check-all only reports that sign-in is required |
| MasteryCamos.CheckAllSkipsChecked | src/app/camos/mastery/page.tsx:656-661 | if every camo of the section is already checked, check-all changes nothing and sends nothing |
| MasteryCamos.CheckAllChecks | src/app/camos/mastery/page.tsx:651-663 | if every write succeeds, check-all leaves every camo of the section checked, unchecks nothing and reports no error |
| MasteryCamos.Consider | src/app/camos/mastery/page.tsx:244-251 | one fold step only skips camos that are not checked, tiered mastery camos; it never lowers the best so far and leaves it at least the camo's tier |
| MasteryCamos.BestFrom | src/app/camos/mastery/page.tsx:241-254 | the priority fold never lowers its current best, and ends with the highest earned tier it has seen |
| MasteryCamos.BestTier | src/app/camos/mastery/page.tsx:238-256 | a weapon's status is the highest tier among its checked, tiered mastery camos, and none when it has none |
| MasteryCamos.StatusByWeapon | src/app/camos/mastery/page.tsx:238-256 | the status map has an entry for exactly the weapons that have camos, each holding that weapon's best tier |
| MasteryCamos.TallyFrom | src/app/camos/mastery/page.tsx:267-276 | the running tier counts grow by the number of weapons reaching each tier |
| MasteryCamos.MasteryProgress | src/app/camos/mastery/page.tsx:258-278 | each tier count is the number of weapons at that tier or higher, so doomsteel ≤ bloodstone ≤ gold ≤ weapons; the total is the weapon count, or 1 for none |
| MasteryCamos.ReachingNested | src/app/camos/mastery/page.tsx:267-276 | reaching a higher tier implies reaching every lower one |
| MasteryCamos.WeaponTally | src/app/camos/mastery/page.tsx:525-530 | a weapon's "unlocked / total" has total equal to its camo count and unlocked equal to the number of its camos that are checked, so unlocked ≤ total with equality exactly when all are checked |
| MasteryCamos.KindSectionsMembers | src/app/camos/mastery/page.tsx:551-563 | a camo sits in a section exactly when it is on the list and its kind (missing or unknown: "other") names that section |
| MasteryCamos.KindSectionsCover | src/app/camos/mastery/page.tsx:551-569 | every camo on the list has a section |
| MasteryCamos.KindSectionsPartition | src/app/camos/mastery/page.tsx:543-569 | the kind sections are distinct and non-empty, partition the list by kind, each is in list order, and they run mastery, special, base, other |
| MasteryCamos.SectionListed | src/app/camos/mastery/page.tsx:564-569 | every kind maps to one of the four listed sections |
| PrestigeCamos.ListKeyOrder | src/app/camos/prestige/page.tsx:264-272 | the list order compares the row-first sort value, and compares names only between equal sort values |
| PrestigeCamos.WeaponCamosMembers | src/app/camos/prestige/page.tsx:192 | the weapon's sorted list holds exactly its camos |
| PrestigeCamos.ChainIds | src/app/camos/prestige/page.tsx:196 | the legend branch has no duplicates |
| PrestigeCamos.PrefixIds | src/app/camos/prestige/page.tsx:197-200 | the prefix branch has no duplicates |
| PrestigeCamos.Cascade | src/app/camos/prestige/page.tsx:188-201 | a cascade has no duplicates, and unchecking writes only the target |
| PrestigeCamos.LegendCascade | src/app/camos/prestige/page.tsx:191-196 | checking a camo whose tier mentions "legend" writes exactly the ids of all of the weapon's camos |
| PrestigeCamos.TargetPosition | src/app/camos/prestige/page.tsx:192-193 | the target sits at some position of its weapon's sorted list |
| PrestigeCamos.PrefixMembers | src/app/camos/prestige/page.tsx:193-200 | the prefix branch writes exactly the ids of the list up to and including `findIndex`'s position |
| PrestigeCamos.PrefixIndex | src/app/camos/prestige/page.tsx:193-200 | `findIndex`'s position holds the target, and the prefix branch writes exactly the ids up to it |
| PrestigeCamos.PrefixIncludesEarlier | src/app/camos/prestige/page.tsx:197-200 | checking a non-legend camo writes every sibling sorted strictly before it |
| PrestigeCamos.PrefixExcludesLater | src/app/camos/prestige/page.tsx:197-200 | every sibling written with a non-legend target is sorted no later than it |
| PrestigeCamos.CamoById | src/app/camos/prestige/page.tsx:175 | `find` finds nothing exactly when no loaded camo has the id; otherwise it finds the first loaded camo with that id |
| PrestigeCamos.Toggle | src/app/camos/prestige/page.tsx:174-201 | an unknown id is reported first; a missing user raises the sign-in prompt and changes nothing; otherwise the cascade is committed with the target-only rollback |
| PrestigeCamos.TargetWritten | src/app/camos/prestige/page.tsx:188-200 | the toggled camo is always among the ids written |
| PrestigeCamos.ToggleEffect | src/app/camos/prestige/page.tsx:203-261 | a toggle touches nothing outside its cascade and clears every written saving flag; success leaves the cascade at the requested value; failure reverts only the target and leaves the others checked |
| PrestigeCamos.WeaponTally | src/app/camos/prestige/page.tsx:342-347 | a weapon's "unlocked / total" has total equal to its camo count and unlocked equal to the number of its camos that are checked, so unlocked ≤ total with equality exactly when all are checked |
| PrestigeCamos.SectionKey | src/app/camos/prestige/page.tsx:363-367 | a camo is listed under "master-all" exactly when its tier is master100, master150, master200 or master-all; every other camo is listed under its lower-cased tier, or "other" when it has none |
| PrestigeCamos.TierGroupsMembers | src/app/camos/prestige/page.tsx:361-370 | a camo sits in a tier group exactly when it is one of the weapon's camos and its section key names the group |
| PrestigeCamos.TierGroupsCover | src/app/camos/prestige/page.tsx:361-370 | every camo of the weapon has a tier group |
| PrestigeCamos.TierSectionsShape | src/app/camos/prestige/page.tsx:371-383 | sorting the groups by value keeps the same distinct, non-empty groups |
| PrestigeCamos.TierSectionsPartition | src/app/camos/prestige/page.tsx:360-383 | the tier sections partition the weapon's camos by section key, each in list order; they are ordered by their first item's value, and equal values keep the order in which their keys first appear in the weapon's camo list |
| Reticles.OpticListMembers | src/app/reticles/page.tsx:140-147 | an optic's sorted list holds exactly its reticles |
| Reticles.Cascade | src/app/reticles/page.tsx:212-219 | the cascade always ends with the target, and unchecking writes only the target |
| Reticles.CascadePrefix | src/app/reticles/page.tsx:213-218 | checking a reticle writes exactly the id prefix of its optic's sorted list up to the target's position |
| Reticles.CascadeIncludesEarlier | src/app/reticles/page.tsx:213-218 | every sibling sorted strictly before the target is written with it |
| Reticles.CascadeExcludesLater | src/app/reticles/page.tsx:213-218 | every sibling written with the target is sorted no later than it |
| Reticles.ReticleById | src/app/reticles/page.tsx:204 | `find` finds nothing exactly when no loaded reticle has the id; otherwise it finds the first loaded reticle with that id |
| Reticles.ToggleWith | src/app/reticles/page.tsx:199-219 | a missing user is reported before an unknown id, and either leaves the records untouched; otherwise the cascade is committed with the all-to-target rollback |
| Reticles.ToggleEffect | src/app/reticles/page.tsx:221-278 | a toggle touches nothing outside its cascade and clears every written saving flag; success leaves the cascade at the requested value; failure leaves it at the target's previous value |
| Reticles.Resolve | src/app/reticles/page.tsx:289 | a check-all step knows a reticle exactly when the catalog does, and its cascade includes it |
| Reticles.StepIsToggle | src/app/reticles/page.tsx:285-291 | each step of check-all is exactly the page's own toggle to checked |
| Reticles.CheckAll | src/app/reticles/page.tsx:280-284 | without a user, check-all only reports that sign-in is required |
| Reticles.CheckAllSkipsChecked | src/app/reticles/page.tsx:285-291 | if every reticle is already checked, check-all changes nothing and sends nothing |
| Reticles.CheckAllChecks | src/app/reticles/page.tsx:280-292 | if every write succeeds, check-all leaves every reticle of the list checked, unchecks nothing and reports no error |
| Reticles.OpticCompletion | src/app/reticles/page.tsx:168-176 | checked ≤ total, where total is the optic's reticle count; complete exactly when there is a reticle and all are checked; checked is 0 exactly when none is |
| Reticles.OpticsWithReticles | src/app/reticles/page.tsx:149-152 | the kept optics are exactly those with a loaded reticle |
| Reticles.OpticsWithReticlesAppend | src/app/reticles/page.tsx:150-152 | filtering two optic lists put together gives the two filtered lists put together, so the kept optics stay in their list order |
| Reticles.RangeOf | src/app/reticles/page.tsx:186-189 | an optic goes to short or long exactly when its category says so; every other optic, with or without a category, goes to medium |
| Reticles.RangeBucketMembers | src/app/reticles/page.tsx:186-189 | a bucket holds exactly the optics of its range |
| Reticles.SlugDescending | src/app/reticles/page.tsx:191-193 | within a bucket, slugs never increase |
| Reticles.OpticsByRangePartition | src/app/reticles/page.tsx:178-197 | there are always three buckets, short, medium and long in that order; each optic with reticles lands in exactly the bucket of its range; each bucket is in descending slug order |
| Accounts.Split | src/app/accounts/page.tsx:49 | `split("#")` gives at least one piece; no piece contains `#`, and joining the pieces with `#` gives back the input |
| Accounts.SplitHeads | src/app/accounts/page.tsx:49 | the first piece of `split("#")` is the text before the first `#` (the whole string when there is none, and then it is the only piece); the second is the text after the first `#`, up to the second `#` or the end |
| Accounts.SplitPair | src/app/accounts/page.tsx:49 | splitting `a#b` recovers `a` and `b` when neither contains `#` |
| Accounts.EncodePrestige | src/app/accounts/page.tsx:88 | the stored prestige is 11 for a master, and otherwise the entered value (null when empty) |
| Accounts.DecodePrestige | src/app/accounts/page.tsx:44-46 | a loaded prestige is master exactly when the stored value is at least 11, and is then shown as 10; otherwise it is the stored value, with a missing one read as 0 |
| Accounts.PrestigeRoundTrip | src/app/accounts/page.tsx:44-46 | saving and reloading keeps the master box, keeps a prestige of at most 10, and turns an empty prestige into 0 |
| Accounts.HighPrestigeReloadsAsMaster | src/app/accounts/page.tsx:44-46 | an entered prestige of 11 or more without the master box reloads as master, shown as 10 |
| Accounts.JoinId | src/app/accounts/page.tsx:89-90 | an Activision ID is stored exactly when both parts are non-empty, and is then the name, `#`, and the tag |
| Accounts.DecodeId | src/app/accounts/page.tsx:48-51 | the loaded name is the stored ID up to its first `#` (all of it when there is none, with an empty tag); the loaded tag is the piece between the first and second `#` when that piece is seven digits, and empty otherwise; the name contains no `#` and no stored ID loads as two empty fields |
| Accounts.IdRoundTrip | src/app/accounts/page.tsx:48-51 | a saved name and seven-digit tag reload unchanged exactly when the name contains no `#` |
| Accounts.SanitiseTag | src/app/accounts/page.tsx:194 | the tag input keeps only digits, at most seven, taken from the front of the typed digits; the result is seven digits exactly when at least seven were typed |
| Accounts.SanitiseTagIdempotent | src/app/accounts/page.tsx:194 | sanitising a sanitised tag changes nothing |
| Accounts.Save | src/app/accounts/page.tsx:59-96 | a save is refused for sign-in exactly when no user is present; otherwise it writes exactly when both trimmed parts are blank, or the name has at least 3 characters and the tag is seven digits; a short non-empty name is reported first, then a non-empty tag that is not seven digits, then one part given without the other; a written row carries the encoded prestige and ID |
| Accounts.SavedIdShape | src/app/accounts/page.tsx:66-90 | a written row has no ID exactly when both parts were blank, and otherwise has a name of at least 3 characters and a seven-digit tag |
| Accounts.Load | src/app/accounts/page.tsx:27-52 | without a user the form stays blank and asks for sign-in; a missing row leaves it blank; otherwise the level, decoded prestige and decoded ID fill it |
| Accounts.SaveThenLoad | src/app/accounts/page.tsx:42-51 | reloading a saved form gives back its level, master box, trimmed name and tag, and prestige (0 when empty, 10 when master), provided the name has no `#` and the prestige is at most 10 |
| PrestigeBadge.Clamp | src/app/components/PrestigeBadge.tsx:60 | the clamped level is in 0..10, and a level already in range is unchanged |
| PrestigeBadge.Visualise | src/app/components/PrestigeBadge.tsx:42-66 | the badge is master exactly for the master flag or a prestige of at least 11, even with no prestige set; no prestige gives "Prestige not set" and no image; otherwise the title names the clamped level and an image exists exactly when that level is above 0 |
| PrestigeBadge.DecimalInjective | src/app/components/PrestigeBadge.tsx:62 | distinct levels 0..10 are spelled differently in the title |
| PrestigeBadge.LabelNamesLevel | src/app/components/PrestigeBadge.tsx:60-65 | below master, two prestiges show the same title (and the same badge) exactly when they clamp to the same level |
| PrestigeBadge.ClampedBadge | src/app/components/PrestigeBadge.tsx:60-65 | below master, a prestige shows the same badge as its clamped level |

## Left out

- Loading the catalogs, progress and profile, the session lookup, and the upsert call are not modelled. The model takes loaded sequences, an optional user id and a boolean write outcome instead.
- Timestamps are left out. Only the fact that `unlocked_at` is set exactly when checking is kept (`Protocol.Batch`).
- The fire-and-forget `/api/logs` calls and console logging are not modelled.
- `handleCheckAll` starts all toggles at once with `Promise.all`. They are modelled one after another, each reading its previous value from the record as it was when check-all began. Interleavings of concurrent writes are not modelled, and the sequential fold can end in states the page cannot: with reticles `a` and `b`, where `b`'s cascade is `[a, b]`, a failed write for `a` and a successful one for `b`, the page ends with `a` unchecked (b's optimistic update lands before a's rollback) while the fold ends with both checked.
- `localeCompare` is modelled as code-point lexicographic order, not locale collation.
- `toLowerCase` is modelled on ASCII letters only.
- Strings are sequences of Unicode characters. `.length` in the 3-character name rule counts characters, not UTF-16 code units, so names with astral characters may differ.
- Numbers are integers. Floating-point prestige values, `NaN` (the badge's `Number.isNaN` branch) and the progress-bar percentages are left out.
- `Object.entries` lists integer-like keys first. The prestige tier groups are modelled in first-appearance order, which differs only for a tier named by digits.
- Tier and range labels, badge colours, `TIER_LABELS`, JSX, and the expand/collapse and disabled-button states are not modelled.
- The HTML `min`/`max`/`maxLength` limits on the form inputs are not modelled. The browser, not the code, enforces them.
- Mastery and prestige camo template names are `string` (mastery `page.tsx` line 36, prestige `page.tsx` line 24), so the `?? slug` fallback of their name sort is unreachable and is not modelled. A reticle template's name and slug are `string | null`, and `Reticles.Name` keeps `?? slug`.
- MasteryCamos.BaseCascadePrefix, MasteryCamos.BaseCascadeIncludesEarlier, MasteryCamos.BaseCascadeExcludesLater, PrestigeCamos.PrefixIncludesEarlier, PrestigeCamos.PrefixExcludesLater, Reticles.CascadePrefix, Reticles.CascadeIncludesEarlier and Reticles.CascadeExcludesLater: these assume that loaded row ids are unique (`UniqueIds`), as the primary key guarantees. With duplicate ids, `findIndex` could stop at another row.
- MasteryCamos.CheckAllChecks, Reticles.CheckAllChecks: these state the outcome only when every write succeeds. With failures, the last reported error wins.
- `src/app/api/*`, login and signup, the header, and the Supabase client factories are not part of this model.

=== FILE: accounts.dfy ===
/** The account page: the profile form, how saving validates and encodes it
    into a `profiles` row, and how loading decodes a row back into the form.
    The Activision ID is stored as one `name#tag` string and prestige as a
    number in which 11 stands for "Prestige Master". */
module Accounts {
  import opened Wrappers
  import opened Text
  import opened Lists

  type Id = string

  /** A `profiles` row: what a save writes and a load reads. */
  datatype Profile = Profile(id: Id, accountLevel: Option<int>, prestige: Option<int>, activisionId: Option<string>)

  /** The form's fields; an empty number input is `None`. */
  datatype Form = Form(level: Option<int>, prestige: Option<int>, isMaster: bool, name: string, tag: string)

  /** The form before anything is loaded. */
  const Blank: Form := Form(None, None, false, "", "")

  /** The stored prestige that stands for "Prestige Master". */
  const MasterPrestige: int := 11

  /** The number of digits of an Activision ID tag. */
  const TagLength: nat := 7

  // ---------------------------------------------------------------------
  // `split("#")`

  /** The pieces joined back with `sep` between them. */
  function Join(parts: seq<string>, sep: char): string
    requires |parts| >= 1
  {
    if |parts| == 1 then parts[0] else parts[0] + [sep] + Join(parts[1..], sep)
  }

  /** `s.split(sep)` for a one-character separator: the maximal pieces of `s`
      between occurrences of `sep`, with an empty piece around each
      leading, trailing or doubled separator. */
  function Split(s: string, sep: char): (r: seq<string>)
    ensures |r| >= 1
    ensures forall i :: 0 <= i < |r| ==> sep !in r[i]
    ensures Join(r, sep) == s
    decreases |s|
  {
    if |s| == 0 then [""]
    else
      var rest := Split(s[1..], sep);
      if s[0] == sep then
        assert s == [sep] + s[1..];
        [""] + rest
      else
        var r := [[s[0]] + rest[0]] + rest[1..];
        assert r[1..] == rest[1..];
        assert s == [s[0]] + s[1..];
        r
  }

  lemma {:induction false} SplitNoSep(b: string, sep: char)
    requires sep !in b
    ensures Split(b, sep) == [b]
    decreases |b|
  {
    if |b| > 0 {
      assert sep !in b[1..] by {
        forall k | 0 <= k < |b[1..]|
          ensures b[1..][k] != sep
        {
          assert b[1..][k] == b[k + 1];
        }
      }
      SplitNoSep(b[1..], sep);
      assert [b[0]] + b[1..] == b;
    }
  }

  /** `split` cuts at the first separator: the first piece is the text before
      it, and the rest is the split of the text after it. */
  lemma {:induction false} SplitFirst(s: string, sep: char)
    ensures IndexOf(s, sep) < 0 ==> Split(s, sep) == [s]
    ensures IndexOf(s, sep) >= 0 ==>
      Split(s, sep) == [s[..IndexOf(s, sep)]] + Split(s[IndexOf(s, sep) + 1..], sep)
    decreases |s|
  {
    if |s| > 0 && s[0] != sep {
      var k' := IndexOf(s[1..], sep);
      SplitFirst(s[1..], sep);
      assert [s[0]] + s[1..] == s;
      if k' >= 0 {
        var k := k' + 1;
        assert [s[0]] + s[1..][..k'] == s[..k];
        assert s[1..][k' + 1..] == s[k + 1..];
      }
    }
  }

  /** Splitting two separator-free pieces joined by the separator recovers them. */
  lemma {:induction false} SplitPair(a: string, b: string, sep: char)
    requires sep !in a && sep !in b
    ensures Split(a + [sep] + b, sep) == [a, b]
    decreases |a|
  {
    var s := a + [sep] + b;
    if |a| == 0 {
      assert s == [sep] + b;
      assert s[1..] == b;
      SplitNoSep(b, sep);
    } else {
      assert s[0] == a[0];
      assert s[1..] == a[1..] + [sep] + b;
      assert sep !in a[1..] by {
        forall k | 0 <= k < |a[1..]|
          ensures a[1..][k] != sep
        {
          assert a[1..][k] == a[k + 1];
        }
      }
      SplitPair(a[1..], b, sep);
      assert [a[0]] + a[1..] == a;
    }
  }

  // ---------------------------------------------------------------------
  // Codecs

  /** The stored prestige: 11 for a master, nothing for an empty field,
      otherwise the number entered. */
  function EncodePrestige(isMaster: bool, prestige: Option<int>): (r: Option<int>)
    ensures isMaster ==> r == Some(MasterPrestige)
    ensures !isMaster ==> r == prestige
  {
    if isMaster then Some(MasterPrestige) else prestige
  }

  datatype PrestigeField = PrestigeField(value: int, isMaster: bool)

  /** The prestige field and master box a stored prestige loads into: a
      missing value reads as 0, and 11 or more reads as master, shown as 10. */
  function DecodePrestige(stored: Option<int>): (r: PrestigeField)
    ensures r.isMaster <==> stored.Some? && stored.value >= MasterPrestige
    ensures r.value <= 10
    ensures r.isMaster ==> r.value == 10
    ensures !r.isMaster ==> r.value == stored.GetOr(0)
  {
    var v := stored.GetOr(0);
    PrestigeField(if v >= MasterPrestige then 10 else v, v >= MasterPrestige)
  }

  /** The master box survives a save and a reload; so does an entered
      prestige of at most 10, while an empty one comes back as 0. */
  lemma PrestigeRoundTrip(isMaster: bool, prestige: Option<int>)
    requires !isMaster && prestige.Some? ==> prestige.value <= 10
    ensures DecodePrestige(EncodePrestige(isMaster, prestige)).isMaster == isMaster
    ensures !isMaster ==> DecodePrestige(EncodePrestige(isMaster, prestige)).value == prestige.GetOr(0)
  {
  }

  /** An entered prestige above 10 without the master box is saved as is
      and reloads as master. */
  lemma HighPrestigeReloadsAsMaster(p: int)
    requires p >= MasterPrestige
    ensures DecodePrestige(EncodePrestige(false, Some(p))) == PrestigeField(10, true)
  {
  }

  /** The stored Activision ID: `name#tag` when both trimmed parts are
      non-empty, otherwise nothing. */
  function JoinId(name: string, tag: string): (r: Option<string>)
    ensures r.Some? <==> name != "" && tag != ""
    ensures r.Some? ==>
      && |r.value| == |name| + 1 + |tag| && r.value[..|name|] == name
      && r.value[|name|] == '#' && r.value[|name| + 1..] == tag
  {
    if name != "" && tag != "" then Some(name + "#" + tag) else None
  }

  datatype Identity = Identity(name: string, tag: string)

  /** The first two pieces of `split(sep)`, read off the first and second
      separator: without a separator there is one piece, the whole string. */
  lemma SplitHeads(s: string, sep: char)
    ensures var k := IndexOf(s, sep);
      && (k < 0 ==> Split(s, sep) == [s])
      && (k >= 0 ==>
        var rest := s[k + 1..];
        var j := IndexOf(rest, sep);
        && |Split(s, sep)| > 1
        && Split(s, sep)[0] == s[..k]
        && Split(s, sep)[1] == if j < 0 then rest else rest[..j])
  {
    SplitFirst(s, sep);
    var k := IndexOf(s, sep);
    if k >= 0 {
      SplitFirst(s[k + 1..], sep);
    }
  }

  /** The name and tag fields a stored Activision ID loads into: the name is
      the piece before the first `#`; the piece after it is taken as the tag
      only when it is exactly seven digits. */
  function DecodeId(stored: Option<string>): (r: Identity)
    ensures '#' !in r.name
    ensures r.tag == "" || IsSevenDigits(r.tag)
    ensures stored.None? ==> r == Identity("", "")
    ensures var s := stored.GetOr(""); var k := IndexOf(s, '#');
      && (k < 0 ==> r == Identity(s, ""))
      && (k >= 0 ==>
        var rest := s[k + 1..];
        var j := IndexOf(rest, '#');
        var piece := if j < 0 then rest else rest[..j];
        r.name == s[..k] && r.tag == (if IsSevenDigits(piece) then piece else ""))
  {
    var s := stored.GetOr("");
    var parts := Split(s, '#');
    SplitHeads(s, '#');
    Identity(parts[0], if |parts| > 1 && IsSevenDigits(parts[1]) then parts[1] else "")
  }

  /** A saved name and seven-digit tag load back unchanged exactly when the
      name holds no `#`; with one, the name is cut at the first `#`. */
  lemma IdRoundTrip(name: string, tag: string)
    requires name != "" && IsSevenDigits(tag)
    ensures DecodeId(JoinId(name, tag)) == Identity(name, tag) <==> '#' !in name
  {
    if '#' !in name {
      assert name + "#" + tag == name + ['#'] + tag;
      SplitPair(name, tag, '#');
    }
  }

  /** `value.replace(/\D/g, "").slice(0, 7)`: what the tag input keeps of
      what is typed or pasted into it. */
  function SanitiseTag(s: string): (r: string)
    ensures AllDigits(r) && |r| <= TagLength
    ensures |r| <= |DigitsOf(s)| && r == DigitsOf(s)[..|r|]
    ensures |DigitsOf(s)| <= TagLength ==> r == DigitsOf(s)
    ensures IsSevenDigits(r) <==> |DigitsOf(s)| >= TagLength
  {
    var ds := DigitsOf(s);
    if |ds| <= TagLength then ds else ds[..TagLength]
  }

  /** Sanitising leaves a sanitised tag (in particular a valid tag) alone. */
  lemma SanitiseTagIdempotent(s: string)
    ensures SanitiseTag(SanitiseTag(s)) == SanitiseTag(s)
  {
    DigitsOfAllDigits(SanitiseTag(s));
  }

  // ---------------------------------------------------------------------
  // Saving

  datatype SaveError = SignInRequired | NameTooShort | TagNotSevenDigits | NameWithoutTag

  datatype SaveResult = Rejected(error: SaveError) | Written(row: Profile)

  /** The pairs of trimmed name and tag a save accepts: both blank, or a
      name of at least three characters with a seven-digit tag. */
  predicate Acceptable(name: string, tag: string) {
    (name == "" && tag == "") || (|name| >= 3 && IsSevenDigits(tag))
  }

  /** `handleSave`: without a user the save is refused first; then the
      trimmed name must be blank or at least three characters long, the
      trimmed tag blank or seven digits, and they must be blank together.
      A save that passes writes one row with the encoded prestige and ID. */
  function Save(user: Option<Id>, f: Form): (r: SaveResult)
    ensures r == Rejected(SignInRequired) <==> user.None?
    ensures r.Written? <==> user.Some? && Acceptable(Trim(f.name), Trim(f.tag))
    ensures r == Rejected(NameTooShort) <==> user.Some? && 0 < |Trim(f.name)| < 3
    ensures r == Rejected(TagNotSevenDigits) <==>
      user.Some? && !(0 < |Trim(f.name)| < 3) && Trim(f.tag) != "" && !IsSevenDigits(Trim(f.tag))
    ensures r == Rejected(NameWithoutTag) <==>
      && user.Some? && !(0 < |Trim(f.name)| < 3) && (Trim(f.tag) == "" || IsSevenDigits(Trim(f.tag)))
      && (Trim(f.name) == "" <==> Trim(f.tag) != "")
    ensures r.Written? ==>
      && r.row.id == user.value && r.row.accountLevel == f.level
      && r.row.prestige == EncodePrestige(f.isMaster, f.prestige)
      && r.row.activisionId == JoinId(Trim(f.name), Trim(f.tag))
  {
    var name, tag := Trim(f.name), Trim(f.tag);
    if user.None? then Rejected(SignInRequired)
    else if !(name == "" || |name| >= 3) then Rejected(NameTooShort)
    else if !(tag == "" || IsSevenDigits(tag)) then Rejected(TagNotSevenDigits)
    else if (name != "" && tag == "") || (name == "" && tag != "") then Rejected(NameWithoutTag)
    else Written(Profile(user.value, f.level, EncodePrestige(f.isMaster, f.prestige), JoinId(name, tag)))
  }

  /** A written row stores an ID exactly when both parts were filled in. */
  lemma SavedIdShape(user: Option<Id>, f: Form)
    requires Save(user, f).Written?
    ensures var id := Save(user, f).row.activisionId;
      && (id.None? <==> Trim(f.name) == "" && Trim(f.tag) == "")
      && (id.Some? ==> |Trim(f.name)| >= 3 && IsSevenDigits(Trim(f.tag)))
  {
  }

  // ---------------------------------------------------------------------
  // Loading

  datatype Loaded = Loaded(form: Form, signInRequired: bool)

  /** The page's load: without a user the form stays blank and asks to sign
      in; a missing or unreadable row leaves it blank; otherwise the row's
      fields are decoded into it. */
  function Load(user: Option<Id>, row: Option<Profile>): (r: Loaded)
    ensures r.signInRequired <==> user.None?
    ensures user.None? || row.None? ==> r.form == Blank
    ensures user.Some? && row.Some? ==>
      && r.form.level == row.value.accountLevel
      && r.form.prestige == Some(DecodePrestige(row.value.prestige).value)
      && r.form.isMaster == DecodePrestige(row.value.prestige).isMaster
      && Identity(r.form.name, r.form.tag) == DecodeId(row.value.activisionId)
  {
    if user.None? then Loaded(Blank, true)
    else match row
      case None => Loaded(Blank, false)
      case Some(p) =>
        var pf := DecodePrestige(p.prestige);
        var id := DecodeId(p.activisionId);
        Loaded(Form(p.accountLevel, Some(pf.value), pf.isMaster, id.name, id.tag), false)
  }

  /** Saving a form and loading the row back gives the form with its ID
      parts trimmed and an empty prestige shown as 0, as long as the name
      holds no `#` and a non-master prestige is at most 10. */
  lemma SaveThenLoad(user: Option<Id>, f: Form)
    requires Save(user, f).Written?
    requires '#' !in Trim(f.name)
    requires !f.isMaster && f.prestige.Some? ==> f.prestige.value <= 10
    ensures var g := Load(user, Some(Save(user, f).row)).form;
      && g.level == f.level
      && g.isMaster == f.isMaster
      && g.prestige == Some(if f.isMaster then 10 else f.prestige.GetOr(0))
      && g.name == Trim(f.name) && g.tag == Trim(f.tag)
  {
    var name, tag := Trim(f.name), Trim(f.tag);
    PrestigeRoundTrip(f.isMaster, f.prestige);
    if name != "" {
      IdRoundTrip(name, tag);
    }
  }
}

=== FILE: badge.dfy ===
/** The prestige badge shown next to a player: which image and label a
    stored prestige and master flag select. */
module PrestigeBadge {
  import opened Wrappers

  /** The badge images: one per prestige 1 to 10, and the master badge. */
  datatype Asset = PrestigeImage(level: int) | MasterImage

  /** The images of the ordinary prestige levels, keyed by level. */
  const Assets: map<int, Asset> := map[
    1 := PrestigeImage(1), 2 := PrestigeImage(2), 3 := PrestigeImage(3), 4 := PrestigeImage(4),
    5 := PrestigeImage(5), 6 := PrestigeImage(6), 7 := PrestigeImage(7), 8 := PrestigeImage(8),
    9 := PrestigeImage(9), 10 := PrestigeImage(10)]

  /** `title` is the label shown beside the badge and the image's alternative text. */
  datatype Visual = Visual(title: string, asset: Option<Asset>, master: bool)

  /** `Math.min(10, Math.max(0, p))`. */
  function Clamp(p: int): (c: int)
    ensures 0 <= c <= 10
    ensures 0 <= p <= 10 ==> c == p
    ensures p < 0 ==> c == 0
    ensures p > 10 ==> c == 10
  {
    if p < 0 then 0 else if p > 10 then 10 else p
  }

  /** The decimal spelling of a number from 0 to 10. */
  function Decimal(n: int): (s: string)
    requires 0 <= n <= 10
    ensures 1 <= |s| <= 2
  {
    if n == 10 then "10" else [('0' as int + n) as char]
  }

  /** Distinct levels are spelled differently. */
  lemma DecimalInjective(m: int, n: int)
    requires 0 <= m <= 10 && 0 <= n <= 10
    ensures Decimal(m) == Decimal(n) <==> m == n
  {
    if m != n && m < 10 && n < 10 {
      assert Decimal(m)[0] != Decimal(n)[0];
    }
  }

  /** `getPrestigeVisual`: the master badge for the master flag or a prestige
      of 11 or more, whether or not a prestige is set; "not set" with no
      image for a missing prestige; otherwise the level clamped to 0..10,
      with that level's image from 1 up and none at 0. */
  function Visualise(prestige: Option<int>, isMaster: bool): (v: Visual)
    ensures v.master <==> isMaster || (prestige.Some? && prestige.value >= 11)
    ensures v.master ==> v.title == "Prestige Master" && v.asset == Some(MasterImage)
    ensures !v.master && prestige.None? ==> v.title == "Prestige not set" && v.asset.None?
    ensures !v.master && prestige.Some? ==>
      && v.title == "Prestige " + Decimal(Clamp(prestige.value))
      && (v.asset.Some? <==> Clamp(prestige.value) > 0)
      && (v.asset.Some? ==> v.asset.value == PrestigeImage(Clamp(prestige.value)))
  {
    if isMaster || (prestige.Some? && prestige.value >= 11) then
      Visual("Prestige Master", Some(MasterImage), true)
    else if prestige.None? then
      Visual("Prestige not set", None, false)
    else
      var c := Clamp(prestige.value);
      Visual("Prestige " + Decimal(c), if c > 0 then Some(Assets[c]) else None, false)
  }

  /** Away from the master badge, the title names the level shown: two
      prestiges get the same title exactly when they clamp to the same level,
      and the image, when there is one, is that level's. */
  lemma LabelNamesLevel(p: int, q: int)
    requires p < 11 && q < 11
    ensures Visualise(Some(p), false).title == Visualise(Some(q), false).title <==> Clamp(p) == Clamp(q)
    ensures Visualise(Some(p), false) == Visualise(Some(q), false) <==> Clamp(p) == Clamp(q)
  {
    var lp, lq := Visualise(Some(p), false).title, Visualise(Some(q), false).title;
    DecimalInjective(Clamp(p), Clamp(q));
    if lp == lq {
      assert lp[9..] == Decimal(Clamp(p)) && lq[9..] == Decimal(Clamp(q));
    }
  }

  /** The badge never shows a level outside 0..10: any prestige below 11
      shows the same badge as its clamped level. */
  lemma ClampedBadge(p: int)
    requires p < 11
    ensures Visualise(Some(p), false) == Visualise(Some(Clamp(p)), false)
  {
  }
}

=== FILE: grouping.dfy ===
/** Grouping by first appearance: walk a list and push each item onto the
    group whose key matches, opening a new group at the end when none does.
    Both the season groups of the weapon lists and the tier sections of the
    prestige page are built this way. */
module Grouping {
  import opened Ordering
  import opened Sorting
  import opened Lists

  datatype Group<K, T> = Group(key: K, items: seq<T>)

  /** The items of `s` whose key is `k`, in their order in `s`. */
  function With<K(==), T>(s: seq<T>, key: T -> K, k: K): seq<T> {
    if |s| == 0 then []
    else if key(s[0]) == k then [s[0]] + With(s[1..], key, k)
    else With(s[1..], key, k)
  }

  lemma {:induction false} WithMembers<K, T>(s: seq<T>, key: T -> K, k: K)
    ensures forall x :: x in With(s, key, k) <==> x in s && key(x) == k
  {
    if |s| > 0 {
      WithMembers(s[1..], key, k);
      assert forall x :: x in s <==> x == s[0] || x in s[1..];
    }
  }

  /** Each picked item sits at some position of `s` and carries key `k`. */
  lemma {:induction false} WithIndex<K, T>(s: seq<T>, key: T -> K, k: K, i: int)
    requires 0 <= i < |With(s, key, k)|
    ensures exists m :: 0 <= m < |s| && s[m] == With(s, key, k)[i] && key(s[m]) == k
  {
    var rest := With(s[1..], key, k);
    if key(s[0]) == k && i == 0 {
      assert s[0] == With(s, key, k)[0];
    } else {
      var i' := if key(s[0]) == k then i - 1 else i;
      assert With(s, key, k)[i] == rest[i'];
      WithIndex(s[1..], key, k, i');
      var m :| 0 <= m < |s[1..]| && s[1..][m] == rest[i'] && key(s[1..][m]) == k;
      assert s[m + 1] == s[1..][m];
    }
  }

  lemma {:induction false} WithAppend<K, T>(a: seq<T>, b: seq<T>, key: T -> K, k: K)
    ensures With(a + b, key, k) == With(a, key, k) + With(b, key, k)
  {
    if |a| == 0 {
      assert a + b == b;
    } else {
      assert (a + b)[0] == a[0];
      assert (a + b)[1..] == a[1..] + b;
      WithAppend(a[1..], b, key, k);
    }
  }

  /** `m` is the first position of `s` keyed `k`. */
  predicate FirstAt<K(==), T>(s: seq<T>, key: T -> K, k: K, m: int) {
    0 <= m < |s| && key(s[m]) == k && forall n :: 0 <= n < m ==> key(s[n]) != k
  }

  /** The first item of `s` keyed `k` heads the picked items. */
  lemma {:induction false} WithFirst<K, T>(s: seq<T>, key: T -> K, k: K)
    requires |With(s, key, k)| > 0
    ensures exists m :: FirstAt(s, key, k, m) && s[m] == With(s, key, k)[0]
  {
    if key(s[0]) == k {
      assert FirstAt(s, key, k, 0);
    } else {
      var tail := s[1..];
      WithFirst(tail, key, k);
      var m :| FirstAt(tail, key, k, m) && tail[m] == With(tail, key, k)[0];
      assert s[m + 1] == tail[m];
      forall n | 0 <= n < m + 1
        ensures key(s[n]) != k
      {
        if n > 0 {
          assert s[n] == tail[n - 1];
        }
      }
      assert FirstAt(s, key, k, m + 1);
    }
  }

  /** Key `a` turns up in `s` before key `b` does: some item keyed `a` comes
      before every item keyed `b` (there may be none). */
  predicate FirstBefore<K(==), T>(s: seq<T>, key: T -> K, a: K, b: K) {
    exists m :: 0 <= m < |s| && key(s[m]) == a && forall n :: 0 <= n <= m ==> key(s[n]) != b
  }

  /** Appending items does not change which key turned up first. */
  lemma FirstBeforeExtend<K, T>(s: seq<T>, t: seq<T>, key: T -> K, a: K, b: K)
    requires FirstBefore(s, key, a, b)
    ensures FirstBefore(s + t, key, a, b)
  {
    var m :| 0 <= m < |s| && key(s[m]) == a && forall n :: 0 <= n <= m ==> key(s[n]) != b;
    assert (s + t)[m] == s[m];
    forall n | 0 <= n <= m
      ensures key((s + t)[n]) != b
    {
      assert (s + t)[n] == s[n];
    }
  }

  /** The groups come in the order their keys first turn up in `s`. */
  predicate KeysInOrder<K(==), T>(groups: seq<Group<K, T>>, s: seq<T>, key: T -> K) {
    forall i, j :: 0 <= i < j < |groups| ==> FirstBefore(s, key, groups[i].key, groups[j].key)
  }

  /** The items of the group keyed `k`, or nothing when there is no such group. */
  function ItemsOf<K(==), T>(groups: seq<Group<K, T>>, k: K): seq<T> {
    if |groups| == 0 then []
    else if groups[0].key == k then groups[0].items
    else ItemsOf(groups[1..], k)
  }

  predicate DistinctKeys<K(==), T>(groups: seq<Group<K, T>>) {
    forall i, j :: 0 <= i < j < |groups| ==> groups[i].key != groups[j].key
  }

  predicate NonEmpty<K, T>(groups: seq<Group<K, T>>) {
    forall i :: 0 <= i < |groups| ==> |groups[i].items| > 0
  }

  /** `groups.find((g) => g.key === k)` then push, or open a new group. */
  function Place<K(==), T>(groups: seq<Group<K, T>>, x: T, k: K): (r: seq<Group<K, T>>)
    ensures |r| == |groups| || |r| == |groups| + 1
    ensures forall i :: 0 <= i < |groups| ==> r[i].key == groups[i].key && |r[i].items| >= |groups[i].items|
    ensures |r| == |groups| + 1 ==> r[|groups|] == Group(k, [x]) && forall i :: 0 <= i < |groups| ==> groups[i].key != k
    ensures |r| == |groups| ==> exists i :: 0 <= i < |groups| && groups[i].key == k
  {
    if |groups| == 0 then [Group(k, [x])]
    else if groups[0].key == k then [Group(k, groups[0].items + [x])] + groups[1..]
    else
      var rest := Place(groups[1..], x, k);
      assert forall i :: 1 <= i < |groups| ==> groups[i] == groups[1..][i - 1];
      [groups[0]] + rest
  }

  lemma PlaceShape<K, T>(groups: seq<Group<K, T>>, x: T, kx: K)
    requires DistinctKeys(groups) && NonEmpty(groups)
    ensures DistinctKeys(Place(groups, x, kx)) && NonEmpty(Place(groups, x, kx))
  {
  }

  lemma {:induction false} PlaceItems<K, T>(groups: seq<Group<K, T>>, x: T, kx: K, k: K)
    ensures ItemsOf(Place(groups, x, kx), k) == ItemsOf(groups, k) + (if k == kx then [x] else [])
  {
    var r := Place(groups, x, kx);
    if |groups| == 0 {
    } else if groups[0].key == kx {
      assert r[1..] == groups[1..];
    } else {
      PlaceItems(groups[1..], x, kx, k);
      assert r[1..] == Place(groups[1..], x, kx);
    }
  }

  function GroupFrom<K(==), T>(groups: seq<Group<K, T>>, s: seq<T>, key: T -> K): seq<Group<K, T>>
    decreases |s|
  {
    if |s| == 0 then groups else GroupFrom(Place(groups, s[0], key(s[0])), s[1..], key)
  }

  /** Groups the items of `s` by `key`, in order of first appearance. */
  function GroupBy<K(==), T>(s: seq<T>, key: T -> K): seq<Group<K, T>> {
    GroupFrom([], s, key)
  }

  /** Placing one more item keeps the groups a partition of what was walked. */
  lemma PlaceStep<K, T>(groups: seq<Group<K, T>>, done: seq<T>, x: T, key: T -> K)
    requires DistinctKeys(groups) && NonEmpty(groups)
    requires forall k :: ItemsOf(groups, k) == With(done, key, k)
    ensures DistinctKeys(Place(groups, x, key(x))) && NonEmpty(Place(groups, x, key(x)))
    ensures forall k :: ItemsOf(Place(groups, x, key(x)), k) == With(done + [x], key, k)
  {
    forall k
      ensures ItemsOf(Place(groups, x, key(x)), k) == With(done + [x], key, k)
    {
      PlaceItems(groups, x, key(x), k);
      WithAppend(done, [x], key, k);
    }
    PlaceShape(groups, x, key(x));
  }

  /** A group opened for a new key goes last, and its key turns up after every
      other key walked so far. */
  lemma PlaceOrder<K, T>(groups: seq<Group<K, T>>, done: seq<T>, x: T, key: T -> K)
    requires DistinctKeys(groups) && NonEmpty(groups)
    requires forall k :: ItemsOf(groups, k) == With(done, key, k)
    requires KeysInOrder(groups, done, key)
    ensures KeysInOrder(Place(groups, x, key(x)), done + [x], key)
  {
    var r := Place(groups, x, key(x));
    forall i, j | 0 <= i < j < |r|
      ensures FirstBefore(done + [x], key, r[i].key, r[j].key)
    {
      if j < |groups| {
        FirstBeforeExtend(done, [x], key, groups[i].key, groups[j].key);
      } else {
        NewKeyLast(groups, done, x, key, i);
      }
    }
  }

  /** A key no group carries yet turns up after every key that has a group. */
  lemma NewKeyLast<K, T>(groups: seq<Group<K, T>>, done: seq<T>, x: T, key: T -> K, i: int)
    requires DistinctKeys(groups) && NonEmpty(groups)
    requires forall k :: ItemsOf(groups, k) == With(done, key, k)
    requires 0 <= i < |groups| && forall j :: 0 <= j < |groups| ==> groups[j].key != key(x)
    ensures FirstBefore(done + [x], key, groups[i].key, key(x))
  {
    var m := GroupKeyOccurs(groups, done, key, i);
    UngroupedKeyAbsent(groups, done, key, key(x));
    FirstBeforeAt(done, [x], key, groups[i].key, key(x), m);
  }

  /** A group's key is carried by some item walked so far. */
  lemma GroupKeyOccurs<K, T>(groups: seq<Group<K, T>>, done: seq<T>, key: T -> K, i: int) returns (m: int)
    requires DistinctKeys(groups) && NonEmpty(groups)
    requires forall k :: ItemsOf(groups, k) == With(done, key, k)
    requires 0 <= i < |groups|
    ensures 0 <= m < |done| && key(done[m]) == groups[i].key
  {
    ItemsOfKeys(groups, groups[i].key);
    WithIndex(done, key, groups[i].key, 0);
    m :| 0 <= m < |done| && done[m] == With(done, key, groups[i].key)[0] && key(done[m]) == groups[i].key;
  }

  /** A key without a group is carried by no item walked so far. */
  lemma UngroupedKeyAbsent<K, T>(groups: seq<Group<K, T>>, done: seq<T>, key: T -> K, b: K)
    requires DistinctKeys(groups) && NonEmpty(groups)
    requires forall k :: ItemsOf(groups, k) == With(done, key, k)
    requires forall j :: 0 <= j < |groups| ==> groups[j].key != b
    ensures forall y :: y in done ==> key(y) != b
  {
    ItemsOfKeys(groups, b);
    WithMembers(done, key, b);
  }

  /** An item keyed `a` in `s` comes before every item keyed `b` once `s` has none. */
  lemma FirstBeforeAt<K, T>(s: seq<T>, t: seq<T>, key: T -> K, a: K, b: K, m: int)
    requires 0 <= m < |s| && key(s[m]) == a
    requires forall y :: y in s ==> key(y) != b
    ensures FirstBefore(s + t, key, a, b)
  {
    assert (s + t)[m] == s[m];
    forall n | 0 <= n <= m
      ensures key((s + t)[n]) != b
    {
      assert (s + t)[n] == s[n];
    }
  }

  lemma {:induction false} GroupFromOrder<K, T>(groups: seq<Group<K, T>>, done: seq<T>, s: seq<T>, key: T -> K)
    requires DistinctKeys(groups) && NonEmpty(groups)
    requires forall k :: ItemsOf(groups, k) == With(done, key, k)
    requires KeysInOrder(groups, done, key)
    ensures KeysInOrder(GroupFrom(groups, s, key), done + s, key)
    decreases |s|
  {
    if |s| == 0 {
      assert done + s == done;
    } else {
      PlaceStep(groups, done, s[0], key);
      PlaceOrder(groups, done, s[0], key);
      GroupFromOrder(Place(groups, s[0], key(s[0])), done + [s[0]], s[1..], key);
      assert (done + [s[0]]) + s[1..] == done + s;
    }
  }

  lemma {:induction false} GroupFromItems<K, T>(groups: seq<Group<K, T>>, done: seq<T>, s: seq<T>, key: T -> K)
    requires DistinctKeys(groups) && NonEmpty(groups)
    requires forall k :: ItemsOf(groups, k) == With(done, key, k)
    ensures DistinctKeys(GroupFrom(groups, s, key)) && NonEmpty(GroupFrom(groups, s, key))
    ensures forall k :: ItemsOf(GroupFrom(groups, s, key), k) == With(done + s, key, k)
    decreases |s|
  {
    if |s| == 0 {
      assert done + s == done;
    } else {
      PlaceStep(groups, done, s[0], key);
      GroupFromItems(Place(groups, s[0], key(s[0])), done + [s[0]], s[1..], key);
      assert (done + [s[0]]) + s[1..] == done + s;
    }
  }

  lemma {:induction false} ItemsOfKeys<K, T>(groups: seq<Group<K, T>>, k: K)
    requires DistinctKeys(groups) && NonEmpty(groups)
    ensures ItemsOf(groups, k) != [] <==> exists i :: 0 <= i < |groups| && groups[i].key == k
    ensures forall i :: 0 <= i < |groups| && groups[i].key == k ==> groups[i].items == ItemsOf(groups, k)
  {
    if |groups| > 0 {
      var rest := groups[1..];
      assert forall i :: 0 <= i < |rest| ==> rest[i] == groups[i + 1];
      ItemsOfKeys(rest, k);
    }
  }

  /** Grouping is a partition by key: the keys are distinct, no group is
      empty, and the group keyed `k` holds exactly the items of `s` whose key
      is `k`, in their order in `s`; a key has a group iff some item carries
      it; and the groups come in the order their keys first turn up in `s`. */
  lemma GroupByPartition<K, T>(s: seq<T>, key: T -> K)
    ensures DistinctKeys(GroupBy(s, key)) && NonEmpty(GroupBy(s, key))
    ensures forall k :: ItemsOf(GroupBy(s, key), k) == With(s, key, k)
    ensures forall i :: 0 <= i < |GroupBy(s, key)| ==> GroupBy(s, key)[i].items == With(s, key, GroupBy(s, key)[i].key)
    ensures KeysInOrder(GroupBy(s, key), s, key)
  {
    GroupFromItems([], [], s, key);
    GroupFromOrder([], [], s, key);
    assert [] + s == s;
    var g := GroupBy(s, key);
    forall i | 0 <= i < |g|
      ensures g[i].items == With(s, key, g[i].key)
    {
      ItemsOfKeys(g, g[i].key);
      assert ItemsOf(g, g[i].key) == With(s, key, g[i].key);
    }
  }

  /** The first items of two groups sit in `s` in the groups' order. */
  lemma GroupHeadsInOrder<K, T>(s: seq<T>, key: T -> K, i: int, j: int)
    requires 0 <= i < j < |GroupBy(s, key)|
    ensures |GroupBy(s, key)[i].items| > 0 && |GroupBy(s, key)[j].items| > 0
    ensures exists a, b :: 0 <= a < b < |s| && s[a] == GroupBy(s, key)[i].items[0] && s[b] == GroupBy(s, key)[j].items[0]
  {
    var g := GroupBy(s, key);
    GroupByPartition(s, key);
    assert FirstBefore(s, key, g[i].key, g[j].key);
    var m :| 0 <= m < |s| && key(s[m]) == g[i].key && forall n :: 0 <= n <= m ==> key(s[n]) != g[j].key;
    WithFirst(s, key, g[i].key);
    var a :| FirstAt(s, key, g[i].key, a) && s[a] == With(s, key, g[i].key)[0];
    WithFirst(s, key, g[j].key);
    var b :| FirstAt(s, key, g[j].key, b) && s[b] == With(s, key, g[j].key)[0];
    assert a <= m < b;
  }

  /** `a` comes strictly before `b` in `order`. */
  predicate Precedes<K(==)>(order: seq<K>, a: K, b: K) {
    exists p, q :: 0 <= p < q < |order| && order[p] == a && order[q] == b
  }

  /** One group per key of `order` that some item carries, in the order of
      `order`, each holding the items with that key in their order in `s`. */
  function Buckets<K(==), T>(s: seq<T>, key: T -> K, order: seq<K>): (r: seq<Group<K, T>>)
    ensures forall i :: 0 <= i < |r| ==> r[i].items == With(s, key, r[i].key) && |r[i].items| > 0 && r[i].key in order
    decreases |order|
  {
    if |order| == 0 then []
    else
      var g := With(s, key, order[0]);
      (if |g| > 0 then [Group(order[0], g)] else []) + Buckets(s, key, order[1..])
  }

  /** The head of a duplicate-free list does not occur in its tail. */
  lemma HeadNotInTail<K>(order: seq<K>)
    requires |order| > 0 && NoDup(order)
    ensures NoDup(order[1..]) && order[0] !in order[1..]
  {
    var tail := order[1..];
    forall i, j | 0 <= i < j < |tail|
      ensures tail[i] != tail[j]
    {
      assert tail[i] == order[i + 1] && tail[j] == order[j + 1];
    }
  }

  lemma {:induction false} BucketsDistinct<K, T>(s: seq<T>, key: T -> K, order: seq<K>)
    requires NoDup(order)
    ensures DistinctKeys(Buckets(s, key, order))
    decreases |order|
  {
    if |order| > 0 {
      var tail := order[1..];
      HeadNotInTail(order);
      BucketsDistinct(s, key, tail);
      var rest := Buckets(s, key, tail);
      if |With(s, key, order[0])| > 0 {
        var r := Buckets(s, key, order);
        assert r == [Group(order[0], With(s, key, order[0]))] + rest;
        forall i, j | 0 <= i < j < |r|
          ensures r[i].key != r[j].key
        {
          assert r[j] == rest[j - 1];
          if i > 0 {
            assert r[i] == rest[i - 1];
          } else {
            assert rest[j - 1].key in tail;
          }
        }
      }
    }
  }

  lemma {:induction false} BucketsCover<K, T>(s: seq<T>, key: T -> K, order: seq<K>, x: T)
    requires x in s && key(x) in order
    ensures exists i :: 0 <= i < |Buckets(s, key, order)| && Buckets(s, key, order)[i].key == key(x)
    decreases |order|
  {
    var r := Buckets(s, key, order);
    if key(x) == order[0] {
      WithMembers(s, key, order[0]);
      assert r[0].key == key(x);
    } else {
      var tail := order[1..];
      assert key(x) in tail;
      BucketsCover(s, key, tail, x);
      var rest := Buckets(s, key, tail);
      var n := |r| - |rest|;
      assert r[n..] == rest;
      var j :| 0 <= j < |rest| && rest[j].key == key(x);
      assert r[j + n].key == key(x);
    }
  }

  /** The buckets follow the order of `order`. */
  lemma {:induction false} BucketsOrdered<K, T>(s: seq<T>, key: T -> K, order: seq<K>)
    ensures forall i, j :: 0 <= i < j < |Buckets(s, key, order)| ==>
      Precedes(order, Buckets(s, key, order)[i].key, Buckets(s, key, order)[j].key)
    decreases |order|
  {
    if |order| > 0 {
      var tail := order[1..];
      BucketsOrdered(s, key, tail);
      var rest := Buckets(s, key, tail);
      var r := Buckets(s, key, order);
      var n := |r| - |rest|;
      assert r[n..] == rest;
      forall i, j | 0 <= i < j < |r|
        ensures Precedes(order, r[i].key, r[j].key)
      {
        assert r[j] == rest[j - n];
        var q :| 0 <= q < |tail| && tail[q] == rest[j - n].key;
        if i < n {
          assert r[i].key == order[0] && order[q + 1] == tail[q];
        } else {
          assert r[i] == rest[i - n];
          var p', q' :| 0 <= p' < q' < |tail| && tail[p'] == rest[i - n].key && tail[q'] == rest[j - n].key;
          assert order[p' + 1] == tail[p'] && order[q' + 1] == tail[q'];
        }
      }
    }
  }

  /** An item sits in a bucket exactly when it belongs to `s` and carries the bucket's key. */
  lemma BucketMember<K, T>(s: seq<T>, key: T -> K, order: seq<K>, i: int, x: T)
    requires 0 <= i < |Buckets(s, key, order)|
    ensures x in Buckets(s, key, order)[i].items <==> x in s && key(x) == Buckets(s, key, order)[i].key
  {
    WithMembers(s, key, Buckets(s, key, order)[i].key);
  }

  /** Bucketing over distinct keys is a partition of the items whose key is
      listed: distinct non-empty groups, each item in the group of its key
      (membership itself is `BucketMember`), the groups in the order of `order`. */
  lemma BucketsPartition<K, T>(s: seq<T>, key: T -> K, order: seq<K>)
    requires NoDup(order)
    ensures DistinctKeys(Buckets(s, key, order)) && NonEmpty(Buckets(s, key, order))
    ensures forall x :: x in s && key(x) in order ==>
      exists i :: 0 <= i < |Buckets(s, key, order)| && Buckets(s, key, order)[i].key == key(x)
    ensures forall i, j :: 0 <= i < j < |Buckets(s, key, order)| ==>
      Precedes(order, Buckets(s, key, order)[i].key, Buckets(s, key, order)[j].key)
  {
    var r := Buckets(s, key, order);
    BucketsDistinct(s, key, order);
    assert forall i, j :: 0 <= i < j < |r| ==> Precedes(order, r[i].key, r[j].key) by {
      BucketsOrdered(s, key, order);
    }
    assert NonEmpty(r) by {
      forall i | 0 <= i < |r|
        ensures |r[i].items| > 0
      {
      }
    }
    forall x | x in s && key(x) in order
      ensures exists i :: 0 <= i < |Buckets(s, key, order)| && Buckets(s, key, order)[i].key == key(x)
    {
      BucketsCover(s, key, order, x);
    }
  }

  /** Picking the items of one label out of a sorted list keeps it sorted. */
  lemma {:induction false} WithSorted<K, T>(s: seq<T>, group: T -> K, key: T -> Key, k: K)
    requires IsSortedBy(s, key)
    ensures IsSortedBy(With(s, group, k), key)
  {
    if |s| > 0 {
      var tail := s[1..];
      WithSorted(tail, group, key, k);
      var rest := With(tail, group, k);
      if group(s[0]) == k {
        var r := [s[0]] + rest;
        forall i, j | 0 <= i < j < |r|
          ensures KeyLe(key(r[i]), key(r[j]))
        {
          if i == 0 {
            assert r[j] == rest[j - 1];
            WithIndex(tail, group, k, j - 1);
            var m :| 0 <= m < |tail| && tail[m] == rest[j - 1] && group(tail[m]) == k;
            assert s[m + 1] == r[j];
          } else {
            assert r[i] == rest[i - 1] && r[j] == rest[j - 1];
          }
        }
      }
    }
  }

  /** Reordering a partition keeps it one: the same groups, keys still
      distinct, none empty. */
  lemma PermutedGroups<K, T>(g: seq<Group<K, T>>, h: seq<Group<K, T>>)
    requires DistinctKeys(g) && NonEmpty(g) && multiset(g) == multiset(h)
    ensures DistinctKeys(h) && NonEmpty(h)
    ensures forall x :: x in h <==> x in g
  {
    NoDupPermutation(g, h);
    forall x
      ensures x in h <==> x in g
    {
      assert x in h <==> x in multiset(h);
    }
    forall i, j | 0 <= i < j < |h|
      ensures h[i].key != h[j].key
    {
      assert h[i] in g && h[j] in g;
      var a :| 0 <= a < |g| && g[a] == h[i];
      var b :| 0 <= b < |g| && g[b] == h[j];
    }
    forall i | 0 <= i < |h|
      ensures |h[i].items| > 0
    {
      assert h[i] in g;
    }
  }
}

=== FILE: lists.dfy ===
/** List helpers shared by the cascade rules: `[...new Set(xs)]` and `findIndex`. */
module Lists {

  predicate NoDup<T(==)>(s: seq<T>) {
    forall i, j :: 0 <= i < j < |s| ==> s[i] != s[j]
  }

  /** Appends to `seen` the items of `rest` not met before, in first-occurrence order. */
  function DedupeInto<T(==)>(seen: seq<T>, rest: seq<T>): (r: seq<T>)
    requires NoDup(seen)
    ensures NoDup(r)
    ensures forall i :: 0 <= i < |r| ==> r[i] in seen || r[i] in rest
    ensures forall i :: 0 <= i < |seen| ==> seen[i] in r
    ensures forall i :: 0 <= i < |rest| ==> rest[i] in r
    ensures NoDup(seen + rest) ==> r == seen + rest
    decreases |rest|
  {
    if |rest| == 0 then
      assert seen + rest == seen;
      seen
    else
      var x := rest[0];
      assert forall i :: 1 <= i < |rest| ==> rest[i] == rest[1..][i - 1];
      if x in seen then
        var j :| 0 <= j < |seen| && seen[j] == x;
        assert (seen + rest)[j] == (seen + rest)[|seen|];
        DedupeInto(seen, rest[1..])
      else
        var seen' := seen + [x];
        assert seen + rest == seen' + rest[1..];
        assert forall i :: 0 <= i < |seen| ==> seen[i] == seen'[i];
        assert seen'[|seen|] == x;
        DedupeInto(seen', rest[1..])
  }

  /** `[...new Set(s)]`: the distinct items of `s`, each at its first
      occurrence, so in the order they first occur in `s`. */
  function Dedupe<T(==)>(s: seq<T>): (r: seq<T>)
    ensures NoDup(r)
    ensures forall i :: 0 <= i < |r| ==> r[i] in s
    ensures forall i :: 0 <= i < |s| ==> s[i] in r
    ensures NoDup(s) ==> r == s
    ensures forall i, j :: 0 <= i < j < |r| ==> IndexOf(s, r[i]) < IndexOf(s, r[j])
  {
    assert [] + s == s;
    DedupeIntoOrder([], [], s);
    DedupeInto([], s)
  }

  /** `DedupeInto` keeps first-occurrence order: when `seen` lists the items
      of `done` in the order they first occur there, the result lists the
      items of `done + rest` in the order they first occur there. */
  lemma {:induction false} DedupeIntoOrder<T>(done: seq<T>, seen: seq<T>, rest: seq<T>)
    requires NoDup(seen)
    requires forall x :: x in seen <==> x in done
    requires forall i, j :: 0 <= i < j < |seen| ==> IndexOf(done, seen[i]) < IndexOf(done, seen[j])
    ensures forall i, j :: 0 <= i < j < |DedupeInto(seen, rest)| ==>
      IndexOf(done + rest, DedupeInto(seen, rest)[i]) < IndexOf(done + rest, DedupeInto(seen, rest)[j])
    decreases |rest|
  {
    if |rest| == 0 {
      assert done + rest == done;
    } else {
      var x := rest[0];
      var done' := done + [x];
      assert done' + rest[1..] == done + rest;
      forall y | y in done
        ensures IndexOf(done', y) == IndexOf(done, y)
      {
        IndexOfAppend(done, [x], y);
      }
      if x in seen {
        DedupeIntoOrder(done', seen, rest[1..]);
      } else {
        var seen' := seen + [x];
        IndexOfAppend(done, [x], x);
        forall i, j | 0 <= i < j < |seen'|
          ensures IndexOf(done', seen'[i]) < IndexOf(done', seen'[j])
        {
          assert seen'[i] == seen[i] && seen[i] in seen;
          if j < |seen| {
            assert seen'[j] == seen[j] && seen[j] in seen;
          }
        }
        assert NoDup(seen') by {
          forall i | 0 <= i < |seen|
            ensures seen'[i] != x
          {
            assert seen'[i] == seen[i] && seen[i] in seen;
          }
        }
        DedupeIntoOrder(done', seen', rest[1..]);
      }
    }
  }

  /** `findIndex`: the first position holding `x`, or -1. */
  function IndexOf<T(==)>(s: seq<T>, x: T): (r: int)
    ensures -1 <= r < |s|
    ensures r == -1 <==> x !in s
    ensures r >= 0 ==> s[r] == x && x !in s[..r]
  {
    if |s| == 0 then -1
    else if s[0] == x then 0
    else
      var k := IndexOf(s[1..], x);
      if k == -1 then -1
      else
        assert s[..k + 1] == [s[0]] + s[1..][..k];
        k + 1
  }

  /** The first position of `x` is the only one with no `x` before it. */
  lemma IndexOfAt<T>(s: seq<T>, x: T, k: int)
    requires 0 <= k < |s| && s[k] == x && x !in s[..k]
    ensures IndexOf(s, x) == k
  {
  }

  /** Appending items keeps the first position of an item already present,
      and puts a new item after everything before it. */
  lemma IndexOfAppend<T>(s: seq<T>, t: seq<T>, x: T)
    ensures x in s ==> IndexOf(s + t, x) == IndexOf(s, x)
    ensures x !in s && x in t ==> IndexOf(s + t, x) == |s| + IndexOf(t, x)
  {
    if x in s {
      var k := IndexOf(s, x);
      assert (s + t)[..k] == s[..k];
      IndexOfAt(s + t, x, k);
    } else if x in t {
      var k := IndexOf(t, x);
      assert (s + t)[..|s| + k] == s + t[..k];
      IndexOfAt(s + t, x, |s| + k);
    }
  }

  /** `s.slice(0, s.findIndex(x) + 1)`, falling back to just `x` when `s`
      lacks it: the prefix of `s` ending at the first occurrence of `x`. */
  function UpTo<T(==)>(s: seq<T>, x: T): (r: seq<T>)
    ensures |r| > 0 && r[|r| - 1] == x && x !in r[..|r| - 1]
    ensures x in s ==> |r| <= |s| && r == s[..|r|]
    ensures x !in s ==> r == [x]
  {
    var k := IndexOf(s, x);
    if k >= 0 then
      assert s[..k + 1][..k] == s[..k];
      s[..k + 1]
    else [x]
  }

  /** The prefix ends exactly at the first occurrence of `x`. */
  lemma UpToAt<T>(s: seq<T>, x: T, i: int)
    requires 0 <= i < |s| && s[i] == x && x !in s[..i]
    ensures UpTo(s, x) == s[..i + 1]
  {
  }

  /** The deduplicated prefix up to the first `x` holds exactly the items
      at positions up to that occurrence. */
  lemma DedupeUpToMembers<T>(s: seq<T>, x: T, i: int)
    requires 0 <= i < |s| && s[i] == x && x !in s[..i]
    ensures forall y :: y in Dedupe(UpTo(s, x)) <==> exists j :: 0 <= j < i + 1 && s[j] == y
  {
    UpToAt(s, x, i);
    DedupePrefixMembers(s, i + 1);
  }

  lemma DedupeMembers<T>(s: seq<T>)
    ensures forall x :: x in Dedupe(s) <==> x in s
  {
    var r := Dedupe(s);
    forall x | x in r
      ensures x in s
    {
      var i :| 0 <= i < |r| && r[i] == x;
    }
    forall x | x in s
      ensures x in r
    {
      var i :| 0 <= i < |s| && s[i] == x;
    }
  }

  /** An item occurs at most once in a list without duplicates. */
  lemma {:induction false} NoDupCount<T>(s: seq<T>, x: T)
    requires NoDup(s)
    ensures multiset(s)[x] <= 1
  {
    if |s| > 0 {
      var tail := s[1..];
      assert s == [s[0]] + tail;
      assert forall i :: 0 <= i < |tail| ==> tail[i] == s[i + 1];
      NoDupCount(tail, x);
      assert s[0] !in tail;
    }
  }

  /** A reordering of a list without duplicates has none either. */
  lemma NoDupPermutation<T>(s: seq<T>, t: seq<T>)
    requires NoDup(s) && multiset(s) == multiset(t)
    ensures NoDup(t)
  {
    forall i, j | 0 <= i < j < |t|
      ensures t[i] != t[j]
    {
      NoDupCount(s, t[j]);
      var before := t[..j];
      assert t == before + [t[j]] + t[j + 1..];
      assert multiset(t)[t[j]] == multiset(before)[t[j]] + 1 + multiset(t[j + 1..])[t[j]];
      assert before[i] == t[i];
    }
  }

  /** The distinct items of the first `n` items of `s`. */
  lemma DedupePrefixMembers<T>(s: seq<T>, n: int)
    requires 0 <= n <= |s|
    ensures forall x :: x in Dedupe(s[..n]) <==> exists j :: 0 <= j < n && s[j] == x
  {
    var pre := s[..n];
    var r := Dedupe(pre);
    forall x | x in r
      ensures exists j :: 0 <= j < n && s[j] == x
    {
      var i :| 0 <= i < |r| && r[i] == x;
      var j :| 0 <= j < |pre| && pre[j] == x;
    }
    forall x, j | 0 <= j < n && s[j] == x
      ensures x in r
    {
      assert pre[j] == x;
    }
  }
}

=== FILE: mastery.dfy ===
/** The mastery-camo checklist (one gamemode's catalog of weapon camos).
    Checking a camo also checks its prerequisites on the same weapon:
    a base camo pulls in every base camo sorted before it, a special camo
    pulls in every base camo, and a mastery camo pulls in every base and
    special camo and every mastery camo of the same or a lower tier. */
module MasteryCamos {
  import opened Wrappers
  import opened Text
  import opened Ordering
  import opened Sorting
  import opened Lists
  import opened Grouping
  import opened Protocol
  import Seasons

  /** The shared camo template a weapon camo instantiates. */
  datatype Template = Template(name: string, slug: string, kind: Option<string>, sortOrder: Option<int>, unlockCount: Option<int>)

  /** One weapon camo row; its template may be missing. */
  datatype Camo = Camo(id: Id, weaponId: Id, unlockCount: Option<int>, template: Option<Template>)

  /** `(camo_kind || "").toLowerCase()`. */
  function Kind(c: Camo): string {
    if c.template.None? then "" else Lower(c.template.value.kind.GetOr(""))
  }

  /** The template's sort order, 9999 when unset. */
  function SortOrder(c: Camo): int {
    if c.template.Some? then c.template.value.sortOrder.GetOr(9999) else 9999
  }

  /** `template?.name ?? template?.slug ?? id`; the template's name is a
      `string`, so the slug is never reached: the template name, or the row
      id without a template. */
  function NameKey(c: Camo): string {
    if c.template.Some? then c.template.value.name else c.id
  }

  /** Unlock count of the template, else of the row, else 0. */
  function UnlockCount(c: Camo): int {
    if c.template.Some? && c.template.value.unlockCount.Some? then c.template.value.unlockCount.value
    else c.unlockCount.GetOr(0)
  }

  /** `sortCamoList`: sort order, then name. */
  function ListKey(c: Camo): Key {
    [Num(SortOrder(c)), Asc(NameKey(c))]
  }

  /** `sortBaseCamos`: unlock count, then sort order, then name. */
  function BaseKey(c: Camo): Key {
    [Num(UnlockCount(c)), Num(SortOrder(c)), Asc(NameKey(c))]
  }

  function IdsOf(s: seq<Camo>): (r: seq<Id>)
    ensures |r| == |s|
    ensures forall i :: 0 <= i < |s| ==> r[i] == s[i].id
  {
    seq(|s|, i requires 0 <= i < |s| => s[i].id)
  }

  lemma IdsMembers(s: seq<Camo>)
    ensures forall x :: x in IdsOf(s) <==> exists c :: c in s && c.id == x
  {
    var r := IdsOf(s);
    forall x | x in r
      ensures exists c :: c in s && c.id == x
    {
      var i :| 0 <= i < |r| && r[i] == x;
      assert s[i] in s;
    }
    forall x, c | c in s && c.id == x
      ensures x in r
    {
      var i :| 0 <= i < |s| && s[i] == c;
      assert r[i] == x;
    }
  }

  /** `camosByWeapon[weaponId] ?? []`: the weapon's camos in catalog order. */
  function OfWeapon(cat: seq<Camo>, weaponId: Id): (r: seq<Camo>)
    ensures forall c :: c in r <==> c in cat && c.weaponId == weaponId
  {
    if |cat| == 0 then []
    else
      assert forall c :: c in cat <==> c == cat[0] || c in cat[1..];
      (if cat[0].weaponId == weaponId then [cat[0]] else []) + OfWeapon(cat[1..], weaponId)
  }

  /** The camos of `s` whose kind is `k`, in order. */
  function OfKind(s: seq<Camo>, k: string): (r: seq<Camo>)
    ensures forall c :: c in r <==> c in s && Kind(c) == k
  {
    if |s| == 0 then []
    else
      assert forall c :: c in s <==> c == s[0] || c in s[1..];
      (if Kind(s[0]) == k then [s[0]] else []) + OfKind(s[1..], k)
  }

  // ---------------------------------------------------------------------
  // Mastery tiers

  datatype Tier = Gold | Bloodstone | Doomsteel {
    /** Position in the tier order `["gold", "bloodstone", "doomsteel"]`. */
    function Rank(): nat {
      match this
      case Gold => 0
      case Bloodstone => 1
      case Doomsteel => 2
    }

    /** Position in the priority list `["doomsteel", "bloodstone", "gold"]`. */
    function Priority(): nat {
      match this
      case Doomsteel => 0
      case Bloodstone => 1
      case Gold => 2
    }
  }

  const GoldWords: seq<string> := ["gold", "golden", "dragon", "shattered"]
  const BloodstoneWords: seq<string> := ["bloodstone", "arclight"]
  const DoomsteelWords: seq<string> := ["doomsteel", "tempest"]

  /** The lower-cased "slug name" text the tier keywords are looked up in. */
  function TierText(c: Camo): string {
    if c.template.None? then " " else Lower(c.template.value.slug + " " + c.template.value.name)
  }

  /** `getMasteryTier`: only mastery camos have a tier; the doomsteel keywords
      win over the bloodstone ones, which win over the gold ones. */
  function MasteryTier(c: Camo): (t: Option<Tier>)
    ensures t.Some? ==> Kind(c) == "mastery"
    ensures t == Some(Doomsteel) <==> Kind(c) == "mastery" && ContainsAny(TierText(c), DoomsteelWords)
    ensures t == Some(Bloodstone) <==>
      Kind(c) == "mastery" && !ContainsAny(TierText(c), DoomsteelWords) && ContainsAny(TierText(c), BloodstoneWords)
    ensures t == Some(Gold) <==>
      Kind(c) == "mastery" && !ContainsAny(TierText(c), DoomsteelWords)
      && !ContainsAny(TierText(c), BloodstoneWords) && ContainsAny(TierText(c), GoldWords)
    ensures t.None? <==>
      Kind(c) != "mastery" || (!ContainsAny(TierText(c), DoomsteelWords)
      && !ContainsAny(TierText(c), BloodstoneWords) && !ContainsAny(TierText(c), GoldWords))
  {
    if Kind(c) != "mastery" then None
    else
      var text := TierText(c);
      if ContainsAny(text, DoomsteelWords) then Some(Doomsteel)
      else if ContainsAny(text, BloodstoneWords) then Some(Bloodstone)
      else if ContainsAny(text, GoldWords) then Some(Gold)
      else None
  }

  /** The mastery camos of `s` that have a tier no higher than `t`. */
  function AtOrBelow(s: seq<Camo>, t: Tier): (r: seq<Camo>)
    ensures forall c :: c in r <==> c in s && MasteryTier(c).Some? && MasteryTier(c).value.Rank() <= t.Rank()
  {
    if |s| == 0 then []
    else
      assert forall c :: c in s <==> c == s[0] || c in s[1..];
      var keep := MasteryTier(s[0]).Some? && MasteryTier(s[0]).value.Rank() <= t.Rank();
      (if keep then [s[0]] else []) + AtOrBelow(s[1..], t)
  }

  // ---------------------------------------------------------------------
  // The cascade

  /** The weapon's camos in list order (`sortCamoList`). */
  function WeaponCamos(cat: seq<Camo>, weaponId: Id): seq<Camo> {
    Sort(OfWeapon(cat, weaponId), ListKey)
  }

  /** The weapon's base camos in unlock order (`sortBaseCamos`). */
  function BaseList(cat: seq<Camo>, weaponId: Id): seq<Camo> {
    Sort(OfKind(WeaponCamos(cat, weaponId), "base"), BaseKey)
  }

  /** A sibling: a camo of the same weapon with the given kind. */
  predicate Sibling(cat: seq<Camo>, target: Camo, c: Camo, k: string) {
    c in cat && c.weaponId == target.weaponId && Kind(c) == k
  }

  /** A tiered mastery sibling at or below the target's tier. */
  predicate LowerMastery(cat: seq<Camo>, target: Camo, c: Camo) {
    Sibling(cat, target, c, "mastery") && MasteryTier(target).Some? && MasteryTier(c).Some?
    && MasteryTier(c).value.Rank() <= MasteryTier(target).value.Rank()
  }

  /** What checking a mastery camo requires: every base and special sibling
      and the mastery siblings at or below its tier. */
  predicate Prerequisite(cat: seq<Camo>, target: Camo, c: Camo) {
    Sibling(cat, target, c, "base") || Sibling(cat, target, c, "special") || LowerMastery(cat, target, c)
  }

  lemma BaseListMembers(cat: seq<Camo>, weaponId: Id)
    ensures forall c :: c in BaseList(cat, weaponId) <==> c in cat && c.weaponId == weaponId && Kind(c) == "base"
  {
    SortMembers(OfWeapon(cat, weaponId), ListKey);
    SortMembers(OfKind(WeaponCamos(cat, weaponId), "base"), BaseKey);
  }

  /** The ids of the weapon's base camos in unlock order. */
  function BaseListIds(cat: seq<Camo>, target: Camo): seq<Id> {
    IdsOf(BaseList(cat, target.weaponId))
  }

  /** The ids of the weapon's camos of kind `k`, in list order. */
  function KindIds(cat: seq<Camo>, target: Camo, k: string): seq<Id> {
    IdsOf(OfKind(WeaponCamos(cat, target.weaponId), k))
  }

  /** The base branch: the weapon's base camos in unlock order up to and
      including the first one carrying the target's id. */
  function BaseIds(cat: seq<Camo>, target: Camo): (r: seq<Id>)
    ensures |r| > 0 && r[|r| - 1] == target.id
  {
    UpTo(BaseListIds(cat, target), target.id)
  }

  /** The special branch: every base id of the weapon, then the target, each once. */
  function SpecialIds(cat: seq<Camo>, target: Camo): (r: seq<Id>)
    ensures NoDup(r) && target.id in r
  {
    var all := BaseListIds(cat, target) + [target.id];
    assert all[|all| - 1] == target.id;
    Dedupe(all)
  }

  /** The ids of the mastery camos of the weapon at or below the target's
      tier; none when the target has no tier. */
  function LowerMasteryIds(cat: seq<Camo>, target: Camo): seq<Id> {
    match MasteryTier(target)
    case None => []
    case Some(t) => IdsOf(AtOrBelow(OfKind(WeaponCamos(cat, target.weaponId), "mastery"), t))
  }

  /** The mastery branch: base ids, special ids, lower mastery ids and the
      target, each once. */
  function MasteryIds(cat: seq<Camo>, target: Camo): (r: seq<Id>)
    ensures NoDup(r) && target.id in r
  {
    var all := BaseListIds(cat, target) + KindIds(cat, target, "special") + LowerMasteryIds(cat, target) + [target.id];
    assert all[|all| - 1] == target.id;
    Dedupe(all)
  }

  /** The ids a toggle of `target` to `checked` writes, as `handleToggleCamo`
      computes them: the target is always among them; unchecking, or a kind
      outside base, special and mastery, touches only the target. */
  function Cascade(cat: seq<Camo>, target: Camo, checked: bool): (r: seq<Id>)
    ensures target.id in r
    ensures !checked ==> r == [target.id]
    ensures Kind(target) != "base" && Kind(target) != "special" && Kind(target) != "mastery" ==> r == [target.id]
  {
    if !checked then [target.id]
    else if Kind(target) == "base" then BaseIds(cat, target)
    else if Kind(target) == "special" then SpecialIds(cat, target)
    else if Kind(target) == "mastery" then MasteryIds(cat, target)
    else [target.id]
  }

  /** No two catalog rows share an id (the id is the row's primary key). */
  predicate UniqueIds(cat: seq<Camo>) {
    forall i, j :: 0 <= i < j < |cat| ==> cat[i].id != cat[j].id
  }

  /** Ids are unique in the catalog, so a base sibling is determined by its id. */
  lemma BaseListSameId(cat: seq<Camo>, weaponId: Id, c: Camo, d: Camo)
    requires UniqueIds(cat)
    requires c in BaseList(cat, weaponId) && d in BaseList(cat, weaponId) && c.id == d.id
    ensures c == d
  {
    BaseListMembers(cat, weaponId);
    var i :| 0 <= i < |cat| && cat[i] == c;
    var j :| 0 <= j < |cat| && cat[j] == d;
    assert !(i < j) && !(j < i);
  }

  /** The position `findIndex` picks in the base list holds the target itself. */
  lemma BaseIndex(cat: seq<Camo>, target: Camo) returns (idx: int)
    requires target in cat && UniqueIds(cat) && Kind(target) == "base"
    ensures 0 <= idx < |BaseList(cat, target.weaponId)|
    ensures BaseList(cat, target.weaponId)[idx] == target
    ensures BaseIds(cat, target) == IdsOf(BaseList(cat, target.weaponId))[..idx + 1]
  {
    var bl := BaseList(cat, target.weaponId);
    var ids := IdsOf(bl);
    assert target in bl by {
      BaseListMembers(cat, target.weaponId);
    }
    assert target.id in ids by {
      var j :| 0 <= j < |bl| && bl[j] == target;
      assert ids[j] == target.id;
    }
    idx := IndexOf(ids, target.id);
    assert bl[idx].id == target.id;
    BaseListSameId(cat, target.weaponId, bl[idx], target);
    assert BaseListIds(cat, target) == ids;
    UpToAt(ids, target.id, idx);
  }

  /** Checking a base camo writes a prefix of the weapon's base camos in
      unlock order, ending with the target. */
  lemma BaseCascadePrefix(cat: seq<Camo>, target: Camo)
    requires target in cat && UniqueIds(cat) && Kind(target) == "base"
    ensures exists n :: (0 < n <= |BaseList(cat, target.weaponId)|
      && Cascade(cat, target, true) == IdsOf(BaseList(cat, target.weaponId))[..n])
    ensures Cascade(cat, target, true)[|Cascade(cat, target, true)| - 1] == target.id
  {
    var idx := BaseIndex(cat, target);
  }

  /** Every base sibling ordered strictly before the target is written along with it. */
  lemma BaseCascadeIncludesEarlier(cat: seq<Camo>, target: Camo, c: Camo)
    requires target in cat && UniqueIds(cat) && Kind(target) == "base"
    requires Sibling(cat, target, c, "base") && KeyCmp(BaseKey(c), BaseKey(target)) == Less
    ensures c.id in Cascade(cat, target, true)
  {
    var bl := BaseList(cat, target.weaponId);
    var idx := BaseIndex(cat, target);
    assert c in bl by {
      BaseListMembers(cat, target.weaponId);
    }
    var j :| 0 <= j < |bl| && bl[j] == c;
    assert j < idx by {
      SortedBefore(bl, BaseKey, idx, j);
    }
    var ids := IdsOf(bl);
    assert ids[j] == c.id;
    assert Cascade(cat, target, true) == ids[..idx + 1];
    assert ids[..idx + 1][j] == c.id;
  }

  /** Every base sibling written along with the target is ordered no later than it. */
  lemma BaseCascadeExcludesLater(cat: seq<Camo>, target: Camo, c: Camo)
    requires target in cat && UniqueIds(cat) && Kind(target) == "base"
    requires Sibling(cat, target, c, "base") && c.id in Cascade(cat, target, true)
    ensures KeyLe(BaseKey(c), BaseKey(target))
  {
    var bl := BaseList(cat, target.weaponId);
    var idx := BaseIndex(cat, target);
    BaseListMembers(cat, target.weaponId);
    var base := IdsOf(bl);
    var j :| 0 <= j <= idx && base[j] == c.id;
    BaseListSameId(cat, target.weaponId, bl[j], c);
    if j < idx {
      assert KeyLe(BaseKey(bl[j]), BaseKey(bl[idx]));
    } else {
      KeyCmpEqual(BaseKey(c), BaseKey(c));
    }
  }

  lemma BaseListIdsMembers(cat: seq<Camo>, target: Camo)
    ensures forall x :: x in BaseListIds(cat, target) <==> exists c :: Sibling(cat, target, c, "base") && c.id == x
  {
    BaseListMembers(cat, target.weaponId);
    IdsMembers(BaseList(cat, target.weaponId));
  }

  lemma KindIdsMembers(cat: seq<Camo>, target: Camo, k: string)
    ensures forall x :: x in KindIds(cat, target, k) <==> exists c :: Sibling(cat, target, c, k) && c.id == x
  {
    SortMembers(OfWeapon(cat, target.weaponId), ListKey);
    IdsMembers(OfKind(WeaponCamos(cat, target.weaponId), k));
  }

  lemma LowerMasteryIdsMembers(cat: seq<Camo>, target: Camo)
    ensures forall x :: x in LowerMasteryIds(cat, target) <==> exists c :: LowerMastery(cat, target, c) && c.id == x
  {
    if MasteryTier(target).Some? {
      SortMembers(OfWeapon(cat, target.weaponId), ListKey);
      IdsMembers(AtOrBelow(OfKind(WeaponCamos(cat, target.weaponId), "mastery"), MasteryTier(target).value));
    }
  }

  /** Checking a special camo writes the target and every base camo of its
      weapon, each id once. */
  lemma SpecialCascade(cat: seq<Camo>, target: Camo)
    requires Kind(target) == "special"
    ensures NoDup(Cascade(cat, target, true))
    ensures forall x :: x in Cascade(cat, target, true) <==>
      x == target.id || exists c :: Sibling(cat, target, c, "base") && c.id == x
  {
    var base := BaseListIds(cat, target);
    var all := base + [target.id];
    assert Cascade(cat, target, true) == Dedupe(all);
    forall x
      ensures x in Dedupe(all) <==> x == target.id || exists c :: Sibling(cat, target, c, "base") && c.id == x
    {
      DedupeMembers(all);
      assert x in all <==> x == target.id || x in base;
      BaseListIdsMembers(cat, target);
    }
  }

  /** Checking a mastery camo writes the target, every base and special camo
      of its weapon, and every mastery camo of the weapon whose tier is at or
      below the target's, each id once. A target without a tier brings no
      other mastery camo, and a sibling without a tier is never brought in. */
  lemma MasteryCascade(cat: seq<Camo>, target: Camo)
    requires Kind(target) == "mastery"
    ensures NoDup(Cascade(cat, target, true))
    ensures forall x :: x in Cascade(cat, target, true) <==>
      x == target.id || exists c :: Prerequisite(cat, target, c) && c.id == x
  {
    var base, special, lower := BaseListIds(cat, target), KindIds(cat, target, "special"), LowerMasteryIds(cat, target);
    var all := base + special + lower + [target.id];
    assert Cascade(cat, target, true) == Dedupe(all);
    DedupeMembers(all);
    forall x | x in all && x != target.id
      ensures exists c :: Prerequisite(cat, target, c) && c.id == x
    {
      if x in base {
        BaseListIdsMembers(cat, target);
      } else if x in special {
        KindIdsMembers(cat, target, "special");
      } else {
        assert x in lower;
        LowerMasteryIdsMembers(cat, target);
      }
    }
    forall x, c | Prerequisite(cat, target, c) && c.id == x
      ensures x in all
    {
      if Sibling(cat, target, c, "base") {
        BaseListIdsMembers(cat, target);
        assert x in base;
      } else if Sibling(cat, target, c, "special") {
        KindIdsMembers(cat, target, "special");
        assert x in special;
      } else {
        LowerMasteryIdsMembers(cat, target);
        assert x in lower;
      }
    }
  }

  // ---------------------------------------------------------------------
  // Toggling

  /** The last position before `n` holding a row with the given id, or -1. */
  function LastIndex(cat: seq<Camo>, id: Id, n: nat): (k: int)
    requires n <= |cat|
    ensures -1 <= k < n
    ensures k == -1 <==> forall i :: 0 <= i < n ==> cat[i].id != id
    ensures k >= 0 ==> cat[k].id == id && forall j :: k < j < n ==> cat[j].id != id
  {
    if n == 0 then -1
    else if cat[n - 1].id == id then n - 1
    else LastIndex(cat, id, n - 1)
  }

  /** `camoMap[id]`: the map is filled in catalog order, so the last row
      carrying the id wins. */
  function CamoById(cat: seq<Camo>, id: Id): (r: Option<Camo>)
    ensures r.None? <==> forall i :: 0 <= i < |cat| ==> cat[i].id != id
    ensures r.Some? ==> r.value.id == id && r.value in cat
    ensures r.Some? ==> exists k :: 0 <= k < |cat| && r.value == cat[k] && forall j :: k < j < |cat| ==> cat[j].id != id
  {
    var k := LastIndex(cat, id, |cat|);
    if k < 0 then None else Some(cat[k])
  }

  /** The `forEach` that fills `camoMap`: each row in catalog order is
      stored under its id, over whatever an earlier row stored there. */
  function CamoMap(cat: seq<Camo>): map<Id, Camo> {
    if |cat| == 0 then map[]
    else CamoMap(cat[..|cat| - 1])[cat[|cat| - 1].id := cat[|cat| - 1]]
  }

  /** The lookup reads exactly what the map fill leaves under the id. */
  lemma {:induction false} CamoByIdIsMap(cat: seq<Camo>, id: Id)
    ensures CamoById(cat, id) == if id in CamoMap(cat) then Some(CamoMap(cat)[id]) else None
  {
    assert cat[..|cat|] == cat;
    LastIndexIsMap(cat, id, |cat|);
  }

  lemma {:induction false} LastIndexIsMap(cat: seq<Camo>, id: Id, n: nat)
    requires n <= |cat|
    ensures LastIndex(cat, id, n) >= 0 <==> id in CamoMap(cat[..n])
    ensures LastIndex(cat, id, n) >= 0 ==> CamoMap(cat[..n])[id] == cat[LastIndex(cat, id, n)]
  {
    if n > 0 {
      assert cat[..n][..n - 1] == cat[..n - 1];
      LastIndexIsMap(cat, id, n - 1);
    }
  }

  /** `handleToggleCamo(id, checked)` with `snapshot` the progress record the
      handler closed over (it supplies `prevStatus`) and `ok` the outcome of
      the upsert. An unknown id is reported before a missing user; either
      leaves the records untouched and writes nothing. Otherwise the cascade
      is written optimistically and a failure sets every written id to the
      target's previous value. */
  function ToggleWith(cat: seq<Camo>, user: Option<Id>, st: Store, snapshot: map<Id, bool>, id: Id, checked: bool, ok: bool): (o: Outcome)
    ensures CamoById(cat, id).None? ==> o == Refuse(st, NotFound, false)
    ensures CamoById(cat, id).Some? && user.None? ==> o == Refuse(st, SignInRequired, false)
    ensures CamoById(cat, id).Some? && user.Some? ==>
      var ids := Cascade(cat, CamoById(cat, id).value, checked);
      o == Commit(st, ids, id, checked, Lookup(snapshot, id), ok, RevertAllToTarget) && id in ids
  {
    match CamoById(cat, id)
    case None => Refuse(st, NotFound, false)
    case Some(target) =>
      if user.None? then Refuse(st, SignInRequired, false)
      else Commit(st, Cascade(cat, target, checked), id, checked, Lookup(snapshot, id), ok, RevertAllToTarget)
  }

  /** A single toggle, reading `prevStatus` from the current record. */
  function Toggle(cat: seq<Camo>, user: Option<Id>, st: Store, id: Id, checked: bool, ok: bool): Outcome {
    ToggleWith(cat, user, st, st.progress, id, checked, ok)
  }

  /** A toggle touches nothing outside its cascade; it clears the saving
      flag of every id it wrote; success leaves them all at the requested
      value and failure leaves them all at the target's previous value. */
  lemma ToggleEffect(cat: seq<Camo>, user: Option<Id>, st: Store, id: Id, checked: bool, ok: bool)
    requires CamoById(cat, id).Some? && user.Some?
    ensures var o := Toggle(cat, user, st, id, checked, ok);
      var ids := Cascade(cat, CamoById(cat, id).value, checked);
      && (forall x :: x !in ids ==> Lookup(o.store.progress, x) == Lookup(st.progress, x) && Lookup(o.store.saving, x) == Lookup(st.saving, x))
      && (forall x :: x in ids ==> x in o.store.saving && !o.store.saving[x] && x in o.store.progress)
      && (ok ==> forall x :: x in ids ==> o.store.progress[x] == checked)
      && (!ok ==> forall x :: x in ids ==> o.store.progress[x] == Read(st.progress, id))
      && o.payload == Batch(ids, checked)
  {
  }

  /** What "check all" resolves for one camo: its id and, when the catalog
      knows it, the cascade a toggle to checked writes. */
  function Resolve(cat: seq<Camo>, c: Camo): (s: Step)
    ensures s.id == c.id
    ensures s.ids.None? <==> CamoById(cat, c.id).None?
    ensures s.ids.Some? ==> c.id in s.ids.value
  {
    match CamoById(cat, c.id)
    case None => Step(c.id, None)
    case Some(t) => Step(c.id, Some(Cascade(cat, t, true)))
  }

  function Plan(cat: seq<Camo>, list: seq<Camo>): (p: seq<Step>)
    ensures |p| == |list| && forall i :: 0 <= i < |list| ==> p[i] == Resolve(cat, list[i])
  {
    seq(|list|, i requires 0 <= i < |list| => Resolve(cat, list[i]))
  }

  /** A resolved step of "check all" is exactly the page's own toggle to
      checked, with `prevStatus` read from the same snapshot. */
  lemma StepIsToggle(cat: seq<Camo>, user: Option<Id>, st: Store, snapshot: map<Id, bool>, c: Camo, ok: bool)
    requires user.Some?
    ensures StepOutcome(st, snapshot, Resolve(cat, c), ok) == ToggleWith(cat, user, st, snapshot, c.id, true, ok)
  {
  }

  /** `handleCheckAll(list)`: without a user nothing happens but the error;
      otherwise every camo of the list not checked in the current record is
      toggled to checked, each toggle reading its previous value from that
      record. The toggles run one after another here; `oks[i]` is the outcome
      of the i-th camo's write. The error shown is that of the last toggle
      reporting one. */
  function CheckAll(cat: seq<Camo>, user: Option<Id>, st: Store, list: seq<Camo>, oks: seq<bool>): (o: Outcome)
    requires |oks| == |list|
    ensures user.None? ==> o == Refuse(st, SignInRequired, false)
  {
    if user.None? then Refuse(st, SignInRequired, false)
    else CheckAllFrom(st.progress, Outcome(st, None, false, []), Plan(cat, list), oks)
  }

  /** Camos already checked are skipped: when every camo of the list is
      checked, "check all" writes nothing and changes nothing. */
  lemma CheckAllSkipsChecked(cat: seq<Camo>, user: Option<Id>, st: Store, list: seq<Camo>, oks: seq<bool>)
    requires |oks| == |list|
    requires forall i :: 0 <= i < |list| ==> Read(st.progress, list[i].id)
    ensures CheckAll(cat, user, st, list, oks).store == st
    ensures CheckAll(cat, user, st, list, oks).payload == []
  {
    if user.Some? {
      CheckAllFromSkips(st.progress, Outcome(st, None, false, []), Plan(cat, list), oks);
    }
  }

  /** When every write succeeds, "check all" leaves every camo of the list
      (that the catalog knows) checked, unchecks nothing, and reports no error. */
  lemma CheckAllChecks(cat: seq<Camo>, user: Option<Id>, st: Store, list: seq<Camo>, oks: seq<bool>)
    requires |oks| == |list| && user.Some?
    requires forall i :: 0 <= i < |oks| ==> oks[i]
    requires forall i :: 0 <= i < |list| ==> CamoById(cat, list[i].id).Some?
    ensures forall i :: 0 <= i < |list| ==> Read(CheckAll(cat, user, st, list, oks).store.progress, list[i].id)
    ensures forall x :: Read(st.progress, x) ==> Read(CheckAll(cat, user, st, list, oks).store.progress, x)
    ensures CheckAll(cat, user, st, list, oks).fault.None?
  {
    var plan := Plan(cat, list);
    assert Resolved(plan);
    CheckAllFromSucceeds(st, plan, oks);
    assert forall i :: 0 <= i < |list| ==> plan[i].id == list[i].id;
  }

  // ---------------------------------------------------------------------
  // Derived views

  /** A checked mastery camo that has a tier. */
  predicate Earned(progress: map<Id, bool>, c: Camo) {
    Kind(c) == "mastery" && Read(progress, c.id) && MasteryTier(c).Some?
  }

  /** One step of the `masteryStatusByWeapon` fold: an earned camo's tier
      replaces the current best when it comes earlier in the priority list.
      The best so far never drops, and after the step it is at least the
      camo's tier. */
  function Consider(progress: map<Id, bool>, c: Camo, best: Option<Tier>): (r: Option<Tier>)
    ensures r.None? <==> best.None? && !Earned(progress, c)
    ensures r.Some? ==> r == best || (Earned(progress, c) && MasteryTier(c) == r)
    ensures best.Some? ==> r.Some? && best.value.Rank() <= r.value.Rank()
    ensures Earned(progress, c) ==> r.Some? && MasteryTier(c).value.Rank() <= r.value.Rank()
  {
    if !Earned(progress, c) then best
    else
      var key := MasteryTier(c).value;
      if best.None? || key.Priority() < best.value.Priority() then Some(key) else best
  }

  /** The fold of `masteryStatusByWeapon` over `list`, starting from `best`. */
  function BestFrom(progress: map<Id, bool>, list: seq<Camo>, best: Option<Tier>): (r: Option<Tier>)
    ensures r.None? <==> best.None? && forall i :: 0 <= i < |list| ==> !Earned(progress, list[i])
    ensures r.Some? ==> r == best || exists i :: 0 <= i < |list| && Earned(progress, list[i]) && MasteryTier(list[i]) == r
    ensures r.Some? && best.Some? ==> best.value.Rank() <= r.value.Rank()
    ensures r.Some? ==> forall i :: 0 <= i < |list| && Earned(progress, list[i]) ==> MasteryTier(list[i]).value.Rank() <= r.value.Rank()
    decreases |list|
  {
    if |list| == 0 then best
    else
      var rest := list[1..];
      assert forall i :: 1 <= i < |list| ==> list[i] == rest[i - 1];
      BestFrom(progress, rest, Consider(progress, list[0], best))
  }

  /** The weapon's best mastery tier: the highest tier among its checked,
      tiered mastery camos, or none when it has none. */
  function BestTier(progress: map<Id, bool>, list: seq<Camo>): (r: Option<Tier>)
    ensures r.None? <==> forall i :: 0 <= i < |list| ==> !Earned(progress, list[i])
    ensures r.Some? ==> exists i :: 0 <= i < |list| && Earned(progress, list[i]) && MasteryTier(list[i]) == r
    ensures r.Some? ==> forall i :: 0 <= i < |list| && Earned(progress, list[i]) ==> MasteryTier(list[i]).value.Rank() <= r.value.Rank()
  {
    BestFrom(progress, list, None)
  }

  /** `masteryStatusByWeapon`: the best tier of every weapon that has camos. */
  function StatusByWeapon(cat: seq<Camo>, progress: map<Id, bool>): (m: map<Id, Option<Tier>>)
    ensures forall w :: w in m <==> exists c :: c in cat && c.weaponId == w
    ensures forall w :: w in m ==> m[w] == BestTier(progress, OfWeapon(cat, w))
  {
    map w | w in (set c | c in cat :: c.weaponId) :: BestTier(progress, OfWeapon(cat, w))
  }

  /** `masteryStatusByWeapon[id]`, reading a missing entry as no tier. */
  function StatusOf(status: map<Id, Option<Tier>>, id: Id): Option<Tier> {
    if id in status then status[id] else None
  }

  /** The per-tier weapon counts shown in the progress panel. */
  datatype Counts = Counts(gold: nat, bloodstone: nat, doomsteel: nat, totalWeapons: nat)

  /** The weapons whose best tier is `t` or higher. */
  function Reaching(status: map<Id, Option<Tier>>, weapons: seq<Seasons.Weapon>, t: Tier): (r: seq<Seasons.Weapon>)
    ensures |r| <= |weapons|
  {
    if |weapons| == 0 then []
    else
      var tier := StatusOf(status, weapons[0].id);
      (if tier.Some? && t.Rank() <= tier.value.Rank() then [weapons[0]] else []) + Reaching(status, weapons[1..], t)
  }

  /** Adds one weapon to the counts: a weapon whose best tier is t counts
      toward every tier up to and including t. */
  function Tally(acc: Counts, tier: Option<Tier>): Counts {
    match tier
    case None => acc
    case Some(t) =>
      Counts(acc.gold + (if Gold.Rank() <= t.Rank() then 1 else 0),
             acc.bloodstone + (if Bloodstone.Rank() <= t.Rank() then 1 else 0),
             acc.doomsteel + (if Doomsteel.Rank() <= t.Rank() then 1 else 0),
             acc.totalWeapons)
  }

  function TallyFrom(status: map<Id, Option<Tier>>, weapons: seq<Seasons.Weapon>, acc: Counts): (c: Counts)
    ensures c.totalWeapons == acc.totalWeapons
    ensures c.gold == acc.gold + |Reaching(status, weapons, Gold)|
    ensures c.bloodstone == acc.bloodstone + |Reaching(status, weapons, Bloodstone)|
    ensures c.doomsteel == acc.doomsteel + |Reaching(status, weapons, Doomsteel)|
    decreases |weapons|
  {
    if |weapons| == 0 then acc
    else TallyFrom(status, weapons[1..], Tally(acc, StatusOf(status, weapons[0].id)))
  }

  /** `masteryProgress`: each tier's count is the number of weapons that
      reached it, so no count exceeds the number of weapons and
      gold >= bloodstone >= doomsteel; the total is the number of weapons,
      or 1 when there are none. */
  function MasteryProgress(status: map<Id, Option<Tier>>, weapons: seq<Seasons.Weapon>): (c: Counts)
    ensures c.totalWeapons == if |weapons| == 0 then 1 else |weapons|
    ensures c.gold == |Reaching(status, weapons, Gold)|
    ensures c.bloodstone == |Reaching(status, weapons, Bloodstone)|
    ensures c.doomsteel == |Reaching(status, weapons, Doomsteel)|
    ensures c.doomsteel <= c.bloodstone <= c.gold <= |weapons|
  {
    var c := TallyFrom(status, weapons, Counts(0, 0, 0, if |weapons| == 0 then 1 else |weapons|));
    ReachingNested(status, weapons);
    c
  }

  /** Reaching a higher tier means reaching every lower one. */
  lemma {:induction false} ReachingNested(status: map<Id, Option<Tier>>, weapons: seq<Seasons.Weapon>)
    ensures |Reaching(status, weapons, Doomsteel)| <= |Reaching(status, weapons, Bloodstone)|
    ensures |Reaching(status, weapons, Bloodstone)| <= |Reaching(status, weapons, Gold)|
    decreases |weapons|
  {
    if |weapons| > 0 {
      ReachingNested(status, weapons[1..]);
    }
  }

  /** The "unlocked / total" badge of one weapon. */
  function WeaponTally(cat: seq<Camo>, progress: map<Id, bool>, weaponId: Id): (r: (nat, nat))
    ensures r.0 <= r.1 == |OfWeapon(cat, weaponId)|
    ensures r.0 == r.1 <==> forall c :: c in OfWeapon(cat, weaponId) ==> Read(progress, c.id)
    ensures r.0 == |set i | 0 <= i < |OfWeapon(cat, weaponId)| && Read(progress, OfWeapon(cat, weaponId)[i].id)|
  {
    var list := OfWeapon(cat, weaponId);
    var ids := IdsOf(list);
    var n := CountChecked(progress, ids);
    CountCheckedPositions(progress, ids);
    assert CheckedPositions(progress, ids) == set i | 0 <= i < |list| && Read(progress, list[i].id);
    assert n == |ids| <==> forall c :: c in list ==> Read(progress, c.id) by {
      if n == |ids| {
        forall c | c in list
          ensures Read(progress, c.id)
        {
          var i :| 0 <= i < |list| && list[i] == c;
          assert ids[i] == c.id;
        }
      } else {
        var i :| 0 <= i < |ids| && !Read(progress, ids[i]);
        assert list[i] in list;
      }
    }
    (n, |ids|)
  }

  // ---------------------------------------------------------------------
  // Kind sections of an expanded weapon

  /** The four sections an expanded weapon lists its camos under. */
  datatype SectionKind = MasterySection | SpecialSection | BaseSection | OtherSection

  /** `(camo_kind || "other").toLowerCase()`: mastery, base and special
      have their own sections; every other kind, and a missing or empty
      one, lands in "other". */
  function Section(c: Camo): SectionKind {
    var k := if c.template.None? || c.template.value.kind.None? || c.template.value.kind.value == "" then "other"
             else Lower(c.template.value.kind.value);
    if k == "mastery" then MasterySection
    else if k == "base" then BaseSection
    else if k == "special" then SpecialSection
    else OtherSection
  }

  /** The order the sections are shown in. */
  const SectionOrder: seq<SectionKind> := [MasterySection, SpecialSection, BaseSection, OtherSection]

  /** The sections of an expanded weapon: its camos in list order, split by
      kind, empty sections dropped. */
  function KindSections(list: seq<Camo>): seq<Group<SectionKind, Camo>> {
    Buckets(Sort(list, ListKey), Section, SectionOrder)
  }

  /** An item sits in a section exactly when it is on the list and its kind names that section. */
  lemma KindSectionsMembers(list: seq<Camo>, i: int, c: Camo)
    requires 0 <= i < |KindSections(list)|
    ensures c in KindSections(list)[i].items <==> c in list && Section(c) == KindSections(list)[i].key
  {
    SortMembers(list, ListKey);
    BucketMember(Sort(list, ListKey), Section, SectionOrder, i, c);
  }

  /** Every item on the list has a section. */
  lemma KindSectionsCover(list: seq<Camo>, c: Camo)
    requires c in list
    ensures exists i :: 0 <= i < |KindSections(list)| && KindSections(list)[i].key == Section(c)
  {
    var sorted := Sort(list, ListKey);
    SortMembers(list, ListKey);
    assert c in sorted;
    SectionListed(c);
    BucketsCover(sorted, Section, SectionOrder, c);
    var i :| 0 <= i < |Buckets(sorted, Section, SectionOrder)| && Buckets(sorted, Section, SectionOrder)[i].key == Section(c);
    assert KindSections(list)[i].key == Section(c);
  }

  /** The sections partition the list: distinct, non-empty, each item in the
      section its kind names, each section in list order; and the sections
      run mastery, special, base, other. */
  lemma KindSectionsPartition(list: seq<Camo>)
    ensures DistinctKeys(KindSections(list)) && NonEmpty(KindSections(list))
    ensures forall i :: 0 <= i < |KindSections(list)| ==> forall c ::
      c in KindSections(list)[i].items <==> c in list && Section(c) == KindSections(list)[i].key
    ensures forall c :: c in list ==> exists i :: 0 <= i < |KindSections(list)| && KindSections(list)[i].key == Section(c)
    ensures forall i :: 0 <= i < |KindSections(list)| ==> IsSortedBy(KindSections(list)[i].items, ListKey)
    ensures forall i, j :: 0 <= i < j < |KindSections(list)| ==>
      Precedes(SectionOrder, KindSections(list)[i].key, KindSections(list)[j].key)
  {
    var r := KindSections(list);
    SectionOrderDistinct();
    BucketsPartition(Sort(list, ListKey), Section, SectionOrder);
    forall i | 0 <= i < |r|
      ensures forall c :: c in r[i].items <==> c in list && Section(c) == r[i].key
    {
      forall c
        ensures c in r[i].items <==> c in list && Section(c) == r[i].key
      {
        KindSectionsMembers(list, i, c);
      }
    }
    forall c | c in list
      ensures exists i :: 0 <= i < |r| && r[i].key == Section(c)
    {
      KindSectionsCover(list, c);
    }
    KindSectionsSorted(list);
  }

  lemma SectionOrderDistinct()
    ensures NoDup(SectionOrder)
  {
  }

  lemma SectionListed(c: Camo)
    ensures Section(c) in SectionOrder
  {
    match Section(c)
    case MasterySection => assert SectionOrder[0] == Section(c);
    case SpecialSection => assert SectionOrder[1] == Section(c);
    case BaseSection => assert SectionOrder[2] == Section(c);
    case OtherSection => assert SectionOrder[3] == Section(c);
  }

  lemma KindSectionsSorted(list: seq<Camo>)
    ensures forall i :: 0 <= i < |KindSections(list)| ==> IsSortedBy(KindSections(list)[i].items, ListKey)
  {
    var sorted := Sort(list, ListKey);
    var r := KindSections(list);
    forall i | 0 <= i < |r|
      ensures IsSortedBy(r[i].items, ListKey)
    {
      WithSorted(sorted, Section, ListKey, r[i].key);
    }
  }
}

=== FILE: ordering.dfy ===
/** Three-way comparison of the composite sort keys the pages use.

    Every list in the tracker is sorted by a comparator that looks at a few
    numeric fields (`a - b`) and ends with a string tie-break (`localeCompare`).
    A key here is a sequence of parts compared left to right; a string part is
    compared by code point, which stands in for locale collation. */
module Ordering {

  datatype Cmp = Less | Equal | Greater {
    function Flip(): Cmp {
      match this
      case Less => Greater
      case Equal => Equal
      case Greater => Less
    }
  }

  function IntCmp(a: int, b: int): (c: Cmp)
    ensures c == Equal <==> a == b
    ensures c == Less <==> a < b
  {
    if a < b then Less else if a == b then Equal else Greater
  }

  /** Lexicographic comparison of strings by code point; a proper prefix is smaller. */
  function StrCmp(a: string, b: string): Cmp
    decreases |a|
  {
    if |a| == 0 && |b| == 0 then Equal
    else if |a| == 0 then Less
    else if |b| == 0 then Greater
    else if a[0] < b[0] then Less
    else if a[0] > b[0] then Greater
    else StrCmp(a[1..], b[1..])
  }

  lemma {:induction false} StrCmpEqual(a: string, b: string)
    ensures StrCmp(a, b) == Equal <==> a == b
    decreases |a|
  {
    if |a| > 0 && |b| > 0 && a[0] == b[0] {
      StrCmpEqual(a[1..], b[1..]);
      if a[1..] == b[1..] {
        assert a == [a[0]] + a[1..];
        assert b == [b[0]] + b[1..];
      }
    }
  }

  lemma {:induction false} StrCmpFlip(a: string, b: string)
    ensures StrCmp(b, a) == StrCmp(a, b).Flip()
    decreases |a|
  {
    if |a| > 0 && |b| > 0 && a[0] == b[0] {
      StrCmpFlip(a[1..], b[1..]);
    }
  }

  lemma {:induction false} StrCmpTrans(a: string, b: string, c: string)
    requires StrCmp(a, b) == Less && StrCmp(b, c) == Less
    ensures StrCmp(a, c) == Less
    decreases |a|
  {
    if |a| > 0 && |b| > 0 && |c| > 0 && a[0] == b[0] && b[0] == c[0] {
      StrCmpTrans(a[1..], b[1..], c[1..]);
    }
  }

  /** One field of a sort key: a number ascending, a string ascending, or a
      string descending (the optic buckets sort by slug from Z to A). */
  datatype KeyPart = Num(n: int) | Asc(s: string) | Desc(d: string)

  type Key = seq<KeyPart>

  function Tag(p: KeyPart): int {
    match p
    case Num(_) => 0
    case Asc(_) => 1
    case Desc(_) => 2
  }

  function PartCmp(p: KeyPart, q: KeyPart): Cmp {
    if Tag(p) != Tag(q) then IntCmp(Tag(p), Tag(q))
    else match p
      case Num(a) => IntCmp(a, q.n)
      case Asc(a) => StrCmp(a, q.s)
      case Desc(a) => StrCmp(q.d, a)
  }

  lemma PartCmpEqual(p: KeyPart, q: KeyPart)
    ensures PartCmp(p, q) == Equal <==> p == q
  {
    if Tag(p) == Tag(q) {
      match p
      case Num(_) =>
      case Asc(a) => StrCmpEqual(a, q.s);
      case Desc(a) => StrCmpEqual(q.d, a);
    }
  }

  lemma PartCmpFlip(p: KeyPart, q: KeyPart)
    ensures PartCmp(q, p) == PartCmp(p, q).Flip()
  {
    if Tag(p) == Tag(q) {
      match p
      case Num(_) =>
      case Asc(a) => StrCmpFlip(a, q.s);
      case Desc(a) => StrCmpFlip(q.d, a);
    }
  }

  lemma PartCmpTrans(p: KeyPart, q: KeyPart, r: KeyPart)
    requires PartCmp(p, q) == Less && PartCmp(q, r) == Less
    ensures PartCmp(p, r) == Less
  {
    if Tag(p) == Tag(q) == Tag(r) {
      match p
      case Num(_) =>
      case Asc(a) => StrCmpTrans(a, q.s, r.s);
      case Desc(a) => StrCmpTrans(r.d, q.d, a);
    }
  }

  /** Lexicographic comparison of keys, field by field. */
  function KeyCmp(a: Key, b: Key): Cmp
    decreases |a|
  {
    if |a| == 0 && |b| == 0 then Equal
    else if |a| == 0 then Less
    else if |b| == 0 then Greater
    else if PartCmp(a[0], b[0]) != Equal then PartCmp(a[0], b[0])
    else KeyCmp(a[1..], b[1..])
  }

  lemma {:induction false} KeyCmpEqual(a: Key, b: Key)
    ensures KeyCmp(a, b) == Equal <==> a == b
    decreases |a|
  {
    if |a| > 0 && |b| > 0 {
      PartCmpEqual(a[0], b[0]);
      if a[0] == b[0] {
        KeyCmpEqual(a[1..], b[1..]);
        if a[1..] == b[1..] {
          assert a == [a[0]] + a[1..];
          assert b == [b[0]] + b[1..];
        }
      }
    }
  }

  lemma {:induction false} KeyCmpFlip(a: Key, b: Key)
    ensures KeyCmp(b, a) == KeyCmp(a, b).Flip()
    decreases |a|
  {
    if |a| > 0 && |b| > 0 {
      PartCmpFlip(a[0], b[0]);
      if PartCmp(a[0], b[0]) == Equal {
        KeyCmpFlip(a[1..], b[1..]);
      }
    }
  }

  lemma {:induction false} KeyCmpTrans(a: Key, b: Key, c: Key)
    requires KeyCmp(a, b) == Less && KeyCmp(b, c) == Less
    ensures KeyCmp(a, c) == Less
    decreases |a|
  {
    if |a| > 0 && |b| > 0 && |c| > 0 {
      PartCmpEqual(a[0], b[0]);
      PartCmpEqual(b[0], c[0]);
      if PartCmp(a[0], b[0]) == Less && PartCmp(b[0], c[0]) == Less {
        PartCmpTrans(a[0], b[0], c[0]);
      } else if a[0] == b[0] && b[0] == c[0] {
        KeyCmpTrans(a[1..], b[1..], c[1..]);
      }
    }
  }

  predicate KeyLe(a: Key, b: Key) {
    KeyCmp(a, b) != Greater
  }

  /** Keys that start with a number are ordered by that number first. */
  lemma KeyLeFirstNum(a: Key, b: Key)
    requires |a| > 0 && |b| > 0 && a[0].Num? && b[0].Num? && KeyLe(a, b)
    ensures a[0].n <= b[0].n
  {
    PartCmpEqual(a[0], b[0]);
  }

  /** The key order is a total order: what a stable sort needs of its comparator. */
  lemma KeyLeTotal(a: Key, b: Key)
    ensures KeyLe(a, b) || KeyLe(b, a)
    ensures KeyLe(a, b) && KeyLe(b, a) ==> a == b
  {
    KeyCmpFlip(a, b);
    KeyCmpEqual(a, b);
  }

  lemma KeyLeTrans(a: Key, b: Key, c: Key)
    requires KeyLe(a, b) && KeyLe(b, c)
    ensures KeyLe(a, c)
  {
    KeyCmpEqual(a, b);
    KeyCmpEqual(b, c);
    if KeyCmp(a, b) == Less && KeyCmp(b, c) == Less {
      KeyCmpTrans(a, b, c);
    }
  }

  /** A strictly smaller key followed by a no-larger-than key stays strictly smaller. */
  lemma KeyLtLe(a: Key, b: Key, c: Key)
    requires KeyCmp(a, b) == Less && KeyLe(b, c)
    ensures KeyCmp(a, c) == Less
  {
    KeyCmpEqual(b, c);
    if KeyCmp(b, c) == Less {
      KeyCmpTrans(a, b, c);
    }
  }
}

=== FILE: prestige.dfy ===
/** The prestige-camo checklist. Checking a camo also checks every camo
    sorted before it on the same weapon, and a legend-tier camo checks the
    weapon's whole chain. When the write fails only the target reverts; the
    other written camos keep the value they were optimistically given. */
module PrestigeCamos {
  import opened Wrappers
  import opened Text
  import opened Ordering
  import opened Sorting
  import opened Lists
  import opened Grouping
  import opened Protocol

  /** The shared prestige template a weapon camo instantiates. */
  datatype Template = Template(name: string, slug: string, tier: string, sortOrder: Option<int>)

  /** One weapon prestige camo row; its template may be missing. */
  datatype Camo = Camo(id: Id, weaponId: Id, nameOverride: Option<string>, sortOrder: Option<int>, template: Option<Template>)

  /** `sort_order ?? template.sort_order ?? 9999`: the row's order wins. */
  function SortValue(c: Camo): int {
    if c.sortOrder.Some? then c.sortOrder.value
    else if c.template.Some? then c.template.value.sortOrder.GetOr(9999)
    else 9999
  }

  /** `name_override ?? template?.name ?? template?.slug ?? id`; the
      template's name is a `string`, so the slug is never reached and the
      rule is `name_override ?? template.name ?? id`. */
  function Name(c: Camo): string {
    if c.nameOverride.Some? then c.nameOverride.value
    else if c.template.Some? then c.template.value.name
    else c.id
  }

  /** `sortCamoList`: sort value, then name. */
  function ListKey(c: Camo): Key {
    [Num(SortValue(c)), Asc(Name(c))]
  }

  /** The list order compares sort values first and names only between equal ones. */
  lemma ListKeyOrder(a: Camo, b: Camo)
    ensures SortValue(a) < SortValue(b) ==> KeyCmp(ListKey(a), ListKey(b)) == Less
    ensures SortValue(a) == SortValue(b) ==> KeyCmp(ListKey(a), ListKey(b)) == StrCmp(Name(a), Name(b))
  {
    var ka, kb := ListKey(a), ListKey(b);
    assert PartCmp(ka[0], kb[0]) == IntCmp(SortValue(a), SortValue(b));
    if SortValue(a) == SortValue(b) {
      var ta, tb := ka[1..], kb[1..];
      assert ta == [Asc(Name(a))] && tb == [Asc(Name(b))];
      assert KeyCmp(ka, kb) == KeyCmp(ta, tb);
      assert PartCmp(ta[0], tb[0]) == StrCmp(Name(a), Name(b));
      assert ta[1..] == [] && tb[1..] == [];
      assert KeyCmp(ta[1..], tb[1..]) == Equal;
      assert KeyCmp(ta, tb) == StrCmp(Name(a), Name(b));
    }
  }

  function IdsOf(s: seq<Camo>): (r: seq<Id>)
    ensures |r| == |s|
    ensures forall i :: 0 <= i < |s| ==> r[i] == s[i].id
  {
    seq(|s|, i requires 0 <= i < |s| => s[i].id)
  }

  /** `camosByWeapon[weaponId] ?? []`: the weapon's camos in catalog order. */
  function OfWeapon(cat: seq<Camo>, weaponId: Id): (r: seq<Camo>)
    ensures forall c :: c in r <==> c in cat && c.weaponId == weaponId
  {
    if |cat| == 0 then []
    else
      assert forall c :: c in cat <==> c == cat[0] || c in cat[1..];
      (if cat[0].weaponId == weaponId then [cat[0]] else []) + OfWeapon(cat[1..], weaponId)
  }

  /** The weapon's camos in list order. */
  function WeaponCamos(cat: seq<Camo>, weaponId: Id): seq<Camo> {
    Sort(OfWeapon(cat, weaponId), ListKey)
  }

  lemma WeaponCamosMembers(cat: seq<Camo>, weaponId: Id)
    ensures forall c :: c in WeaponCamos(cat, weaponId) <==> c in cat && c.weaponId == weaponId
  {
    SortMembers(OfWeapon(cat, weaponId), ListKey);
  }

  /** `(template?.tier || "").toLowerCase()`. */
  function TierName(c: Camo): string {
    if c.template.None? then "" else Lower(c.template.value.tier)
  }

  predicate IsLegend(c: Camo) {
    Contains(TierName(c), "legend")
  }

  // ---------------------------------------------------------------------
  // The cascade

  /** The legend branch: every camo id of the weapon, each once. */
  function ChainIds(cat: seq<Camo>, target: Camo): (r: seq<Id>)
    ensures NoDup(r)
  {
    Dedupe(IdsOf(WeaponCamos(cat, target.weaponId)))
  }

  /** The prefix branch: the weapon's camos in list order up to and
      including the first one carrying the target's id, each once. */
  function PrefixIds(cat: seq<Camo>, target: Camo): (r: seq<Id>)
    ensures NoDup(r)
  {
    Dedupe(UpTo(IdsOf(WeaponCamos(cat, target.weaponId)), target.id))
  }

  /** The ids a toggle of `target` to `checked` writes: unchecking touches only
      the target; checking a legend camo touches the weapon's whole chain and
      any other camo the chain up to itself. No id is written twice. */
  function Cascade(cat: seq<Camo>, target: Camo, checked: bool): (r: seq<Id>)
    ensures NoDup(r)
    ensures !checked ==> r == [target.id]
  {
    if !checked then [target.id]
    else if IsLegend(target) then ChainIds(cat, target)
    else PrefixIds(cat, target)
  }

  /** No two catalog rows share an id (the id is the row's primary key). */
  predicate UniqueIds(cat: seq<Camo>) {
    forall i, j :: 0 <= i < j < |cat| ==> cat[i].id != cat[j].id
  }

  /** A sibling: a camo of the same weapon. */
  predicate Sibling(cat: seq<Camo>, target: Camo, c: Camo) {
    c in cat && c.weaponId == target.weaponId
  }

  /** Checking a legend camo writes exactly the ids of the weapon's camos. */
  lemma LegendCascade(cat: seq<Camo>, target: Camo)
    requires IsLegend(target)
    ensures forall x :: x in Cascade(cat, target, true) <==> exists c :: Sibling(cat, target, c) && c.id == x
  {
    var list := WeaponCamos(cat, target.weaponId);
    var ids := IdsOf(list);
    assert Cascade(cat, target, true) == Dedupe(ids);
    forall x | x in Dedupe(ids)
      ensures exists c :: Sibling(cat, target, c) && c.id == x
    {
      DedupeMembers(ids);
      var i :| 0 <= i < |ids| && ids[i] == x;
      assert list[i] in list;
      WeaponCamosMembers(cat, target.weaponId);
      assert Sibling(cat, target, list[i]);
    }
    forall x, c | Sibling(cat, target, c) && c.id == x
      ensures x in Dedupe(ids)
    {
      WeaponCamosMembers(cat, target.weaponId);
      var i :| 0 <= i < |list| && list[i] == c;
      assert ids[i] == x;
      DedupeMembers(ids);
    }
  }

  /** Ids are unique in the catalog, so a sibling is determined by its id. */
  lemma SameId(cat: seq<Camo>, c: Camo, d: Camo)
    requires UniqueIds(cat)
    requires c in cat && d in cat && c.id == d.id
    ensures c == d
  {
    var i :| 0 <= i < |cat| && cat[i] == c;
    var j :| 0 <= j < |cat| && cat[j] == d;
    assert !(i < j) && !(j < i);
  }

  /** Where the target sits in its weapon's list. */
  lemma TargetPosition(cat: seq<Camo>, target: Camo) returns (t: int)
    requires target in cat
    ensures 0 <= t < |WeaponCamos(cat, target.weaponId)|
    ensures WeaponCamos(cat, target.weaponId)[t] == target
    ensures IdsOf(WeaponCamos(cat, target.weaponId))[t] == target.id
  {
    WeaponCamosMembers(cat, target.weaponId);
    t :| 0 <= t < |WeaponCamos(cat, target.weaponId)| && WeaponCamos(cat, target.weaponId)[t] == target;
  }

  /** The ids the prefix branch writes are those of the list up to position `idx`. */
  lemma PrefixMembers(cat: seq<Camo>, target: Camo, idx: int)
    requires 0 <= idx < |WeaponCamos(cat, target.weaponId)|
    requires IndexOf(IdsOf(WeaponCamos(cat, target.weaponId)), target.id) == idx
    ensures forall x :: x in PrefixIds(cat, target) <==>
      exists j :: 0 <= j < idx + 1 && IdsOf(WeaponCamos(cat, target.weaponId))[j] == x
  {
    var ids := IdsOf(WeaponCamos(cat, target.weaponId));
    assert PrefixIds(cat, target) == Dedupe(UpTo(ids, target.id));
    DedupeUpToMembers(ids, target.id, idx);
  }

  /** The position `findIndex` picks in the weapon's list holds the target,
      and checking a non-legend target writes exactly the ids up to it. */
  lemma PrefixIndex(cat: seq<Camo>, target: Camo) returns (idx: int)
    requires target in cat && UniqueIds(cat)
    ensures 0 <= idx < |WeaponCamos(cat, target.weaponId)|
    ensures WeaponCamos(cat, target.weaponId)[idx] == target
    ensures forall x :: x in PrefixIds(cat, target) <==>
      exists j :: 0 <= j < idx + 1 && IdsOf(WeaponCamos(cat, target.weaponId))[j] == x
  {
    var list := WeaponCamos(cat, target.weaponId);
    var t := TargetPosition(cat, target);
    idx := IndexOf(IdsOf(list), target.id);
    WeaponCamosMembers(cat, target.weaponId);
    assert list[idx] in list;
    SameId(cat, list[idx], target);
    PrefixMembers(cat, target, idx);
  }

  /** Checking a camo that is not legend tier writes every sibling sorted
      strictly before it. */
  lemma PrefixIncludesEarlier(cat: seq<Camo>, target: Camo, c: Camo)
    requires target in cat && UniqueIds(cat) && !IsLegend(target)
    requires Sibling(cat, target, c) && KeyCmp(ListKey(c), ListKey(target)) == Less
    ensures c.id in Cascade(cat, target, true)
  {
    var list := WeaponCamos(cat, target.weaponId);
    var idx := PrefixIndex(cat, target);
    WeaponCamosMembers(cat, target.weaponId);
    var j :| 0 <= j < |list| && list[j] == c;
    SortedBefore(list, ListKey, idx, j);
    assert Cascade(cat, target, true) == PrefixIds(cat, target);
  }

  /** Every sibling written along with a non-legend target is sorted no later than it. */
  lemma PrefixExcludesLater(cat: seq<Camo>, target: Camo, c: Camo)
    requires target in cat && UniqueIds(cat) && !IsLegend(target)
    requires Sibling(cat, target, c) && c.id in Cascade(cat, target, true)
    ensures KeyLe(ListKey(c), ListKey(target))
  {
    var list := WeaponCamos(cat, target.weaponId);
    var idx := PrefixIndex(cat, target);
    WeaponCamosMembers(cat, target.weaponId);
    var j :| 0 <= j < idx + 1 && IdsOf(list)[j] == c.id;
    assert list[j] in list;
    SameId(cat, list[j], c);
    if j < idx {
      assert KeyLe(ListKey(list[j]), ListKey(list[idx]));
    } else {
      KeyCmpEqual(ListKey(c), ListKey(c));
    }
  }

  // ---------------------------------------------------------------------
  // Toggling

  /** The first position holding a row with the given id, or -1. */
  function FirstIndex(cat: seq<Camo>, id: Id): (k: int)
    ensures -1 <= k < |cat|
    ensures k == -1 <==> forall i :: 0 <= i < |cat| ==> cat[i].id != id
    ensures k >= 0 ==> cat[k].id == id && forall j :: 0 <= j < k ==> cat[j].id != id
  {
    if |cat| == 0 then -1
    else if cat[0].id == id then 0
    else
      var k := FirstIndex(cat[1..], id);
      if k == -1 then -1 else k + 1
  }

  /** `camos.find((c) => c.id === id)`: the first row carrying the id. */
  function CamoById(cat: seq<Camo>, id: Id): (r: Option<Camo>)
    ensures r.None? <==> forall i :: 0 <= i < |cat| ==> cat[i].id != id
    ensures r.Some? ==> r.value.id == id && r.value in cat
    ensures r.Some? ==> exists k :: 0 <= k < |cat| && r.value == cat[k] && forall j :: 0 <= j < k ==> cat[j].id != id
  {
    var k := FirstIndex(cat, id);
    if k < 0 then None else Some(cat[k])
  }

  /** `handleToggleCamo(id, checked)` with `ok` the outcome of the upsert. An
      unknown id is reported before a missing user, and a missing user also
      raises the sign-in prompt; either leaves the records untouched and
      writes nothing. Otherwise the cascade is written optimistically and a
      failure reverts the target alone. */
  function Toggle(cat: seq<Camo>, user: Option<Id>, st: Store, id: Id, checked: bool, ok: bool): (o: Outcome)
    ensures CamoById(cat, id).None? ==> o == Refuse(st, NotFound, false)
    ensures CamoById(cat, id).Some? && user.None? ==> o == Refuse(st, SignInRequired, true) && o.promptSignIn
    ensures CamoById(cat, id).Some? && user.Some? ==>
      o == Commit(st, Cascade(cat, CamoById(cat, id).value, checked), id, checked, Lookup(st.progress, id), ok, RevertTargetOnly)
  {
    match CamoById(cat, id)
    case None => Refuse(st, NotFound, false)
    case Some(target) =>
      if user.None? then Refuse(st, SignInRequired, true)
      else Commit(st, Cascade(cat, target, checked), id, checked, Lookup(st.progress, id), ok, RevertTargetOnly)
  }

  lemma PrefixHasTarget(cat: seq<Camo>, target: Camo)
    ensures target.id in PrefixIds(cat, target)
  {
    var u := UpTo(IdsOf(WeaponCamos(cat, target.weaponId)), target.id);
    assert u[|u| - 1] == target.id;
  }

  lemma ChainHasTarget(cat: seq<Camo>, target: Camo)
    requires target in cat
    ensures target.id in ChainIds(cat, target)
  {
    var t := TargetPosition(cat, target);
  }

  /** The found camo is always among the ids its toggle writes. */
  lemma TargetWritten(cat: seq<Camo>, id: Id, checked: bool)
    requires CamoById(cat, id).Some?
    ensures id in Cascade(cat, CamoById(cat, id).value, checked)
  {
    var target := CamoById(cat, id).value;
    if checked {
      if IsLegend(target) {
        ChainHasTarget(cat, target);
      } else {
        PrefixHasTarget(cat, target);
      }
    }
  }

  /** A toggle touches nothing outside its cascade and clears the saving flag
      of every id it wrote. Success leaves them all at the requested value;
      failure restores the target's previous value and leaves every other
      written id at the requested value. */
  lemma ToggleEffect(cat: seq<Camo>, user: Option<Id>, st: Store, id: Id, checked: bool, ok: bool)
    requires CamoById(cat, id).Some? && user.Some?
    ensures var o := Toggle(cat, user, st, id, checked, ok);
      var ids := Cascade(cat, CamoById(cat, id).value, checked);
      && (forall x :: x !in ids ==> Lookup(o.store.progress, x) == Lookup(st.progress, x) && Lookup(o.store.saving, x) == Lookup(st.saving, x))
      && (forall x :: x in ids ==> x in o.store.saving && !o.store.saving[x] && x in o.store.progress)
      && (ok ==> forall x :: x in ids ==> o.store.progress[x] == checked)
      && (!ok ==> Read(o.store.progress, id) == Read(st.progress, id))
      && (!ok ==> forall x :: x in ids && x != id ==> o.store.progress[x] == checked)
      && o.payload == Batch(ids, checked)
  {
    TargetWritten(cat, id, checked);
  }

  // ---------------------------------------------------------------------
  // Derived views

  /** The "unlocked / total" badge of a weapon row, over its camos in catalog order. */
  function WeaponTally(cat: seq<Camo>, progress: map<Id, bool>, weaponId: Id): (r: (nat, nat))
    ensures r.0 <= r.1 == |OfWeapon(cat, weaponId)|
    ensures r.0 == r.1 <==> forall c :: c in OfWeapon(cat, weaponId) ==> Read(progress, c.id)
    ensures r.0 == |set i | 0 <= i < |OfWeapon(cat, weaponId)| && Read(progress, OfWeapon(cat, weaponId)[i].id)|
  {
    var list := OfWeapon(cat, weaponId);
    var ids := IdsOf(list);
    var n := CountChecked(progress, ids);
    CountCheckedPositions(progress, ids);
    assert CheckedPositions(progress, ids) == set i | 0 <= i < |list| && Read(progress, list[i].id);
    assert n == |ids| <==> forall c :: c in list ==> Read(progress, c.id) by {
      if n == |ids| {
        forall c | c in list
          ensures Read(progress, c.id)
        {
          var i :| 0 <= i < |list| && list[i] == c;
          assert ids[i] == c.id;
        }
      }
    }
    (n, |list|)
  }

  /** The section a camo is listed under: `(tier || "other").toLowerCase()`,
      with the three master levels merged into "master-all". */
  function SectionKey(c: Camo): (k: string)
    ensures k == "master-all" <==> TierName(c) in {"master100", "master150", "master200", "master-all"}
    ensures k != "master-all" ==> k == if TierName(c) == "" then "other" else TierName(c)
  {
    var raw := if c.template.None? || c.template.value.tier == "" then "other" else Lower(c.template.value.tier);
    if raw == "master100" || raw == "master150" || raw == "master200" then "master-all" else raw
  }

  /** The order value of a section: that of its first item, read as
      `template.sort_order ?? sort_order ?? 9999` (template first, unlike the
      list order). */
  function SectionValue(g: Group<string, Camo>): int {
    if |g.items| == 0 then 9999
    else
      var c := g.items[0];
      if c.template.Some? && c.template.value.sortOrder.Some? then c.template.value.sortOrder.value
      else c.sortOrder.GetOr(9999)
  }

  function SectionRank(g: Group<string, Camo>): Key {
    [Num(SectionValue(g))]
  }

  /** The sections in order of first appearance in the weapon's list. */
  function TierGroups(cat: seq<Camo>, weaponId: Id): seq<Group<string, Camo>> {
    GroupBy(WeaponCamos(cat, weaponId), SectionKey)
  }

  /** The sections of an expanded weapon, ordered by section value. */
  function TierSections(cat: seq<Camo>, weaponId: Id): seq<Group<string, Camo>> {
    Sort(TierGroups(cat, weaponId), SectionRank)
  }

  /** A camo sits in a section exactly when it is one of the weapon's camos
      and its tier names that section. */
  lemma TierGroupsMembers(cat: seq<Camo>, weaponId: Id, i: int, c: Camo)
    requires 0 <= i < |TierGroups(cat, weaponId)|
    ensures c in TierGroups(cat, weaponId)[i].items <==> c in cat && c.weaponId == weaponId && SectionKey(c) == TierGroups(cat, weaponId)[i].key
  {
    var list := WeaponCamos(cat, weaponId);
    WeaponCamosMembers(cat, weaponId);
    GroupByPartition(list, SectionKey);
    WithMembers(list, SectionKey, TierGroups(cat, weaponId)[i].key);
  }

  /** Every camo of the weapon has a section. */
  lemma TierGroupsCover(cat: seq<Camo>, weaponId: Id, c: Camo)
    requires c in cat && c.weaponId == weaponId
    ensures exists i :: 0 <= i < |TierGroups(cat, weaponId)| && TierGroups(cat, weaponId)[i].key == SectionKey(c)
  {
    var list := WeaponCamos(cat, weaponId);
    WeaponCamosMembers(cat, weaponId);
    GroupByPartition(list, SectionKey);
    WithMembers(list, SectionKey, SectionKey(c));
    ItemsOfKeys(TierGroups(cat, weaponId), SectionKey(c));
  }

  /** Reordering the sections by value keeps them a partition. */
  lemma TierSectionsShape(cat: seq<Camo>, weaponId: Id)
    ensures DistinctKeys(TierSections(cat, weaponId)) && NonEmpty(TierSections(cat, weaponId))
    ensures forall x :: x in TierSections(cat, weaponId) <==> x in TierGroups(cat, weaponId)
  {
    GroupByPartition(WeaponCamos(cat, weaponId), SectionKey);
    PermutedGroups(TierGroups(cat, weaponId), TierSections(cat, weaponId));
  }

  lemma TierSectionsMembers(cat: seq<Camo>, weaponId: Id, i: int, c: Camo)
    requires 0 <= i < |TierSections(cat, weaponId)|
    ensures c in TierSections(cat, weaponId)[i].items <==> c in cat && c.weaponId == weaponId && SectionKey(c) == TierSections(cat, weaponId)[i].key
  {
    var g := TierGroups(cat, weaponId);
    TierSectionsShape(cat, weaponId);
    assert TierSections(cat, weaponId)[i] in g;
    var j :| 0 <= j < |g| && g[j] == TierSections(cat, weaponId)[i];
    TierGroupsMembers(cat, weaponId, j, c);
  }

  lemma TierSectionsCover(cat: seq<Camo>, weaponId: Id, c: Camo)
    requires c in cat && c.weaponId == weaponId
    ensures exists i :: 0 <= i < |TierSections(cat, weaponId)| && TierSections(cat, weaponId)[i].key == SectionKey(c)
  {
    var g := TierGroups(cat, weaponId);
    var r := TierSections(cat, weaponId);
    TierSectionsShape(cat, weaponId);
    TierGroupsCover(cat, weaponId, c);
    var j :| 0 <= j < |g| && g[j].key == SectionKey(c);
    assert g[j] in r;
    var i :| 0 <= i < |r| && r[i] == g[j];
  }

  lemma TierSectionsSorted(cat: seq<Camo>, weaponId: Id, i: int)
    requires 0 <= i < |TierSections(cat, weaponId)|
    ensures IsSortedBy(TierSections(cat, weaponId)[i].items, ListKey)
  {
    var g := TierGroups(cat, weaponId);
    GroupByPartition(WeaponCamos(cat, weaponId), SectionKey);
    TierSectionsShape(cat, weaponId);
    assert TierSections(cat, weaponId)[i] in g;
    var j :| 0 <= j < |g| && g[j] == TierSections(cat, weaponId)[i];
    WithSorted(WeaponCamos(cat, weaponId), SectionKey, ListKey, g[j].key);
  }

  /** The sections partition the weapon's camos: keys distinct, no section
      empty, each camo in exactly the section its tier names, each section
      in list order; the sections are ordered by section value, and sections
      with equal values keep their order in `TierGroups`, which is the order
      their keys first turn up in the weapon's list. */
  lemma TierSectionsPartition(cat: seq<Camo>, weaponId: Id)
    ensures DistinctKeys(TierSections(cat, weaponId)) && NonEmpty(TierSections(cat, weaponId))
    ensures forall i :: 0 <= i < |TierSections(cat, weaponId)| ==> forall c ::
      c in TierSections(cat, weaponId)[i].items <==> c in cat && c.weaponId == weaponId && SectionKey(c) == TierSections(cat, weaponId)[i].key
    ensures forall c :: c in cat && c.weaponId == weaponId ==>
      exists i :: 0 <= i < |TierSections(cat, weaponId)| && TierSections(cat, weaponId)[i].key == SectionKey(c)
    ensures forall i :: 0 <= i < |TierSections(cat, weaponId)| ==> IsSortedBy(TierSections(cat, weaponId)[i].items, ListKey)
    ensures IsSortedBy(TierSections(cat, weaponId), SectionRank)
    ensures forall k :: FilterKey(TierSections(cat, weaponId), SectionRank, k) == FilterKey(TierGroups(cat, weaponId), SectionRank, k)
    ensures KeysInOrder(TierGroups(cat, weaponId), WeaponCamos(cat, weaponId), SectionKey)
  {
    var r := TierSections(cat, weaponId);
    TierSectionsShape(cat, weaponId);
    forall i | 0 <= i < |r|
      ensures forall c :: c in r[i].items <==> c in cat && c.weaponId == weaponId && SectionKey(c) == r[i].key
    {
      forall c
        ensures c in r[i].items <==> c in cat && c.weaponId == weaponId && SectionKey(c) == r[i].key
      {
        TierSectionsMembers(cat, weaponId, i, c);
      }
    }
    forall c | c in cat && c.weaponId == weaponId
      ensures exists i :: 0 <= i < |r| && r[i].key == SectionKey(c)
    {
      TierSectionsCover(cat, weaponId, c);
    }
    forall i | 0 <= i < |r|
      ensures IsSortedBy(r[i].items, ListKey)
    {
      TierSectionsSorted(cat, weaponId, i);
    }
    forall k
      ensures FilterKey(r, SectionRank, k) == FilterKey(TierGroups(cat, weaponId), SectionRank, k)
    {
      SortStable(TierGroups(cat, weaponId), SectionRank, k);
    }
    GroupByPartition(WeaponCamos(cat, weaponId), SectionKey);
  }
}

=== FILE: protocol.dfy ===
/** The optimistic write every checklist page performs after resolving a
    cascade: flag the affected ids as saving, show the new value at once,
    persist one batch, roll back on failure, and always clear the flags.

    The in-memory progress and saving records are `map<Id, bool>`; the
    network write is an abstract outcome `ok` supplied by the caller. */
module Protocol {
  import opened Wrappers

  type Id = string

  /** `ids.forEach((id) => { next[id] = v; })` over a copy of `m`. */
  function Mark(m: map<Id, bool>, ids: seq<Id>, v: bool): (r: map<Id, bool>)
    ensures forall id :: id in r <==> id in m || id in ids
    ensures forall id :: id in ids ==> r[id] == v
    ensures forall id :: id in m && id !in ids ==> r[id] == m[id]
    decreases |ids|
  {
    if |ids| == 0 then m
    else
      assert forall id :: id in ids <==> id == ids[0] || id in ids[1..];
      Mark(m[ids[0] := v], ids[1..], v)
  }

  /** The value a missing entry reads as: `m[id] ?? false`. */
  function Read(m: map<Id, bool>, id: Id): bool {
    if id in m then m[id] else false
  }

  function Lookup(m: map<Id, bool>, id: Id): Option<bool> {
    if id in m then Some(m[id]) else None
  }

  datatype Store = Store(progress: map<Id, bool>, saving: map<Id, bool>)

  /** How a page undoes its optimistic update when the write fails.
      RevertAllToTarget: every affected id takes the target's previous value
      (the camo and reticle pages). RevertTargetOnly: the target takes its
      previous value and every other affected id keeps what it holds at that
      moment (the prestige page). */
  datatype Rollback = RevertAllToTarget | RevertTargetOnly

  /** Step 1: disable the affected checkboxes and show the requested value. */
  function Optimistic(st: Store, ids: seq<Id>, next: bool): (o: Store)
    ensures forall id :: id in ids ==> id in o.saving && o.saving[id] && id in o.progress && o.progress[id] == next
    ensures forall id :: id !in ids ==> Lookup(o.saving, id) == Lookup(st.saving, id)
    ensures forall id :: id !in ids ==> Lookup(o.progress, id) == Lookup(st.progress, id)
  {
    Store(Mark(st.progress, ids, next), Mark(st.saving, ids, true))
  }

  /** The prestige page's rollback: for each affected id,
      `id === target ? prevStatus ?? false : prev[id] ?? false`,
      where `prev` is the record before this rollback. */
  function RevertTarget(prev: map<Id, bool>, acc: map<Id, bool>, ids: seq<Id>, target: Id, v: bool): (r: map<Id, bool>)
    ensures forall id :: id in r <==> id in acc || id in ids
    ensures forall id :: id in ids ==> r[id] == (if id == target then v else Read(prev, id))
    ensures forall id :: id in acc && id !in ids ==> r[id] == acc[id]
    decreases |ids|
  {
    if |ids| == 0 then acc
    else
      assert forall id :: id in ids <==> id == ids[0] || id in ids[1..];
      var id := ids[0];
      RevertTarget(prev, acc[id := if id == target then v else Read(prev, id)], ids[1..], target, v)
  }

  /** Steps 2 to 4, given the optimistic store and the write's outcome. */
  function Settle(opt: Store, ids: seq<Id>, target: Id, prevStatus: Option<bool>, ok: bool, rule: Rollback): Store {
    var progress :=
      if ok then opt.progress
      else match rule
        case RevertAllToTarget => Mark(opt.progress, ids, prevStatus.GetOr(false))
        case RevertTargetOnly => RevertTarget(opt.progress, opt.progress, ids, target, prevStatus.GetOr(false));
    Store(progress, Mark(opt.saving, ids, false))
  }

  /** The whole optimistic write of `ids` to `next`, with `prevStatus` the
      target's value read before the toggle. Only affected ids are touched,
      every affected saving flag ends false, success leaves every affected id
      at `next`, and failure applies the page's rollback rule. */
  function Write(st: Store, ids: seq<Id>, target: Id, next: bool, prevStatus: Option<bool>, ok: bool, rule: Rollback): (r: Store)
    ensures forall id :: id !in ids ==> Lookup(r.progress, id) == Lookup(st.progress, id)
    ensures forall id :: id !in ids ==> Lookup(r.saving, id) == Lookup(st.saving, id)
    ensures forall id :: id in ids ==> id in r.saving && !r.saving[id]
    ensures forall id :: id in ids ==> id in r.progress
    ensures ok ==> forall id :: id in ids ==> r.progress[id] == next
    ensures !ok && rule == RevertAllToTarget ==>
      forall id :: id in ids ==> r.progress[id] == prevStatus.GetOr(false)
    ensures !ok && rule == RevertTargetOnly ==>
      forall id :: id in ids ==> r.progress[id] == (if id == target then prevStatus.GetOr(false) else next)
  {
    Settle(Optimistic(st, ids, next), ids, target, prevStatus, ok, rule)
  }

  /** One upserted row: the item, its status, and whether `unlocked_at`
      carries a timestamp (it does exactly when the item is being checked). */
  datatype Row = Row(item: Id, status: bool, unlockedAt: bool)

  /** The payload `toUpdateIds.map((id) => ({ ..., status, unlocked_at }))`. */
  function Batch(ids: seq<Id>, next: bool): (b: seq<Row>)
    ensures |b| == |ids|
    ensures forall i :: 0 <= i < |b| ==> b[i].item == ids[i] && b[i].status == next
    ensures forall i :: 0 <= i < |b| ==> (b[i].unlockedAt <==> b[i].status)
  {
    seq(|ids|, i requires 0 <= i < |ids| => Row(ids[i], next, next))
  }

  /** The persisted status column after an upsert of `rows`: later rows win. */
  function Upsert(db: map<Id, bool>, rows: seq<Row>): (r: map<Id, bool>)
    ensures forall id :: id in r <==> id in db || exists i :: 0 <= i < |rows| && rows[i].item == id
    decreases |rows|
  {
    if |rows| == 0 then db
    else
      var r := Upsert(db[rows[0].item := rows[0].status], rows[1..]);
      assert forall i :: 1 <= i < |rows| ==> rows[i] == rows[1..][i - 1];
      r
  }

  lemma {:induction false} UpsertBatch(db: map<Id, bool>, ids: seq<Id>, next: bool)
    ensures forall id :: id in ids ==> id in Upsert(db, Batch(ids, next)) && Upsert(db, Batch(ids, next))[id] == next
    ensures forall id :: id in db && id !in ids ==> Upsert(db, Batch(ids, next))[id] == db[id]
    decreases |ids|
  {
    if |ids| > 0 {
      assert Batch(ids, next)[1..] == Batch(ids[1..], next);
      UpsertBatch(db[ids[0] := next], ids[1..], next);
      assert forall id :: id in ids <==> id == ids[0] || id in ids[1..];
    }
  }

  /** After a successful write the page shows, for every affected id, exactly
      the status the store now persists; unaffected persisted rows are left alone. */
  lemma WriteAgreesWithStore(st: Store, db: map<Id, bool>, ids: seq<Id>, target: Id, next: bool, prevStatus: Option<bool>, rule: Rollback)
    ensures forall id :: id in ids ==>
      Write(st, ids, target, next, prevStatus, true, rule).progress[id] == Upsert(db, Batch(ids, next))[id]
    ensures forall id :: id in db && id !in ids ==> Upsert(db, Batch(ids, next))[id] == db[id]
  {
    UpsertBatch(db, ids, next);
  }

  /** Re-running a cascade whose items are all already at the requested value
      changes no progress entry, whichever way the write ends. */
  lemma WriteIdempotent(st: Store, ids: seq<Id>, target: Id, next: bool, ok: bool, rule: Rollback)
    requires forall id :: id in ids ==> id in st.progress && st.progress[id] == next
    requires target in ids
    ensures Write(st, ids, target, next, Lookup(st.progress, target), ok, rule).progress == st.progress
  {
    var r := Write(st, ids, target, next, Lookup(st.progress, target), ok, rule);
    forall id | id in st.progress
      ensures id in r.progress && r.progress[id] == st.progress[id]
    {
      assert Lookup(r.progress, id) == Lookup(st.progress, id) || id in ids;
    }
  }

  /** Under RevertAllToTarget a failed write restores each affected id to its
      own previous value only when all of them held the target's previous value. */
  lemma RevertAllRestoresUniform(st: Store, ids: seq<Id>, target: Id, next: bool)
    requires forall id :: id in ids ==> Read(st.progress, id) == Read(st.progress, target)
    ensures forall id :: id in ids ==>
      Write(st, ids, target, next, Lookup(st.progress, target), false, RevertAllToTarget).progress[id] == Read(st.progress, id)
  {
  }

  /** A failed write under RevertAllToTarget can change a prerequisite: with
      `a` checked and the cascade `[a, b]` triggered from unchecked `b`, the
      rollback leaves `a` unchecked. */
  lemma RevertAllCanUncheckPrerequisite()
    ensures Write(Store(map["a" := true], map[]), ["a", "b"], "b", true, None, false, RevertAllToTarget).progress["a"] == false
  {
  }

  /** Why a toggle ended without the requested change: the id is unknown to
      the loaded catalog, nobody is signed in, or the write failed. */
  datatype Fault = NotFound | SignInRequired | WriteFailed

  /** What one user action leaves behind: the in-memory records, the error
      this action reports (if any), whether the sign-in prompt was raised,
      and the rows sent to the store (empty when the action stopped before
      writing). A success does not clear a message an earlier action left on
      the page; that screen state is outside the model. */
  datatype Outcome = Outcome(store: Store, fault: Option<Fault>, promptSignIn: bool, payload: seq<Row>)

  /** An action refused before anything is written. */
  function Refuse(st: Store, f: Fault, prompt: bool): (o: Outcome)
    ensures o.store == st && o.fault == Some(f) && o.payload == []
  {
    Outcome(st, Some(f), prompt, [])
  }

  /** The optimistic write of a resolved cascade, with its error report. */
  function Commit(st: Store, ids: seq<Id>, target: Id, next: bool, prevStatus: Option<bool>, ok: bool, rule: Rollback): (o: Outcome)
    ensures o.store == Write(st, ids, target, next, prevStatus, ok, rule)
    ensures o.fault.None? <==> ok
    ensures o.fault.Some? ==> o.fault.value == WriteFailed
    ensures o.payload == Batch(ids, next) && !o.promptSignIn
  {
    Outcome(Write(st, ids, target, next, prevStatus, ok, rule), if ok then None else Some(WriteFailed), false, Batch(ids, next))
  }

  /** A successful write to `true` never unchecks anything: every id checked
      before stays checked, and every affected id ends checked. */
  lemma CheckWriteMonotone(st: Store, ids: seq<Id>, target: Id, prevStatus: Option<bool>, rule: Rollback)
    ensures forall id :: Read(st.progress, id) ==> Read(Write(st, ids, target, true, prevStatus, true, rule).progress, id)
    ensures forall id :: id in ids ==> Read(Write(st, ids, target, true, prevStatus, true, rule).progress, id)
  {
    var r := Write(st, ids, target, true, prevStatus, true, rule);
    forall id | Read(st.progress, id)
      ensures Read(r.progress, id)
    {
      assert id in ids || Lookup(r.progress, id) == Lookup(st.progress, id);
    }
  }

  /** `ids.reduce((n, id) => n + (progress[id] ? 1 : 0), 0)`. */
  function CountChecked(progress: map<Id, bool>, ids: seq<Id>): (n: nat)
    ensures n <= |ids|
    ensures n == |ids| <==> forall i :: 0 <= i < |ids| ==> Read(progress, ids[i])
    ensures n == 0 <==> forall i :: 0 <= i < |ids| ==> !Read(progress, ids[i])
  {
    if |ids| == 0 then 0
    else
      assert forall i :: 1 <= i < |ids| ==> ids[i] == ids[1..][i - 1];
      (if Read(progress, ids[0]) then 1 else 0) + CountChecked(progress, ids[1..])
  }

  /** The count of a concatenation is the sum of the counts of its parts. */
  lemma {:induction false} CountCheckedAppend(progress: map<Id, bool>, a: seq<Id>, b: seq<Id>)
    ensures CountChecked(progress, a + b) == CountChecked(progress, a) + CountChecked(progress, b)
    decreases |a|
  {
    if |a| == 0 {
      assert a + b == b;
    } else {
      assert (a + b)[0] == a[0];
      assert (a + b)[1..] == a[1..] + b;
      CountCheckedAppend(progress, a[1..], b);
    }
  }

  /** The positions of `ids` whose id reads as checked. */
  function CheckedPositions(progress: map<Id, bool>, ids: seq<Id>): set<int> {
    set i | 0 <= i < |ids| && Read(progress, ids[i])
  }

  /** The count is the number of positions holding a checked id. */
  lemma {:induction false} CountCheckedPositions(progress: map<Id, bool>, ids: seq<Id>)
    ensures CountChecked(progress, ids) == |CheckedPositions(progress, ids)|
    decreases |ids|
  {
    if |ids| > 0 {
      var init := ids[..|ids| - 1];
      var x := ids[|ids| - 1];
      assert ids == init + [x];
      CountCheckedAppend(progress, init, [x]);
      CountCheckedPositions(progress, init);
      var before := CheckedPositions(progress, init);
      var last: set<int> := if Read(progress, x) then {|init|} else {};
      assert forall i :: 0 <= i < |init| ==> ids[i] == init[i];
      assert CheckedPositions(progress, ids) == before + last;
      assert |init| !in before;
    }
  }

  // ---------------------------------------------------------------------
  // "Check all"

  /** One item of a "check all", resolved against the loaded catalog: its
      id and, when the catalog knows it, the ids its toggle to checked
      writes. The cascade depends on the catalog only, so resolving it up
      front gives what each toggle would compute. */
  datatype Step = Step(id: Id, ids: Option<seq<Id>>)

  /** The toggle to checked of one resolved item by a signed-in user: an
      unknown id is refused, otherwise its cascade is written with the page's
      RevertAllToTarget rollback, reading `prevStatus` from `snapshot`. */
  function StepOutcome(st: Store, snapshot: map<Id, bool>, s: Step, ok: bool): Outcome {
    match s.ids
    case None => Refuse(st, NotFound, false)
    case Some(ids) => Commit(st, ids, s.id, true, Lookup(snapshot, s.id), ok, RevertAllToTarget)
  }

  /** One item of "check all": skipped when `snapshot` has it checked,
      otherwise toggled, merging the toggle's report into `acc` (the last
      error reported wins). */
  function CheckOne(snapshot: map<Id, bool>, acc: Outcome, s: Step, ok: bool): Outcome {
    if Read(snapshot, s.id) then acc
    else
      var o := StepOutcome(acc.store, snapshot, s, ok);
      Outcome(o.store, if o.fault.Some? then o.fault else acc.fault, acc.promptSignIn || o.promptSignIn, acc.payload + o.payload)
  }

  /** The items toggled one after another (the pages start them all at once
      against the same `snapshot`); `oks[i]` is the outcome of the i-th write. */
  function CheckAllFrom(snapshot: map<Id, bool>, acc: Outcome, steps: seq<Step>, oks: seq<bool>): Outcome
    requires |oks| == |steps|
    decreases |steps|
  {
    if |steps| == 0 then acc
    else CheckAllFrom(snapshot, CheckOne(snapshot, acc, steps[0], oks[0]), steps[1..], oks[1..])
  }

  /** Every item is known and its cascade includes it. */
  predicate Resolved(steps: seq<Step>) {
    forall i :: 0 <= i < |steps| ==> steps[i].ids.Some? && steps[i].id in steps[i].ids.value
  }

  /** Items already checked in `snapshot` are skipped: when all are, nothing
      is written and nothing changes. */
  lemma {:induction false} CheckAllFromSkips(snapshot: map<Id, bool>, acc: Outcome, steps: seq<Step>, oks: seq<bool>)
    requires |oks| == |steps|
    requires forall i :: 0 <= i < |steps| ==> Read(snapshot, steps[i].id)
    ensures CheckAllFrom(snapshot, acc, steps, oks) == acc
    decreases |steps|
  {
    if |steps| > 0 {
      var tail := steps[1..];
      assert forall i :: 0 <= i < |tail| ==> tail[i] == steps[i + 1];
      CheckAllFromSkips(snapshot, acc, tail, oks[1..]);
    }
  }

  /** One successful step keeps every checked id checked, leaves the item
      checked, and adds no error. */
  lemma CheckOneChecks(snapshot: map<Id, bool>, acc: Outcome, s: Step)
    requires s.ids.Some? && s.id in s.ids.value
    requires Read(snapshot, s.id) ==> Read(acc.store.progress, s.id)
    ensures forall y :: Read(acc.store.progress, y) ==> Read(CheckOne(snapshot, acc, s, true).store.progress, y)
    ensures Read(CheckOne(snapshot, acc, s, true).store.progress, s.id)
    ensures acc.fault.None? ==> CheckOne(snapshot, acc, s, true).fault.None?
  {
    if !Read(snapshot, s.id) {
      CheckWriteMonotone(acc.store, s.ids.value, s.id, Lookup(snapshot, s.id), RevertAllToTarget);
    }
  }

  lemma {:induction false} CheckAllFromKeeps(snapshot: map<Id, bool>, acc: Outcome, steps: seq<Step>, oks: seq<bool>)
    requires |oks| == |steps| && Resolved(steps)
    requires forall i :: 0 <= i < |oks| ==> oks[i]
    requires forall y :: Read(snapshot, y) ==> Read(acc.store.progress, y)
    ensures forall y :: Read(acc.store.progress, y) ==> Read(CheckAllFrom(snapshot, acc, steps, oks).store.progress, y)
    ensures acc.fault.None? ==> CheckAllFrom(snapshot, acc, steps, oks).fault.None?
    decreases |steps|
  {
    if |steps| > 0 {
      var tail, okTail := steps[1..], oks[1..];
      assert forall i :: 0 <= i < |tail| ==> tail[i] == steps[i + 1] && okTail[i] == oks[i + 1];
      CheckOneChecks(snapshot, acc, steps[0]);
      CheckAllFromKeeps(snapshot, CheckOne(snapshot, acc, steps[0], oks[0]), tail, okTail);
    }
  }

  lemma {:induction false} CheckAllFromChecks(snapshot: map<Id, bool>, acc: Outcome, steps: seq<Step>, oks: seq<bool>)
    requires |oks| == |steps| && Resolved(steps)
    requires forall i :: 0 <= i < |oks| ==> oks[i]
    requires forall y :: Read(snapshot, y) ==> Read(acc.store.progress, y)
    ensures forall i :: 0 <= i < |steps| ==> Read(CheckAllFrom(snapshot, acc, steps, oks).store.progress, steps[i].id)
    decreases |steps|
  {
    if |steps| > 0 {
      var tail, okTail := steps[1..], oks[1..];
      assert forall i :: 0 <= i < |tail| ==> tail[i] == steps[i + 1] && okTail[i] == oks[i + 1];
      var next := CheckOne(snapshot, acc, steps[0], oks[0]);
      CheckOneChecks(snapshot, acc, steps[0]);
      CheckAllFromChecks(snapshot, next, tail, okTail);
      CheckAllFromKeeps(snapshot, next, tail, okTail);
    }
  }

  /** When every write succeeds, "check all" leaves every item checked,
      unchecks nothing, and reports no error. */
  lemma CheckAllFromSucceeds(st: Store, steps: seq<Step>, oks: seq<bool>)
    requires |oks| == |steps| && Resolved(steps)
    requires forall i :: 0 <= i < |oks| ==> oks[i]
    ensures forall i :: 0 <= i < |steps| ==>
      Read(CheckAllFrom(st.progress, Outcome(st, None, false, []), steps, oks).store.progress, steps[i].id)
    ensures forall y :: Read(st.progress, y) ==>
      Read(CheckAllFrom(st.progress, Outcome(st, None, false, []), steps, oks).store.progress, y)
    ensures CheckAllFrom(st.progress, Outcome(st, None, false, []), steps, oks).fault.None?
  {
    CheckAllFromChecks(st.progress, Outcome(st, None, false, []), steps, oks);
    CheckAllFromKeeps(st.progress, Outcome(st, None, false, []), steps, oks);
  }
}

=== FILE: reticles.dfy ===
/** The reticle checklist of one game mode. Checking a reticle also checks
    every reticle sorted before it on the same optic; a failed write sets
    every written reticle to the target's previous value. Around it sit the
    per-optic completion badge and the optics listed by range. */
module Reticles {
  import opened Wrappers
  import opened Ordering
  import opened Sorting
  import opened Lists
  import opened Grouping
  import opened Protocol

  datatype Optic = Optic(id: Id, name: string, slug: string, rangeCategory: Option<string>)

  /** The shared reticle template; every field may be missing. */
  datatype Template = Template(name: Option<string>, slug: Option<string>, sortOrder: Option<int>)

  /** One optic reticle row of the loaded game mode. */
  datatype Reticle = Reticle(id: Id, opticId: Id, unlockOrder: Option<int>, template: Option<Template>)

  function TemplateOrder(r: Reticle): int {
    if r.template.Some? then r.template.value.sortOrder.GetOr(9999) else 9999
  }

  /** `template?.name ?? template?.slug ?? id`. */
  function Name(r: Reticle): string {
    if r.template.Some? && r.template.value.name.Some? then r.template.value.name.value
    else if r.template.Some? && r.template.value.slug.Some? then r.template.value.slug.value
    else r.id
  }

  /** `sortReticles`: template order, then unlock order, then name. */
  function ReticleKey(r: Reticle): Key {
    [Num(TemplateOrder(r)), Num(r.unlockOrder.GetOr(9999)), Asc(Name(r))]
  }

  function IdsOf(s: seq<Reticle>): (r: seq<Id>)
    ensures |r| == |s|
    ensures forall i :: 0 <= i < |s| ==> r[i] == s[i].id
  {
    seq(|s|, i requires 0 <= i < |s| => s[i].id)
  }

  /** `reticlesByOptic[opticId] ?? []`: the optic's reticles in load order. */
  function OfOptic(cat: seq<Reticle>, opticId: Id): (r: seq<Reticle>)
    ensures forall x :: x in r <==> x in cat && x.opticId == opticId
  {
    if |cat| == 0 then []
    else
      assert forall x :: x in cat <==> x == cat[0] || x in cat[1..];
      (if cat[0].opticId == opticId then [cat[0]] else []) + OfOptic(cat[1..], opticId)
  }

  /** The optic's reticles in unlock order. */
  function OpticList(cat: seq<Reticle>, opticId: Id): seq<Reticle> {
    Sort(OfOptic(cat, opticId), ReticleKey)
  }

  lemma OpticListMembers(cat: seq<Reticle>, opticId: Id)
    ensures forall x :: x in OpticList(cat, opticId) <==> x in cat && x.opticId == opticId
  {
    SortMembers(OfOptic(cat, opticId), ReticleKey);
  }

  // ---------------------------------------------------------------------
  // The cascade

  /** The ids a toggle of `target` to `checked` writes: unchecking touches
      only the target; checking touches the optic's reticles in unlock order
      up to and including the first one carrying the target's id. */
  function Cascade(cat: seq<Reticle>, target: Reticle, checked: bool): (r: seq<Id>)
    ensures |r| > 0 && r[|r| - 1] == target.id
    ensures !checked ==> r == [target.id]
  {
    if !checked then [target.id]
    else UpTo(IdsOf(OpticList(cat, target.opticId)), target.id)
  }

  /** No two loaded rows share an id (the id is the row's primary key). */
  predicate UniqueIds(cat: seq<Reticle>) {
    forall i, j :: 0 <= i < j < |cat| ==> cat[i].id != cat[j].id
  }

  predicate Sibling(cat: seq<Reticle>, target: Reticle, x: Reticle) {
    x in cat && x.opticId == target.opticId
  }

  lemma SameId(cat: seq<Reticle>, x: Reticle, y: Reticle)
    requires UniqueIds(cat)
    requires x in cat && y in cat && x.id == y.id
    ensures x == y
  {
    var i :| 0 <= i < |cat| && cat[i] == x;
    var j :| 0 <= j < |cat| && cat[j] == y;
    assert !(i < j) && !(j < i);
  }

  /** Checking a reticle writes exactly a prefix of the optic's sorted
      reticles, the one ending at the target. */
  lemma CascadePrefix(cat: seq<Reticle>, target: Reticle) returns (idx: int)
    requires target in cat && UniqueIds(cat)
    ensures 0 <= idx < |OpticList(cat, target.opticId)|
    ensures OpticList(cat, target.opticId)[idx] == target
    ensures Cascade(cat, target, true) == IdsOf(OpticList(cat, target.opticId))[..idx + 1]
  {
    var list := OpticList(cat, target.opticId);
    var ids := IdsOf(list);
    assert target in list by {
      OpticListMembers(cat, target.opticId);
    }
    assert target.id in ids by {
      var t :| 0 <= t < |list| && list[t] == target;
      assert ids[t] == target.id;
    }
    idx := IndexOf(ids, target.id);
    assert list[idx] in cat by {
      OpticListMembers(cat, target.opticId);
    }
    SameId(cat, list[idx], target);
    UpToAt(ids, target.id, idx);
  }

  /** Every sibling sorted strictly before the target is written along with it. */
  lemma CascadeIncludesEarlier(cat: seq<Reticle>, target: Reticle, x: Reticle)
    requires target in cat && UniqueIds(cat)
    requires Sibling(cat, target, x) && KeyCmp(ReticleKey(x), ReticleKey(target)) == Less
    ensures x.id in Cascade(cat, target, true)
  {
    var list := OpticList(cat, target.opticId);
    var idx := CascadePrefix(cat, target);
    OpticListMembers(cat, target.opticId);
    var j :| 0 <= j < |list| && list[j] == x;
    SortedBefore(list, ReticleKey, idx, j);
    assert Cascade(cat, target, true)[j] == x.id;
  }

  /** Every sibling written along with the target is sorted no later than it. */
  lemma CascadeExcludesLater(cat: seq<Reticle>, target: Reticle, x: Reticle)
    requires target in cat && UniqueIds(cat)
    requires Sibling(cat, target, x) && x.id in Cascade(cat, target, true)
    ensures KeyLe(ReticleKey(x), ReticleKey(target))
  {
    var list := OpticList(cat, target.opticId);
    var idx := CascadePrefix(cat, target);
    OpticListMembers(cat, target.opticId);
    var prefix := Cascade(cat, target, true);
    var j :| 0 <= j < |prefix| && prefix[j] == x.id;
    assert list[j] in list;
    SameId(cat, list[j], x);
    if j < idx {
      assert KeyLe(ReticleKey(list[j]), ReticleKey(list[idx]));
    } else {
      KeyCmpEqual(ReticleKey(x), ReticleKey(x));
    }
  }

  // ---------------------------------------------------------------------
  // Toggling

  /** The first position holding a row with the given id, or -1. */
  function FirstIndex(cat: seq<Reticle>, id: Id): (k: int)
    ensures -1 <= k < |cat|
    ensures k == -1 <==> forall i :: 0 <= i < |cat| ==> cat[i].id != id
    ensures k >= 0 ==> cat[k].id == id && forall j :: 0 <= j < k ==> cat[j].id != id
  {
    if |cat| == 0 then -1
    else if cat[0].id == id then 0
    else
      var k := FirstIndex(cat[1..], id);
      if k == -1 then -1 else k + 1
  }

  /** `reticles.find((r) => r.id === id)`: the first row carrying the id. */
  function ReticleById(cat: seq<Reticle>, id: Id): (r: Option<Reticle>)
    ensures r.None? <==> forall i :: 0 <= i < |cat| ==> cat[i].id != id
    ensures r.Some? ==> r.value.id == id && r.value in cat
    ensures r.Some? ==> exists k :: 0 <= k < |cat| && r.value == cat[k] && forall j :: 0 <= j < k ==> cat[j].id != id
  {
    var k := FirstIndex(cat, id);
    if k < 0 then None else Some(cat[k])
  }

  /** `handleToggleReticle(id, checked)` with `snapshot` the progress record
      the handler closed over (it supplies `prevStatus`) and `ok` the outcome
      of the upsert. A missing user is reported before an unknown id; either
      leaves the records untouched and writes nothing. Otherwise the cascade
      is written optimistically and a failure sets every written id to the
      target's previous value. */
  function ToggleWith(cat: seq<Reticle>, user: Option<Id>, st: Store, snapshot: map<Id, bool>, id: Id, checked: bool, ok: bool): (o: Outcome)
    ensures user.None? ==> o == Refuse(st, SignInRequired, false)
    ensures user.Some? && ReticleById(cat, id).None? ==> o == Refuse(st, NotFound, false)
    ensures user.Some? && ReticleById(cat, id).Some? ==>
      var ids := Cascade(cat, ReticleById(cat, id).value, checked);
      o == Commit(st, ids, id, checked, Lookup(snapshot, id), ok, RevertAllToTarget) && id in ids
  {
    if user.None? then Refuse(st, SignInRequired, false)
    else match ReticleById(cat, id)
      case None => Refuse(st, NotFound, false)
      case Some(target) =>
        var ids := Cascade(cat, target, checked);
        assert ids[|ids| - 1] == id;
        Commit(st, ids, id, checked, Lookup(snapshot, id), ok, RevertAllToTarget)
  }

  /** A single toggle, reading `prevStatus` from the current record. */
  function Toggle(cat: seq<Reticle>, user: Option<Id>, st: Store, id: Id, checked: bool, ok: bool): Outcome {
    ToggleWith(cat, user, st, st.progress, id, checked, ok)
  }

  /** A toggle touches nothing outside its cascade; it clears the saving flag
      of every id it wrote; success leaves them all at the requested value and
      failure leaves them all at the target's previous value. */
  lemma ToggleEffect(cat: seq<Reticle>, user: Option<Id>, st: Store, id: Id, checked: bool, ok: bool)
    requires ReticleById(cat, id).Some? && user.Some?
    ensures var o := Toggle(cat, user, st, id, checked, ok);
      var ids := Cascade(cat, ReticleById(cat, id).value, checked);
      && (forall x :: x !in ids ==> Lookup(o.store.progress, x) == Lookup(st.progress, x) && Lookup(o.store.saving, x) == Lookup(st.saving, x))
      && (forall x :: x in ids ==> x in o.store.saving && !o.store.saving[x] && x in o.store.progress)
      && (ok ==> forall x :: x in ids ==> o.store.progress[x] == checked)
      && (!ok ==> forall x :: x in ids ==> o.store.progress[x] == Read(st.progress, id))
      && o.payload == Batch(ids, checked)
  {
  }

  /** What "check all" resolves for one reticle: its id and, when the loaded
      catalog knows it, the cascade a toggle to checked writes. */
  function Resolve(cat: seq<Reticle>, x: Reticle): (s: Step)
    ensures s.id == x.id
    ensures s.ids.None? <==> ReticleById(cat, x.id).None?
    ensures s.ids.Some? ==> x.id in s.ids.value
  {
    match ReticleById(cat, x.id)
    case None => Step(x.id, None)
    case Some(t) => Step(x.id, Some(Cascade(cat, t, true)))
  }

  function Plan(cat: seq<Reticle>, list: seq<Reticle>): (p: seq<Step>)
    ensures |p| == |list| && forall i :: 0 <= i < |list| ==> p[i] == Resolve(cat, list[i])
  {
    seq(|list|, i requires 0 <= i < |list| => Resolve(cat, list[i]))
  }

  /** A resolved step of "check all" is exactly the page's own toggle to
      checked, with `prevStatus` read from the same snapshot. */
  lemma StepIsToggle(cat: seq<Reticle>, user: Option<Id>, st: Store, snapshot: map<Id, bool>, x: Reticle, ok: bool)
    requires user.Some?
    ensures StepOutcome(st, snapshot, Resolve(cat, x), ok) == ToggleWith(cat, user, st, snapshot, x.id, true, ok)
  {
  }

  /** `handleCheckAll(list)`: without a user nothing happens but the error;
      otherwise every reticle of the list not checked in the current record
      is toggled to checked, each toggle reading its previous value from that
      record. The toggles run one after another here; `oks[i]` is the outcome
      of the i-th reticle's write. */
  function CheckAll(cat: seq<Reticle>, user: Option<Id>, st: Store, list: seq<Reticle>, oks: seq<bool>): (o: Outcome)
    requires |oks| == |list|
    ensures user.None? ==> o == Refuse(st, SignInRequired, false)
  {
    if user.None? then Refuse(st, SignInRequired, false)
    else CheckAllFrom(st.progress, Outcome(st, None, false, []), Plan(cat, list), oks)
  }

  /** Reticles already checked are skipped: when every reticle of the list is
      checked, "check all" writes nothing and changes nothing. */
  lemma CheckAllSkipsChecked(cat: seq<Reticle>, user: Option<Id>, st: Store, list: seq<Reticle>, oks: seq<bool>)
    requires |oks| == |list|
    requires forall i :: 0 <= i < |list| ==> Read(st.progress, list[i].id)
    ensures CheckAll(cat, user, st, list, oks).store == st
    ensures CheckAll(cat, user, st, list, oks).payload == []
  {
    if user.Some? {
      CheckAllFromSkips(st.progress, Outcome(st, None, false, []), Plan(cat, list), oks);
    }
  }

  /** When every write succeeds, "check all" leaves every reticle of the list
      (that the loaded catalog knows) checked, unchecks nothing, and reports no error. */
  lemma CheckAllChecks(cat: seq<Reticle>, user: Option<Id>, st: Store, list: seq<Reticle>, oks: seq<bool>)
    requires |oks| == |list| && user.Some?
    requires forall i :: 0 <= i < |oks| ==> oks[i]
    requires forall i :: 0 <= i < |list| ==> ReticleById(cat, list[i].id).Some?
    ensures forall i :: 0 <= i < |list| ==> Read(CheckAll(cat, user, st, list, oks).store.progress, list[i].id)
    ensures forall y :: Read(st.progress, y) ==> Read(CheckAll(cat, user, st, list, oks).store.progress, y)
    ensures CheckAll(cat, user, st, list, oks).fault.None?
  {
    var plan := Plan(cat, list);
    assert Resolved(plan);
    CheckAllFromSucceeds(st, plan, oks);
    assert forall i :: 0 <= i < |list| ==> plan[i].id == list[i].id;
  }

  // ---------------------------------------------------------------------
  // Derived views

  datatype Completion = Completion(total: nat, checked: nat, complete: bool)

  /** `opticCompletion[opticId]`: how many of the optic's reticles are checked. */
  function OpticCompletion(cat: seq<Reticle>, progress: map<Id, bool>, opticId: Id): (r: Completion)
    ensures r.checked <= r.total == |OfOptic(cat, opticId)|
    ensures r.complete <==> r.total > 0 && forall x :: x in OfOptic(cat, opticId) ==> Read(progress, x.id)
    ensures r.checked == 0 <==> forall x :: x in OfOptic(cat, opticId) ==> !Read(progress, x.id)
  {
    var list := OfOptic(cat, opticId);
    var ids := IdsOf(list);
    var n := CountChecked(progress, ids);
    assert n == |ids| <==> forall x :: x in list ==> Read(progress, x.id) by {
      if n == |ids| {
        forall x | x in list
          ensures Read(progress, x.id)
        {
          var i :| 0 <= i < |list| && list[i] == x;
          assert ids[i] == x.id;
        }
      }
    }
    assert n == 0 <==> forall x :: x in list ==> !Read(progress, x.id) by {
      if n == 0 {
        forall x | x in list
          ensures !Read(progress, x.id)
        {
          var i :| 0 <= i < |list| && list[i] == x;
          assert ids[i] == x.id;
        }
      }
    }
    Completion(|list|, n, |list| > 0 && n == |list|)
  }

  /** Some loaded reticle belongs to the optic. */
  predicate HasReticles(cat: seq<Reticle>, o: Optic) {
    exists i :: 0 <= i < |cat| && cat[i].opticId == o.id
  }

  /** `opticsWithReticles`: the optics, in their order, that have a reticle
      in the loaded mode. */
  function OpticsWithReticles(optics: seq<Optic>, cat: seq<Reticle>): (r: seq<Optic>)
    ensures |r| <= |optics|
    ensures forall o :: o in r <==> o in optics && HasReticles(cat, o)
  {
    if |optics| == 0 then []
    else
      assert forall o :: o in optics <==> o == optics[0] || o in optics[1..];
      (if HasReticles(cat, optics[0]) then [optics[0]] else []) + OpticsWithReticles(optics[1..], cat)
  }

  /** The filter keeps order: filtering a concatenation filters each part
      and keeps the parts in place. */
  lemma {:induction false} OpticsWithReticlesAppend(a: seq<Optic>, b: seq<Optic>, cat: seq<Reticle>)
    ensures OpticsWithReticles(a + b, cat) == OpticsWithReticles(a, cat) + OpticsWithReticles(b, cat)
    decreases |a|
  {
    if |a| == 0 {
      assert a + b == b;
    } else {
      assert (a + b)[0] == a[0];
      assert (a + b)[1..] == a[1..] + b;
      OpticsWithReticlesAppend(a[1..], b, cat);
    }
  }

  datatype Range = Short | Medium | Long

  /** The range bucket of an optic: its category when that names a bucket,
      otherwise (missing or unrecognised) medium. */
  function RangeOf(o: Optic): (k: Range)
    ensures o.rangeCategory.None? ==> k == Medium
    ensures k == Short <==> o.rangeCategory == Some("short")
    ensures k == Long <==> o.rangeCategory == Some("long")
  {
    match o.rangeCategory
    case Some(c) => if c == "short" then Short else if c == "long" then Long else Medium
    case None => Medium
  }

  /** Within a bucket optics are listed by slug, descending. */
  function SlugKey(o: Optic): Key {
    [Desc(o.slug)]
  }

  function RangeBucket(ows: seq<Optic>, k: Range): Group<Range, Optic> {
    Group(k, Sort(With(ows, RangeOf, k), SlugKey))
  }

  /** `opticsByRange`: the short, medium and long buckets, always all three. */
  function OpticsByRange(optics: seq<Optic>, cat: seq<Reticle>): seq<Group<Range, Optic>> {
    var ows := OpticsWithReticles(optics, cat);
    [RangeBucket(ows, Short), RangeBucket(ows, Medium), RangeBucket(ows, Long)]
  }

  lemma RangeBucketMembers(ows: seq<Optic>, k: Range)
    ensures forall o :: o in RangeBucket(ows, k).items <==> o in ows && RangeOf(o) == k
  {
    SortMembers(With(ows, RangeOf, k), SlugKey);
    WithMembers(ows, RangeOf, k);
  }

  /** A slug-descending list: every slug is at least the slugs after it. */
  lemma SlugDescending(s: seq<Optic>)
    requires IsSortedBy(s, SlugKey)
    ensures forall i, j :: 0 <= i < j < |s| ==> StrCmp(s[i].slug, s[j].slug) != Less
  {
    forall i, j | 0 <= i < j < |s|
      ensures StrCmp(s[i].slug, s[j].slug) != Less
    {
      var a, b := SlugKey(s[i]), SlugKey(s[j]);
      assert KeyLe(a, b);
      assert a[1..] == [] && b[1..] == [];
      assert KeyCmp(a[1..], b[1..]) == Equal;
      StrCmpFlip(s[i].slug, s[j].slug);
    }
  }

  /** One bucket holds exactly the optics with reticles of its range, by slug descending. */
  lemma RangeBucketShape(optics: seq<Optic>, cat: seq<Reticle>, k: Range)
    ensures forall o :: o in RangeBucket(OpticsWithReticles(optics, cat), k).items <==>
      o in optics && HasReticles(cat, o) && RangeOf(o) == k
    ensures forall a, b :: 0 <= a < b < |RangeBucket(OpticsWithReticles(optics, cat), k).items| ==>
      StrCmp(RangeBucket(OpticsWithReticles(optics, cat), k).items[a].slug,
             RangeBucket(OpticsWithReticles(optics, cat), k).items[b].slug) != Less
  {
    var ows := OpticsWithReticles(optics, cat);
    RangeBucketMembers(ows, k);
    SlugDescending(RangeBucket(ows, k).items);
  }

  /** The buckets are short, medium and long in that order; each optic that
      has reticles lands in exactly the bucket of its range; each bucket is
      ordered by slug, descending. */
  lemma OpticsByRangePartition(optics: seq<Optic>, cat: seq<Reticle>)
    ensures |OpticsByRange(optics, cat)| == 3
    ensures OpticsByRange(optics, cat)[0].key == Short && OpticsByRange(optics, cat)[1].key == Medium
      && OpticsByRange(optics, cat)[2].key == Long
    ensures forall i :: 0 <= i < 3 ==> forall o ::
      o in OpticsByRange(optics, cat)[i].items <==> o in optics && HasReticles(cat, o) && RangeOf(o) == OpticsByRange(optics, cat)[i].key
    ensures forall i :: 0 <= i < 3 ==> forall a, b :: 0 <= a < b < |OpticsByRange(optics, cat)[i].items| ==>
      StrCmp(OpticsByRange(optics, cat)[i].items[a].slug, OpticsByRange(optics, cat)[i].items[b].slug) != Less
  {
    var ows := OpticsWithReticles(optics, cat);
    var r := OpticsByRange(optics, cat);
    forall i | 0 <= i < 3
      ensures forall o :: o in r[i].items <==> o in optics && HasReticles(cat, o) && RangeOf(o) == r[i].key
      ensures forall a, b :: 0 <= a < b < |r[i].items| ==> StrCmp(r[i].items[a].slug, r[i].items[b].slug) != Less
    {
      var k := if i == 0 then Short else if i == 1 then Medium else Long;
      assert r[i] == RangeBucket(ows, k);
      RangeBucketShape(optics, cat, k);
    }
  }
}

=== FILE: seasons.dfy ===
/** Chronological grouping of the weapons of one class, shared verbatim by
    the mastery-camo and prestige-camo pages: weapons are ordered by release
    season ("Launch" first, then "Season N" by N, anything unrecognised last)
    and grouped under their season label. */
module Seasons {
  import opened Wrappers
  import opened Text
  import opened Ordering
  import opened Sorting
  import opened Grouping

  type Id = string

  datatype Weapon = Weapon(id: Id, classId: Id, displayName: string, slug: string, releaseSeason: Option<string>)

  /** The rank a weapon without a recognisable season gets. */
  const Unranked: int := 9999

  /** End of the longest run of digits starting at `j` (greedy `\d+`). */
  function DigitRun(t: string, j: nat): (e: nat)
    requires j <= |t|
    ensures j <= e <= |t|
    ensures forall k :: j <= k < e ==> IsDigit(t[k])
    ensures e == |t| || !IsDigit(t[e])
    decreases |t| - j
  {
    if j < |t| && IsDigit(t[j]) then DigitRun(t, j + 1) else j
  }

  /** `parseInt(ds, 10)` of a string of decimal digits. */
  function DigitsValue(ds: string): nat
    requires AllDigits(ds)
  {
    if |ds| == 0 then 0
    else DigitsValue(ds[..|ds| - 1]) * 10 + (ds[|ds| - 1] as int - '0' as int)
  }

  /** The regular expression `season\s*(\d+)` tried at position `i`: the
      captured number, if the match succeeds there. */
  function MatchAt(t: string, i: nat): Option<nat>
    requires i <= |t|
  {
    if i + 6 <= |t| && t[i..i + 6] == "season" then
      var j := SkipLeading(t, i + 6);  // `\s*`
      var e := DigitRun(t, j);
      if e > j then Some(DigitsValue(t[j..e])) else None
    else None
  }

  /** The pattern matches at `k` and at no position from `i` up to `k`. */
  predicate FirstMatch(t: string, i: nat, k: nat) {
    i <= k <= |t| && MatchAt(t, k).Some? && forall m :: i <= m < k ==> MatchAt(t, m).None?
  }

  /** There is at most one leftmost match. */
  lemma FirstMatchUnique(t: string, i: nat, k: nat, k': nat)
    requires FirstMatch(t, i, k) && FirstMatch(t, i, k')
    ensures k == k'
  {
  }

  /** A leftmost match from `i + 1` on is also one from `i` on when the
      pattern fails at `i`. */
  lemma FirstMatchStep(t: string, i: nat, k: nat)
    requires i < |t| && MatchAt(t, i).None? && FirstMatch(t, i + 1, k)
    ensures FirstMatch(t, i, k)
  {
  }

  /** `t.match(/season\s*(\d+)/)`: the leftmost match at or after `i`. */
  function Search(t: string, i: nat): (r: Option<nat>)
    requires i <= |t|
    ensures r.Some? ==> exists k :: FirstMatch(t, i, k) && MatchAt(t, k) == r
    ensures r.None? ==> forall k :: i <= k <= |t| ==> MatchAt(t, k).None?
    decreases |t| - i
  {
    var here := MatchAt(t, i);
    if here.Some? then
      assert FirstMatch(t, i, i);
      here
    else if i == |t| then None
    else
      var r := Search(t, i + 1);
      if r.Some? then
        var k :| FirstMatch(t, i + 1, k) && MatchAt(t, k) == r;
        FirstMatchStep(t, i, k);
        r
      else r
  }

  /** `seasonOrderValue`: the chronological rank of a release-season label. */
  function SeasonOrderValue(season: Option<string>): (v: int)
    ensures v >= 0
    ensures season.None? ==> v == Unranked
    ensures v == 0 <==> season.Some? && Trim(Lower(season.value)) == "launch"
    ensures season.Some? && Trim(Lower(season.value)) != "launch" ==>
      var t := Trim(Lower(season.value));
      && ((forall k :: 0 <= k <= |t| ==> MatchAt(t, k).None?) ==> v == Unranked)
      && (forall k :: FirstMatch(t, 0, k) ==> v == if MatchAt(t, k).value == 0 then Unranked else MatchAt(t, k).value)
  {
    if season.None? || season.value == "" then Unranked
    else
      var lower := Trim(Lower(season.value));
      if lower == "launch" then 0
      else
        var r := Search(lower, 0);
        match r
        case Some(n) =>
          assert forall k :: FirstMatch(lower, 0, k) ==> MatchAt(lower, k) == r by {
            forall k | FirstMatch(lower, 0, k)
              ensures MatchAt(lower, k) == r
            {
              var k0 :| FirstMatch(lower, 0, k0) && MatchAt(lower, k0) == r;
              FirstMatchUnique(lower, 0, k, k0);
            }
          }
          if n == 0 then Unranked else n
        case None => Unranked
  }

  lemma LowerSeasonLabel(ds: string)
    requires AllDigits(ds)
    ensures Lower("Season " + ds) == "season " + ds
  {
  }

  lemma SeasonMatch(ds: string)
    requires |ds| > 0 && AllDigits(ds)
    ensures MatchAt("season " + ds, 0) == Some(DigitsValue(ds))
  {
    var t := "season " + ds;
    assert t[0..6] == "season";
    assert !IsWhitespace(t[7]) by {
      assert t[7] == ds[0];
    }
    assert SkipLeading(t, 6) == 7;
    assert forall k :: 7 <= k < |t| ==> t[k] == ds[k - 7];
    assert DigitRun(t, 7) == |t|;
    assert t[7..|t|] == ds;
  }

  lemma SeasonTrimmed(ds: string)
    requires |ds| > 0 && AllDigits(ds)
    ensures Trim(Lower("Season " + ds)) == "season " + ds != "launch"
  {
    var t := "season " + ds;
    LowerSeasonLabel(ds);
    assert t[|t| - 1] == ds[|ds| - 1];
    assert t[0..6] == "season";
  }

  /** "Season N" ranks N for a positive N and is unranked for N = 0,
      whatever the spelling of N's digits (leading zeros included). */
  lemma SeasonNumber(ds: string)
    requires |ds| > 0 && AllDigits(ds)
    ensures SeasonOrderValue(Some("Season " + ds)) == (if DigitsValue(ds) == 0 then Unranked else DigitsValue(ds))
  {
    SeasonTrimmed(ds);
    SeasonMatch(ds);
  }

  /** Any label whose lower-cased, trimmed form never mentions "season" (and
      is not "launch") is unranked. */
  lemma NoSeasonWordUnranked(name: string)
    requires !Contains(Trim(Lower(name)), "season")
    requires Trim(Lower(name)) != "launch"
    ensures SeasonOrderValue(Some(name)) == Unranked
  {
    NoSeasonWordNoMatch(Trim(Lower(name)));
  }

  /** Without the word "season" the pattern matches nowhere. */
  lemma NoSeasonWordNoMatch(t: string)
    requires !Contains(t, "season")
    ensures Search(t, 0).None?
  {
    forall k | 0 <= k <= |t|
      ensures MatchAt(t, k).None?
    {
      assert !OccursAt(t, "season", k);
    }
  }

  /** The weapon order inside a class: season rank, then the raw label, then the name. */
  function WeaponKey(w: Weapon): Key {
    [Num(SeasonOrderValue(w.releaseSeason)), Asc(w.releaseSeason.GetOr("")), Asc(w.displayName)]
  }

  /** The heading a weapon is listed under. */
  function SeasonLabel(w: Weapon): string {
    w.releaseSeason.GetOr("Unreleased")
  }

  function OfClass(weapons: seq<Weapon>, classId: Id): (r: seq<Weapon>)
    ensures forall w :: w in r <==> w in weapons && w.classId == classId
  {
    if |weapons| == 0 then []
    else
      assert forall w :: w in weapons <==> w == weapons[0] || w in weapons[1..];
      (if weapons[0].classId == classId then [weapons[0]] else []) + OfClass(weapons[1..], classId)
  }

  /** The season groups of one class section, in order of first appearance in
      the season-sorted weapon list. */
  function SeasonGroups(weapons: seq<Weapon>, classId: Id): seq<Group<string, Weapon>> {
    GroupBy(Sort(OfClass(weapons, classId), WeaponKey), SeasonLabel)
  }

  /** Two season headings are listed in the order their labels first turn
      up in the season-sorted list, so the earlier heading's first weapon has
      a season rank no later than the later heading's. */
  lemma SeasonHeadsInOrder(weapons: seq<Weapon>, classId: Id, i: int, j: int)
    requires 0 <= i < j < |SeasonGroups(weapons, classId)|
    ensures FirstBefore(Sort(OfClass(weapons, classId), WeaponKey), SeasonLabel,
      SeasonGroups(weapons, classId)[i].key, SeasonGroups(weapons, classId)[j].key)
    ensures |SeasonGroups(weapons, classId)[i].items| > 0 && |SeasonGroups(weapons, classId)[j].items| > 0
    ensures SeasonOrderValue(SeasonGroups(weapons, classId)[i].items[0].releaseSeason)
      <= SeasonOrderValue(SeasonGroups(weapons, classId)[j].items[0].releaseSeason)
  {
    var sorted := Sort(OfClass(weapons, classId), WeaponKey);
    GroupByPartition(sorted, SeasonLabel);
    GroupHeadsInOrder(sorted, SeasonLabel, i, j);
    var g := SeasonGroups(weapons, classId);
    var a, b :| 0 <= a < b < |sorted| && sorted[a] == g[i].items[0] && sorted[b] == g[j].items[0];
    KeyLeFirstNum(WeaponKey(sorted[a]), WeaponKey(sorted[b]));
  }

  /** Every weapon of the class lands in exactly one season group, the one
      named by its label; groups are distinct and non-empty; within a group
      the weapons follow the season-sorted order; and the headings come in
      the order their labels first turn up in that list, hence by season. */
  lemma SeasonGroupsPartition(weapons: seq<Weapon>, classId: Id)
    ensures DistinctKeys(SeasonGroups(weapons, classId)) && NonEmpty(SeasonGroups(weapons, classId))
    ensures forall i, w :: 0 <= i < |SeasonGroups(weapons, classId)| ==>
      (w in SeasonGroups(weapons, classId)[i].items
       <==> w in weapons && w.classId == classId && SeasonGroups(weapons, classId)[i].key == SeasonLabel(w))
    ensures forall w :: w in weapons && w.classId == classId ==>
      exists i :: 0 <= i < |SeasonGroups(weapons, classId)| && SeasonGroups(weapons, classId)[i].key == SeasonLabel(w)
    ensures forall i :: 0 <= i < |SeasonGroups(weapons, classId)| ==>
      IsSortedBy(SeasonGroups(weapons, classId)[i].items, WeaponKey)
    ensures forall i, j :: 0 <= i < j < |SeasonGroups(weapons, classId)| ==>
      FirstBefore(Sort(OfClass(weapons, classId), WeaponKey), SeasonLabel,
        SeasonGroups(weapons, classId)[i].key, SeasonGroups(weapons, classId)[j].key)
    ensures forall i, j :: 0 <= i < j < |SeasonGroups(weapons, classId)| ==>
      SeasonOrderValue(SeasonGroups(weapons, classId)[i].items[0].releaseSeason)
      <= SeasonOrderValue(SeasonGroups(weapons, classId)[j].items[0].releaseSeason)
  {
    var sorted := Sort(OfClass(weapons, classId), WeaponKey);
    var g := SeasonGroups(weapons, classId);
    GroupByPartition(sorted, SeasonLabel);
    SortMembers(OfClass(weapons, classId), WeaponKey);
    forall i | 0 <= i < |g|
      ensures forall w :: w in g[i].items <==> w in sorted && SeasonLabel(w) == g[i].key
    {
      WithMembers(sorted, SeasonLabel, g[i].key);
    }
    forall w | w in weapons && w.classId == classId
      ensures exists i :: 0 <= i < |g| && g[i].key == SeasonLabel(w)
    {
      WithMembers(sorted, SeasonLabel, SeasonLabel(w));
      ItemsOfKeys(g, SeasonLabel(w));
    }
    forall i | 0 <= i < |g|
      ensures IsSortedBy(g[i].items, WeaponKey)
    {
      WithSorted(sorted, SeasonLabel, WeaponKey, g[i].key);
    }
    forall i, j | 0 <= i < j < |g|
      ensures FirstBefore(sorted, SeasonLabel, g[i].key, g[j].key)
      ensures SeasonOrderValue(g[i].items[0].releaseSeason) <= SeasonOrderValue(g[j].items[0].releaseSeason)
    {
      SeasonHeadsInOrder(weapons, classId, i, j);
    }
  }
}

=== FILE: sorting.dfy ===
/** The stable sort behind every `[...list].sort(cmp)` of the pages.

    JavaScript's `Array.prototype.sort` is stable, so items whose keys compare
    equal keep their input order. Insertion sort that places each new item
    after every item with an equal key has exactly that behaviour. */
module Sorting {
  import opened Ordering

  predicate IsSortedBy<T>(s: seq<T>, key: T -> Key) {
    forall i, j :: 0 <= i < j < |s| ==> KeyLe(key(s[i]), key(s[j]))
  }

  /** Inserts `x` into `r` just before the first item whose key is strictly greater. */
  function Insert<T>(x: T, r: seq<T>, key: T -> Key): (o: seq<T>)
    ensures multiset(o) == multiset(r) + multiset{x}
  {
    if |r| == 0 then [x]
    else if KeyCmp(key(x), key(r[0])) == Less then [x] + r
    else
      assert r == [r[0]] + r[1..];
      [r[0]] + Insert(x, r[1..], key)
  }

  lemma {:induction false} InsertSorted<T>(x: T, r: seq<T>, key: T -> Key)
    requires IsSortedBy(r, key)
    ensures IsSortedBy(Insert(x, r, key), key)
  {
    if |r| == 0 {
    } else if KeyCmp(key(x), key(r[0])) == Less {
      var o := [x] + r;
      forall i, j | 0 <= i < j < |o|
        ensures KeyLe(key(o[i]), key(o[j]))
      {
        if i == 0 && j > 1 {
          KeyLtLe(key(x), key(r[0]), key(r[j - 1]));
        }
      }
    } else {
      var t := Insert(x, r[1..], key);
      InsertSorted(x, r[1..], key);
      KeyCmpFlip(key(x), key(r[0]));
      var o := [r[0]] + t;
      forall i, j | 0 <= i < j < |o|
        ensures KeyLe(key(o[i]), key(o[j]))
      {
        if i == 0 {
          assert o[j] in multiset(t);
          if o[j] != x {
            assert o[j] in multiset(r[1..]);
            var k :| 1 <= k < |r| && r[k] == o[j];
            assert r[k] == r[1..][k - 1];
          }
        } else {
          assert o[i] == t[i - 1] && o[j] == t[j - 1];
        }
      }
    }
  }

  /** Stable sort of `s` by `key`. */
  function Sort<T>(s: seq<T>, key: T -> Key): (o: seq<T>)
    ensures multiset(o) == multiset(s)
    ensures IsSortedBy(o, key)
  {
    if |s| == 0 then []
    else
      var init := s[..|s| - 1];
      assert s == init + [s[|s| - 1]];
      var rest := Sort(init, key);
      InsertSorted(s[|s| - 1], rest, key);
      Insert(s[|s| - 1], rest, key)
  }

  lemma SortLength<T>(s: seq<T>, key: T -> Key)
    ensures |Sort(s, key)| == |s|
  {
    assert |multiset(Sort(s, key))| == |multiset(s)|;
  }

  lemma SortMembers<T>(s: seq<T>, key: T -> Key)
    ensures forall x :: x in Sort(s, key) <==> x in s
  {
    forall x
      ensures x in Sort(s, key) <==> x in s
    {
      assert x in Sort(s, key) <==> x in multiset(Sort(s, key));
      assert x in s <==> x in multiset(s);
    }
  }

  /** The items of `s` whose key is exactly `k`, in their order in `s`. */
  function FilterKey<T>(s: seq<T>, key: T -> Key, k: Key): (o: seq<T>)
    ensures forall i :: 0 <= i < |o| ==> o[i] in s && key(o[i]) == k
  {
    if |s| == 0 then []
    else if key(s[0]) == k then [s[0]] + FilterKey(s[1..], key, k)
    else FilterKey(s[1..], key, k)
  }

  lemma {:induction false} FilterKeyAppend<T>(a: seq<T>, b: seq<T>, key: T -> Key, k: Key)
    ensures FilterKey(a + b, key, k) == FilterKey(a, key, k) + FilterKey(b, key, k)
  {
    if |a| == 0 {
      assert a + b == b;
    } else {
      assert (a + b)[0] == a[0];
      assert (a + b)[1..] == a[1..] + b;
      FilterKeyAppend(a[1..], b, key, k);
    }
  }

  lemma {:induction false} FilterKeyNone<T>(s: seq<T>, key: T -> Key, k: Key)
    requires forall i :: 0 <= i < |s| ==> key(s[i]) != k
    ensures FilterKey(s, key, k) == []
  {
    if |s| > 0 {
      FilterKeyNone(s[1..], key, k);
    }
  }

  lemma {:induction false} InsertFilterKey<T>(x: T, r: seq<T>, key: T -> Key, k: Key)
    requires IsSortedBy(r, key)
    ensures FilterKey(Insert(x, r, key), key, k)
         == FilterKey(r, key, k) + (if key(x) == k then [x] else [])
  {
    if |r| == 0 {
    } else if KeyCmp(key(x), key(r[0])) == Less {
      if key(x) == k {
        forall j | 0 <= j < |r|
          ensures key(r[j]) != k
        {
          if j > 0 {
            KeyLtLe(key(x), key(r[0]), key(r[j]));
          }
          KeyCmpEqual(key(x), key(r[j]));
        }
        FilterKeyNone(r, key, k);
      }
      assert ([x] + r)[1..] == r;
    } else {
      InsertFilterKey(x, r[1..], key, k);
      assert ([r[0]] + Insert(x, r[1..], key))[1..] == Insert(x, r[1..], key);
    }
  }

  /** Stability: for every key value, the items carrying it appear in the
      sorted output in the same order as in the input. */
  lemma {:induction false} SortStable<T>(s: seq<T>, key: T -> Key, k: Key)
    ensures FilterKey(Sort(s, key), key, k) == FilterKey(s, key, k)
  {
    if |s| > 0 {
      var init := s[..|s| - 1];
      var x := s[|s| - 1];
      assert s == init + [x];
      SortStable(init, key, k);
      InsertFilterKey(x, Sort(init, key), key, k);
      FilterKeyAppend(init, [x], key, k);
    }
  }

  /** In a sorted list an item with a strictly smaller key sits strictly earlier. */
  lemma SortedBefore<T>(r: seq<T>, key: T -> Key, i: int, j: int)
    requires IsSortedBy(r, key)
    requires 0 <= i < |r| && 0 <= j < |r|
    requires KeyCmp(key(r[j]), key(r[i])) == Less
    ensures j < i
  {
    KeyCmpFlip(key(r[j]), key(r[i]));
    KeyCmpEqual(key(r[j]), key(r[i]));
  }
}

=== FILE: text.dfy ===
/** The few string primitives the pages rely on: `trim`, `toLowerCase`,
    `includes`, the `\d` and `\s` regular-expression classes and `replace(/\D/g, "")`. */
module Text {

  /** The characters JavaScript's `trim` removes and `\s` matches: the
      WhiteSpace and LineTerminator classes of ECMAScript (tab, vertical tab,
      form feed, byte-order mark, every space separator, LF, CR, LS, PS). */
  predicate IsWhitespace(c: char) {
    c == '\t' || c == '\n' || c == '\U{000B}' || c == '\U{000C}' || c == '\r'
    || c == ' ' || c == '\U{00A0}' || c == '\U{1680}'
    || ('\U{2000}' <= c <= '\U{200A}')
    || c == '\U{2028}' || c == '\U{2029}' || c == '\U{202F}' || c == '\U{205F}'
    || c == '\U{3000}' || c == '\U{FEFF}'
  }

  /** The first position at or after `i` that is not whitespace. */
  function SkipLeading(s: string, i: nat): (a: nat)
    requires i <= |s|
    ensures i <= a <= |s|
    ensures forall k :: i <= k < a ==> IsWhitespace(s[k])
    ensures a == |s| || !IsWhitespace(s[a])
    decreases |s| - i
  {
    if i < |s| && IsWhitespace(s[i]) then SkipLeading(s, i + 1) else i
  }

  /** The position just after the last non-whitespace character in
      `s[a..b]`, or `a` when there is none. */
  function SkipTrailing(s: string, a: nat, b: nat): (e: nat)
    requires a <= b <= |s|
    ensures a <= e <= b
    ensures forall k :: e <= k < b ==> IsWhitespace(s[k])
    ensures e == a || !IsWhitespace(s[e - 1])
    decreases b
  {
    if a < b && IsWhitespace(s[b - 1]) then SkipTrailing(s, a, b - 1) else b
  }

  /** `r` is the piece of `s` starting at `a`, with only whitespace before and after it. */
  predicate TrimmedAt(s: string, r: string, a: int) {
    0 <= a <= |s| - |r| && r == s[a..a + |r|]
    && (forall i :: 0 <= i < a ==> IsWhitespace(s[i]))
    && (forall i :: a + |r| <= i < |s| ==> IsWhitespace(s[i]))
  }

  /** `String.prototype.trim`: drops leading and trailing whitespace only. */
  function Trim(s: string): (r: string)
    ensures |r| <= |s|
    ensures r == [] || (!IsWhitespace(r[0]) && !IsWhitespace(r[|r| - 1]))
    ensures r == [] <==> forall i :: 0 <= i < |s| ==> IsWhitespace(s[i])
    ensures (|s| == 0 || (!IsWhitespace(s[0]) && !IsWhitespace(s[|s| - 1]))) ==> r == s
    ensures exists a :: TrimmedAt(s, r, a)
  {
    var a := SkipLeading(s, 0);
    var e := SkipTrailing(s, a, |s|);
    assert TrimmedAt(s, s[a..e], a);
    s[a..e]
  }

  function LowerChar(c: char): char {
    if 'A' <= c <= 'Z' then (c as int + 32) as char else c
  }

  /** `toLowerCase` on the ASCII letters; other characters are left as they are. */
  function Lower(s: string): (r: string)
    ensures |r| == |s|
  {
    seq(|s|, i requires 0 <= i < |s| => LowerChar(s[i]))
  }

  predicate IsPrefix(k: string, text: string) {
    |k| <= |text| && text[..|k|] == k
  }

  predicate OccursAt(text: string, k: string, i: int) {
    0 <= i <= |text| - |k| && text[i..i + |k|] == k
  }

  /** `text.includes(k)`: `k` occurs somewhere in `text` as a contiguous block. */
  function Contains(text: string, k: string): (b: bool)
    ensures b <==> exists i :: OccursAt(text, k, i)
    decreases |text|
  {
    if |k| > |text| then false
    else if text[..|k|] == k then
      assert OccursAt(text, k, 0);
      true
    else
      var b := Contains(text[1..], k);
      assert b ==> exists i :: OccursAt(text, k, i) by {
        if b {
          var j :| OccursAt(text[1..], k, j);
          assert text[j + 1..j + 1 + |k|] == text[1..][j..j + |k|];
          assert OccursAt(text, k, j + 1);
        }
      }
      assert (exists i :: OccursAt(text, k, i)) ==> b by {
        forall i | OccursAt(text, k, i)
          ensures b
        {
          assert i != 0;
          assert text[1..][i - 1..i - 1 + |k|] == text[i..i + |k|];
          assert OccursAt(text[1..], k, i - 1);
        }
      }
      b
  }

  /** Some keyword of `ks` occurs in `text` (`ks.some((k) => text.includes(k))`). */
  predicate ContainsAny(text: string, ks: seq<string>) {
    exists i :: 0 <= i < |ks| && Contains(text, ks[i])
  }

  predicate IsDigit(c: char) {
    '0' <= c <= '9'
  }

  predicate AllDigits(s: string) {
    forall i :: 0 <= i < |s| ==> IsDigit(s[i])
  }

  /** The regular expression `/^\d{7}$/`. */
  predicate IsSevenDigits(s: string) {
    |s| == 7 && AllDigits(s)
  }

  /** `s.replace(/\D/g, "")`: the digits of `s`, in order. */
  function DigitsOf(s: string): (r: string)
    ensures |r| <= |s|
    ensures AllDigits(r)
  {
    if |s| == 0 then []
    else if IsDigit(s[0]) then [s[0]] + DigitsOf(s[1..])
    else DigitsOf(s[1..])
  }

  lemma {:induction false} DigitsOfAllDigits(s: string)
    requires AllDigits(s)
    ensures DigitsOf(s) == s
  {
    if |s| > 0 {
      DigitsOfAllDigits(s[1..]);
      assert s == [s[0]] + s[1..];
    }
  }

  lemma {:induction false} DigitsOfAppend(a: string, b: string)
    ensures DigitsOf(a + b) == DigitsOf(a) + DigitsOf(b)
  {
    if |a| == 0 {
      assert a + b == b;
    } else {
      assert (a + b)[0] == a[0];
      assert (a + b)[1..] == a[1..] + b;
      DigitsOfAppend(a[1..], b);
    }
  }
}

=== FILE: wrappers.dfy ===
/** Nullable values and results with an error, the two shapes the pages'
    `T | null` fields and early-return error paths take. */
module Wrappers {

  datatype Option<+T> = None | Some(value: T) {
    /** The `??` operator: the value if present, otherwise the fallback. */
    function GetOr(default: T): T {
      match this
      case Some(v) => v
      case None => default
    }
  }

  datatype Result<+T, +E> = Ok(value: T) | Err(error: E)
}
